=== FILE: README.md ===
# blueprint-workflows: the decision core, modelled in Dafny

blueprint-workflows is a set of GitHub Actions written in TypeScript. They
work on a repository of Helm charts and kustomize projects. Under the calls
to git, helm, helm-docs and kubectl there is a layer of pure decisions, and
this project models that layer:

- which feature a unit's `.ci.config.yaml` switches on (`isFunctionEnabled`), and how a key falls back to its default (`unrapYamlbyKey`, `readPipelineFeature`, `readPipelineFeatureOptions`);
- how `HelmChart.template` judges a `helm template` result by its stderr lines, stdout length and exit code; and how `lint`, `DependencyUpdate` and `generateReadmeDocumentation` judge their tools;
- the directory walk `lookup`, the nearest-ancestor search `isFileFoundInPath`, the order-keeping de-duplication, and `findYamlKeyByDir`;
- the kustomize listing (candidate union, the chart `templates/` exclusion, the records) and the helm chart listing;
- the version bump in its kustomize and helm variants:
  - changed files are mapped to units;
  - each unit is classified Disabled, New, Okay or Bumped, with the resulting version;
- the k8s manifest templating plan: the default and additional runs, the generated `ENV<n>` prefixes, output folders, value-file arguments and helm flags;
- the helm-docs, manifest-validation and linting actions: options become flags, disabled charts are skipped, the first failure ends the run, and the docs push happens only after a README commit.

Tool output, file contents and environment variables are inputs:

- an `ExecResult` holds a tool's exit code, stdout and stderr;
- the `git diff` and `git status` texts are strings;
- base-branch file lists are sequences;
- a per-unit `.ci.config.yaml` is an `Option<YVal>`.

The file system is a finite tree of `Entry` values, and a path is a sequence of names. YAML values are a small `YVal` datatype, and a YAML document's `get` is `Yaml.Get` on a `Document` or `Node` holder. A thrown JavaScript error is an `Err` carrying an `Outcome.Failure`. Writes and commits are reported in the results rather than performed: a `written` version, a `created` version file, a `committed` README, a `pushed` flag. Both version-bump runs push unconditionally at their end, so their results carry no push flag; their per-unit commits show only as the `written` version.

Modules:

| module | concern |
|---|---|
| `Outcome` | `Option`, `Result`, failures, the first-failure loop `All` |
| `Text` | JavaScript `trim`, `split`, decimal numerals |
| `Yaml` | `YVal`, first-match key lookup, document and node `get`, truthiness, `String()` |
| `Config` | `isFunctionEnabled`, `unrapYamlbyKey`, `readPipelineFeature*`, option flags |
| `Sequences` | `removeDuplicatesFromStringArray` |
| `Tree` | the file tree and `lookup` |
| `Paths` | `isFileFoundInPath` |
| `HelmChart` | the verdicts on helm output, and the helm command lines |
| `Listing` | kustomize and helm listings, `findYamlKeyByDir` |
| `SemVer` | `M.m.p` versions: `compare`, `inc(patch)`, printing and parsing |
| `VersionBump` | both version-bump actions |
| `ManifestTemplating` | the k8s manifest templating action |
| `HelmActions` | helm-docs, manifest validation, linting |

Two behaviours of the code are modelled as written:

- The additional-templating loop increments its counter once per element and once more for each element without a prefix. Two unnamed elements therefore get `ENV1.` and `ENV3.`.
- `semver.inc` of an unreadable base version gives `null`, which `String()` prints as `"null"`. `HelmCompare` fails with `InvalidVersion("null")` in that case.

## Model

The command-line builders HelmChart.TemplateCommand (typescript/packages/shared/src/utils.ts:291), HelmChart.LintCommand (typescript/packages/shared/src/utils.ts:353) and HelmChart.DocsCommand (typescript/packages/shared/src/utils.ts:414-420), the template file list HelmActions.TemplateFiles (typescript/packages/helm-chart/docs/src/main.ts:65-69) and the output folder ManifestTemplating.Folder (typescript/packages/k8s-manifest-templating/src/main.ts:65) are definitions: they build the same strings as the source. The contracts of HelmActions.DocsChart, HelmActions.ValidateChart, HelmActions.LintChart and ManifestTemplating.Steps state their commands and folders in terms of them. The rows for HelmActions.DocsTemplatesInOrder and ManifestTemplating.DistinctPrefixesDistinctFolders state what the template list and the folder guarantee.

| member | source | states |
|---|---|---|
| Text.Trim | typescript/packages/shared/src/utils.ts:302 | the result is a slice of the input with only white space cut off on either side; it is empty exactly when the input is all white space |
| Text.Split | typescript/packages/shared/src/utils.ts:300-301 | no piece contains the separator, and joining the pieces with it gives back the input |
| Yaml.Lookup | typescript/packages/shared/src/utils.ts:105 | a map's `get` yields the value of the first pair with the key; it is absent exactly when no pair has the key |
| Yaml.Get | typescript/packages/shared/src/utils.ts:69 | `get` on a scalar node throws; on a document it never throws; it yields a value exactly when the subject is a map holding the key |
| Yaml.Stringify | typescript/packages/helm-chart/listing/src/index.ts:50 | a missing value prints as `undefined`; a string value is its own text; null, booleans and numbers print as JavaScript's `String()` of the plain value; a collection is printed as YAML |
| Config.IsFunctionEnabled | typescript/packages/shared/src/utils.ts:62-80 | without a config file, section or `enable`, the caller's default; `enable` of `true` or `"true"` gives true, `false` or `"false"` gives false; a result other than the default needs an `enable` value that prints as that word; it throws exactly when the section is a scalar or `enable` is null |
| Config.Unrap | typescript/packages/shared/src/utils.ts:104-117 | it throws exactly when `get` throws or the key is absent without a default; an absent key with a default, or a null or empty value, gives the default; any other value, including `false`, is returned as it is |
| Config.ReadPipelineFeature | typescript/packages/shared/src/utils.ts:369-387 | `false` (None) without a config file; a value it returns is the nested feature and is neither blank nor `false`; such a value is always returned; it throws exactly when the function section is a non-blank, non-`false` scalar |
| Config.ReadPipelineFeatureOptions | typescript/packages/shared/src/utils.ts:389-404 | `false` (None) without a config file |
| Config.OptionsAreTheOptionsFeature | typescript/packages/shared/src/utils.ts:389-404 | reading the options is reading the feature `options`, in every case, errors included |
| Config.EnabledSectionIsReadable | typescript/packages/k8s-manifest-templating/src/main.ts:58-60 | once the enable check has returned, reading a feature or the options of that section cannot throw |
| Config.OptionsHolder | typescript/packages/helm-chart/docs/src/main.ts:44-48 | the options are an empty document when the options read gives `false`, otherwise the options node; it fails exactly when that read throws |
| Config.Flag | typescript/packages/helm-chart/linting/src/main.ts:52-57 | a switch read with `if (unrapYamlbyKey(options, flag, default))`: absent, null or empty gives the default, a boolean is itself, any other value its JavaScript truthiness; it throws exactly when `get` does |
| Config.NoOptionsMeansDefaults | typescript/packages/helm-chart/docs/src/main.ts:44-58 | with the empty options document every switch takes its default |
| Config.TextOption | typescript/packages/helm-chart/docs/src/main.ts:60-63 | a valued option: absent, null or empty gives the default, a non-empty string is itself, any other value its `String()` rendering; it throws exactly when `get` does |
| Sequences.Dedup | typescript/packages/shared/src/utils.ts:97-103 | the result has no duplicates and holds exactly the input's elements |
| Sequences.RemoveDuplicates | typescript/packages/shared/src/utils.ts:97-103 | the loop computes the de-duplication: no duplicates, the same elements |
| Sequences.DedupKeepsFirstOccurrenceOrder | typescript/packages/shared/src/utils.ts:97-103 | the kept elements appear in the order of their first occurrences in the input |
| Sequences.DedupOfDistinct | typescript/packages/shared/src/utils.ts:97-103 | a sequence without duplicates is left unchanged |
| Sequences.DedupIdempotent | typescript/packages/shared/src/utils.ts:97-103 | de-duplicating twice is de-duplicating once |
| Sequences.DedupKeepsDistinctFront | typescript/packages/kustomize/listing/src/index.ts:35-39 | de-duplicating `a + b`, with `a` already distinct, keeps `a` unchanged at the front |
| Tree.LookupSound | typescript/packages/shared/src/utils.ts:23-40 | every path `lookup` returns is a directory below the root that directly holds the marker file |
| Tree.LookupComplete | typescript/packages/shared/src/utils.ts:23-40 | every directory below the root that directly holds the marker is returned |
| Tree.LookupExactly | typescript/packages/shared/src/utils.ts:23-40 | a path is returned if and only if it is a strict descendant of the root directly holding the marker |
| Tree.LookupOrdered | typescript/packages/shared/src/utils.ts:23-40 | no directory is returned twice, and a directory comes before its own descendants (pre-order) |
| Paths.FindInAncestors | typescript/packages/shared/src/utils.ts:82-95 | the answer is the deepest ancestor of the path's directory, the root included, that holds the file; there is none exactly when no ancestor holds it |
| Paths.IsFileFoundInPath | typescript/packages/shared/src/utils.ts:82-95 | the answer is `cwd + '/'` followed by that ancestor, or `false` exactly when there is no such ancestor |
| Paths.OwnDirectoryWins | typescript/packages/shared/src/utils.ts:88-90 | when the path's own directory holds the file, that directory is the answer |
| Paths.RootIsTried | typescript/packages/shared/src/utils.ts:91-94 | when the root holds the file, the search always finds an answer |
| HelmChart.AnyMatches | typescript/packages/shared/src/utils.ts:306 | `patterns.some(...)` holds exactly when some pattern matches the line |
| HelmChart.KeptMeaning | typescript/packages/shared/src/utils.ts:300-303 | the judged lines are exactly the trimmed pieces that are not blank, in the order of the pieces |
| HelmChart.FirstRejected | typescript/packages/shared/src/utils.ts:305-310 | there is a rejected line exactly when some line matches no pattern, and the index given is such a line |
| HelmChart.PatternsMeaning | typescript/packages/shared/src/utils.ts:296-297 | a line matches the effective pattern list exactly when the default pattern or a caller pattern matches it |
| HelmChart.RejectedMeaning | typescript/packages/shared/src/utils.ts:299-311 | the stderr check throws exactly when stderr is non-blank and some judged line is not allowed |
| Text.Utf16Length | typescript/packages/shared/src/utils.ts:313 | `length` counts UTF-16 code units: one per character, two for a character outside the Basic Multilingual Plane, so it equals the character count exactly when there is no such character |
| HelmChart.Template | typescript/packages/shared/src/utils.ts:286-321 | unexpected stderr first, then the empty manifest (stdout under 50 UTF-16 code units), then a non-zero exit with stderr; success exactly when none applies, returning stdout unchanged |
| HelmChart.AllowedLinePasses | typescript/packages/shared/src/utils.ts:299-320 | a single allowed stderr line, a long enough stdout and exit 0 make the call succeed |
| HelmChart.DeprecationWarningIsIgnored | typescript/packages/shared/src/utils.ts:296 | the deprecation warning alone on stderr never fails the call, whatever the caller's patterns |
| HelmChart.EmptyListIsDefaultOnly | typescript/packages/shared/src/utils.ts:297 | an empty pattern list behaves as an absent one: only the default pattern applies |
| HelmChart.NonZeroExitIsNeverMasked | typescript/packages/shared/src/utils.ts:313-319 | a non-zero exit code with any non-empty stderr always fails the call |
| HelmChart.ManifestFloorBoundary | typescript/packages/shared/src/utils.ts:313-315 | example of the floor: with clean stderr, stdout of 49 code units fails as an empty manifest and one of 50 passes |
| HelmChart.AstralCharactersCountTwice | typescript/packages/shared/src/utils.ts:313-315 | example of the floor in code units: 25 characters outside the Basic Multilingual Plane clear the 50-unit floor |
| HelmChart.Lint | typescript/packages/shared/src/utils.ts:345-360 | lint fails exactly on a non-zero exit with non-empty stderr, and otherwise returns stdout |
| HelmChart.DependencyUpdate | typescript/packages/shared/src/utils.ts:336-344 | the update fails exactly on a non-zero exit, and otherwise returns stdout |
| HelmChart.GenerateReadme | typescript/packages/shared/src/utils.ts:405-427 | helm-docs fails exactly on a non-zero exit with non-empty stderr |
| HelmChart.HelmValueFiles | typescript/packages/shared/src/utils.ts:326-335 | `-f <dir>/values.yaml` always leads, and ` -f <dir>/values.ci.yaml` follows exactly when that file exists |
| HelmChart.ExistingFiles | typescript/packages/shared/src/utils.ts:406-413 | the template files passed on are exactly the given ones that exist, in their given order |
| Listing.WalkFindsChart | typescript/packages/kustomize/listing/src/index.ts:48-71 | the upward walk finds a chart exactly when some directory on the path is `templates` and its immediate parent holds Chart.yaml |
| Listing.OutsideChartsMeaning | typescript/packages/kustomize/listing/src/index.ts:42-80 | the filter keeps exactly the candidates outside every chart's `templates`, in their order |
| Listing.KustomizeDirsExactly | typescript/packages/kustomize/listing/src/index.ts:35-80 | a directory is a kustomize unit exactly when it is below the root, holds either kustomization file, and is outside every chart's `templates` |
| Listing.KustomizeCandidatesOrder | typescript/packages/kustomize/listing/src/index.ts:35-39 | the candidates repeat nothing and start with the `.yaml` directories in lookup order |
| Listing.OnlyImmediateParentExcludes | typescript/packages/kustomize/listing/src/index.ts:52-63 | example of the exclusion: a Chart.yaml two levels above `templates` does not exclude; one directly above does |
| Listing.ManifestPathIsParent | typescript/packages/kustomize/listing/src/index.ts:116-117 | `relativePath` is `manifestPath`, a slash and the folder name |
| Listing.KustomizeEntry | typescript/packages/kustomize/listing/src/index.ts:91-119 | name and folder name are the basename, the key is `basename__basename`; `kustomizationFile` is `.yaml` exactly when that file exists, else `.yml` |
| Listing.RecordedFileExists | typescript/packages/kustomize/listing/src/index.ts:93-101 | the kustomization file a record names exists in a unit directory |
| Listing.KustomizeEntries | typescript/packages/kustomize/listing/src/index.ts:91-121 | one record per surviving candidate, in order |
| Listing.KustomizeListing | typescript/packages/kustomize/listing/src/index.ts:20-121 | an empty or undefined workspace fails with the missing-env message; otherwise one record per kustomize unit, in order, each the entry built for that unit's directory |
| Listing.HelmEntry | typescript/packages/helm-chart/listing/src/index.ts:44-58 | the key is the folder name, `__` and the chart's `name` as text; the name is the Chart.yaml `name` value; `dir`, `folderName` and `relativePath` come from the found directory |
| Listing.HelmListing | typescript/packages/helm-chart/listing/src/index.ts:20-60 | an empty or undefined workspace fails; otherwise one record per directory `lookup` finds, in that order |
| Listing.FindKeyByDir | typescript/packages/shared/src/utils.ts:42-54 | the key of the first record whose `dir` is the directory; null exactly when no record has it |
| SemVer.Compare | typescript/packages/kustomize/version-bump/src/main.ts:149 | -1, 0 or 1 exactly as the first version is lower than, equal to or higher than the second |
| SemVer.LessIsStrictTotalOrder | typescript/packages/kustomize/version-bump/src/main.ts:149-176 | precedence is irreflexive, transitive, total and asymmetric, so exactly one comparison branch applies |
| SemVer.IncPatch | typescript/packages/kustomize/version-bump/src/main.ts:146 | the patch increment is higher than its input and no higher than any version above the input |
| SemVer.ParseShow | typescript/packages/kustomize/version-bump/src/main.ts:145-146 | reading a printed version gives the version back |
| SemVer.ShowParse | typescript/packages/kustomize/version-bump/src/main.ts:145-146 | a text that reads as a version is that version's printed form |
| VersionBump.ReadOrCreateVersionFile | typescript/packages/shared/src/utils.ts:484-495 | a missing file is created and reads `0.0.0`; an empty or blank file reads `0.0.0`; otherwise the trimmed content is the version |
| VersionBump.BaseVersionText | typescript/packages/kustomize/version-bump/src/main.ts:145 | blank base-branch output means `0.0.1`, otherwise the trimmed output |
| VersionBump.VersionOfText | typescript/packages/kustomize/version-bump/src/main.ts:149 | a text reads as a version exactly when it is that version's printed form |
| VersionBump.KustomizeDecide | typescript/packages/kustomize/version-bump/src/main.ts:149-171 | bump exactly when local ≤ base, to base with patch+1, which is above both; otherwise the local version stays, labelled Major, Minor or Patch by the first component in which it exceeds the base |
| VersionBump.HelmDecide | typescript/packages/helm-chart/version-bump/src/main.ts:116-141 | bump exactly when local < base with patch+1, to that version, which is above both base and local |
| VersionBump.VariantsAgree | typescript/packages/helm-chart/version-bump/src/main.ts:118 | on plain versions both variants bump the same units to the same version |
| VersionBump.RerunKeepsBump | typescript/packages/kustomize/version-bump/src/main.ts:161-171 | re-running with the bumped version as local gives Keep(Patch) in the kustomize variant and Okay in the helm variant |
| VersionBump.ChangedPaths | typescript/packages/kustomize/version-bump/src/main.ts:71 | one path per diff line, each the line split at its slashes |
| VersionBump.RelevantMeaning | typescript/packages/kustomize/version-bump/src/main.ts:76-80 | exactly the paths whose file name is not ignored are kept, in their order |
| VersionBump.RelevantAppend | typescript/packages/kustomize/version-bump/src/main.ts:76-80 | the filter distributes over concatenation |
| VersionBump.IgnoredFileIsInvisible | typescript/packages/kustomize/version-bump/src/main.ts:76-80 | inserting an ignored file anywhere in the changes leaves the filtered changes unchanged |
| VersionBump.ProjectDir | typescript/packages/kustomize/version-bump/src/main.ts:83-87 | the nearest ancestor with the first marker wins; there is no unit exactly when no marker is found at any level |
| VersionBump.YmlOnlyWithoutAnyYaml | typescript/packages/kustomize/version-bump/src/main.ts:83-87 | a `kustomization.yml` directory is chosen only when no ancestor at any level holds `kustomization.yaml` |
| VersionBump.Put | typescript/packages/kustomize/version-bump/src/main.ts:92 | `record[key] = dir`: a new key goes last, a known key keeps its place and takes the new directory |
| VersionBump.AttributeFails | typescript/packages/kustomize/version-bump/src/main.ts:81-95 | attribution fails exactly when some changed path lies in a unit directory that no listing record names; a path in no unit is skipped |
| VersionBump.AttributeExtends | typescript/packages/kustomize/version-bump/src/main.ts:81-95 | the keys already collected stay, in order, at the front of the result |
| VersionBump.AttributeCovers | typescript/packages/kustomize/version-bump/src/main.ts:81-95 | every changed path's unit key is among the collected keys |
| VersionBump.AttributeOnlyChanged | typescript/packages/kustomize/version-bump/src/main.ts:81-95 | every collected key was collected before or is the unit key of some changed path |
| VersionBump.OneKeyPerUnit | typescript/packages/kustomize/version-bump/src/main.ts:92 | keys that start out distinct stay distinct: several changed files of one unit yield a single key |
| VersionBump.KustomizeCompare | typescript/packages/kustomize/version-bump/src/main.ts:143-176 | an unreadable local or base version fails; a bump writes base with patch+1 and only then; otherwise the result is the local version |
| VersionBump.KustomizeUnit | typescript/packages/kustomize/version-bump/src/main.ts:113-186 | Disabled exactly when the feature is off, New exactly when it is on and the kustomization file is not on the base branch; both report the local version unchanged and write nothing; a written version is the bumped result, above both local and base |
| VersionBump.RecordByKey | typescript/packages/kustomize/version-bump/src/main.ts:115 | the first listing record with the key, absent exactly when no record has it |
| VersionBump.KustomizeRows | typescript/packages/kustomize/version-bump/src/main.ts:113-187 | one row per attributed unit, in attribution order, each the unit's own outcome; otherwise the first failing unit's error ends the run |
| VersionBump.KustomizeRun | typescript/packages/kustomize/version-bump/src/main.ts:76-187 | a relevant changed path in an unlisted unit aborts the run |
| VersionBump.ChartVersion | typescript/packages/helm-chart/version-bump/src/main.ts:118 | a Chart.yaml version is read only from a string that is a printed version |
| VersionBump.VersionField | typescript/packages/helm-chart/version-bump/src/main.ts:97 | a missing `version` key reads as `0.0.0` |
| VersionBump.HelmCompare | typescript/packages/helm-chart/version-bump/src/main.ts:114-146 | an unreadable version fails; Bumped only when local ≤ base, writing base with patch+1; Okay only when local > base, writing nothing |
| VersionBump.HelmUnit | typescript/packages/helm-chart/version-bump/src/main.ts:87-154 | a missing Chart.yaml fails; Disabled exactly when the feature is off, New exactly when it is on and Chart.yaml is not on the base branch; only Bumped writes, and it writes base with patch+1 |
| VersionBump.HelmRows | typescript/packages/helm-chart/version-bump/src/main.ts:87-155 | one row per attributed chart, in attribution order, each the chart's own outcome; otherwise the first failing chart's error ends the run |
| VersionBump.HelmRun | typescript/packages/helm-chart/version-bump/src/main.ts:73-155 | any changed path in an unlisted chart aborts the run; there is no ignored-file filter |
| ManifestTemplating.AdditionalItems | typescript/packages/k8s-manifest-templating/src/main.ts:108 | additional elements exist only when `additional-manifest-templating` is a list, and when it is a list they are exactly its elements |
| ManifestTemplating.Runs | typescript/packages/k8s-manifest-templating/src/main.ts:110-120 | one run per element, in order, with the element's value files; a truthy prefix is used with a dot, otherwise a generated `ENV<n>.` |
| ManifestTemplating.RunsNumbering | typescript/packages/k8s-manifest-templating/src/main.ts:110-116 | the generated numbers are above the counter the loop starts from and strictly increase along the runs |
| ManifestTemplating.AdditionalRuns | typescript/packages/k8s-manifest-templating/src/main.ts:108-123 | an element that is not a map with a list of value files throws; otherwise the runs start from counter 0 |
| ManifestTemplating.GeneratedNameInjective | typescript/packages/k8s-manifest-templating/src/main.ts:115 | different counters give different `ENV` prefixes |
| ManifestTemplating.GeneratedPrefixesDistinct | typescript/packages/k8s-manifest-templating/src/main.ts:110-116 | two generated prefixes of one chart never coincide |
| ManifestTemplating.PlannedRuns | typescript/packages/k8s-manifest-templating/src/main.ts:94-123 | the default run comes first unless skipped, followed by the additional runs in order; the count is one for the default plus one per element |
| ManifestTemplating.OnlyFalseSkipsDefault | typescript/packages/k8s-manifest-templating/src/main.ts:100-105 | any `default-manifest-templating` other than boolean `false` keeps the default run, with empty prefix and no extra value files |
| ManifestTemplating.NonListAddsNothing | typescript/packages/k8s-manifest-templating/src/main.ts:107-123 | a missing or non-list `additional-manifest-templating` adds no run |
| ManifestTemplating.ExtraValueArgsSnoc | typescript/packages/k8s-manifest-templating/src/main.ts:85-87 | each further value file appends one ` -f ws/<rel>/<file>` |
| ManifestTemplating.ValueArgsShape | typescript/packages/k8s-manifest-templating/src/main.ts:84-87 | the arguments start with `-f ws/<rel>/values.yaml`, followed by one ` -f` per value file, in order |
| ManifestTemplating.HelmOptions | typescript/packages/k8s-manifest-templating/src/main.ts:78-82 | `--skip-crds` only when set, and `--output-dir "<folder>"` always, last |
| ManifestTemplating.NameText | typescript/packages/k8s-manifest-templating/src/main.ts:50 | a listing record without a name throws; a null or empty name becomes `undefined`; any other name is its `String()` text, a non-empty string name used as it is |
| ManifestTemplating.Steps | typescript/packages/k8s-manifest-templating/src/main.ts:63-92 | one templating call and one Templated row per run, into that run's folder with its value arguments and flags; the row names the chart, its folder, its key and `manifests/<manifestPath>/<prefix><name>`; `--skip-crds` is read only when a run happens |
| ManifestTemplating.Chart | typescript/packages/k8s-manifest-templating/src/main.ts:47-127 | a named chart gets one Disabled row (its name, folder and key, with manifest folder `-`) exactly when the feature is off; otherwise the steps of its planned runs; it fails exactly when the name is missing, the enable check throws, or for an enabled chart the run plan or a step fails |
| ManifestTemplating.Charts | typescript/packages/k8s-manifest-templating/src/main.ts:45-128 | charts are processed in listing order; the first failure ends the run |
| ManifestTemplating.DistinctPrefixesDistinctFolders | typescript/packages/k8s-manifest-templating/src/main.ts:65 | runs of one chart with different prefixes write into different folders |
| ManifestTemplating.ShouldCommitMeaning | typescript/packages/k8s-manifest-templating/src/main.ts:138-141 | some line of `git status` mentions `manifests/` exactly when the whole status does |
| Text.ContainsInPiece | typescript/packages/k8s-manifest-templating/src/main.ts:139-141 | text without a line break lies within one line: some line contains it exactly when the whole text does |
| ManifestTemplating.Templating | typescript/packages/k8s-manifest-templating/src/main.ts:129-149 | the run fails exactly when the chart loop fails; otherwise it holds every chart's outcome and commits exactly when `git status` mentions `manifests/` |
| HelmActions.SwitchesOn | typescript/packages/helm-chart/linting/src/main.ts:52-57 | the emitted flags are the switches that read as on, in the declared order, and no others |
| HelmActions.NoOptionsGivesDefaults | typescript/packages/helm-chart/docs/src/main.ts:44-58 | without options exactly the switches that default to on are emitted |
| HelmActions.EnabledOptions | typescript/packages/helm-chart/docs/src/main.ts:42-48 | for an enabled chart the options can always be read |
| HelmActions.DocsOptions | typescript/packages/helm-chart/docs/src/main.ts:50-61 | the switches come first, then `--sort-values-order <v>` and `--badge-style <v>` |
| HelmActions.DocsDefaults | typescript/packages/helm-chart/docs/src/main.ts:50-61 | without options: `--document-dependency-values`, `--sort-values-order alphanum`, `--badge-style flat-square` |
| HelmActions.DocsChart | typescript/packages/helm-chart/docs/src/main.ts:42-94 | a disabled chart gets a Disabled row and no generation; an enabled one gets helm-docs with the template files and options; it fails exactly when the enable check throws or, for an enabled chart, reading the options or helm-docs fails; a commit happens exactly when a `git status` line names `relativePath/<readme>` |
| HelmActions.DocsTemplatesInOrder | typescript/packages/helm-chart/docs/src/main.ts:65-71 | helm-docs gets only the template files that exist, header before the chart's `README.md.gotmpl` before footer; with all three present it gets all three; the chart's template is passed exactly when it exists |
| HelmActions.ReadmeChangedMeaning | typescript/packages/helm-chart/docs/src/main.ts:86 | for a README path without a line break, some line of `git status` names it exactly when the whole status does |
| HelmActions.CommitCount | typescript/packages/helm-chart/docs/src/main.ts:34 | `updatedReadmeCount` never exceeds the number of charts |
| HelmActions.CommitCountStep | typescript/packages/helm-chart/docs/src/main.ts:86-90 | each chart adds one to the count exactly when its README change was committed |
| HelmActions.PushIffSomeCommit | typescript/packages/helm-chart/docs/src/main.ts:104-109 | the commit count is positive exactly when some chart's README was committed |
| HelmActions.Docs | typescript/packages/helm-chart/docs/src/main.ts:36-109 | one outcome per chart, in listing order; the branch is pushed exactly when some README was committed |
| HelmActions.ValidateChart | typescript/packages/helm-chart/manifest-validation/src/main.ts:44-72 | a disabled chart gets a Disabled row and no template call; an enabled one renders with its switches and value files, passes its ignoreWarnings on unchanged; it fails exactly when the enable check throws or, for an enabled chart, reading a switch or the template verdict fails |
| HelmActions.ValidationDefaults | typescript/packages/helm-chart/manifest-validation/src/main.ts:52-63 | without options validation renders with `--dependency-update` only |
| HelmActions.DependencyUpdateCanBeSwitchedOff | typescript/packages/helm-chart/manifest-validation/src/main.ts:61-63 | an explicit `false` drops `--dependency-update` |
| HelmActions.Validation | typescript/packages/helm-chart/manifest-validation/src/main.ts:37-84 | a failure ends the run at the first failing chart; otherwise one outcome per chart, in listing order |
| HelmActions.LintChart | typescript/packages/helm-chart/linting/src/main.ts:44-63 | a disabled chart gets a Disabled row and no lint command; an enabled one gets `helm lint` with its switches and value files; it fails exactly when the enable check throws or, for an enabled chart, reading a switch or the lint verdict fails |
| HelmActions.LintingDefaults | typescript/packages/helm-chart/linting/src/main.ts:52-57 | without options lint runs with `--strict` only |
| HelmActions.Linting | typescript/packages/helm-chart/linting/src/main.ts:37-75 | a lint failure ends the run at the first failing chart; otherwise one outcome per chart, in listing order |

## Left out

- Process execution (git, helm, helm-docs, kubectl, bash): their outputs are inputs, and git add, commit and push are reported as flags and fields, not performed. The push at the end of both version-bump runs (typescript/packages/kustomize/version-bump/src/main.ts:204, typescript/packages/helm-chart/version-bump/src/main.ts:170) is unconditional and is not reported.
- File reads and writes: configuration, `.version` and Chart.yaml contents are inputs. The listing files are kept as sequences of records rather than written and re-read.
- YAML parsing and printing: `YVal` stands for a parsed document. Printing a collection is the `render` parameter.
- Duplicate keys in a YAML map, and in the listing document, are library-defined behaviour and are not modelled. Map lookups take the first pair.
- `Object.keys` puts integer-like keys first. This is not modelled: units are processed in the order in which they were first attributed.
- HelmChart.Template: a caller pattern that JavaScript cannot compile makes `new RegExp(pattern)` throw a SyntaxError once `some` reaches it (typescript/packages/shared/src/utils.ts:306), and the action fails with that error. The model assumes every pattern compiles. For such a pattern it returns `Ok` or `UnexpectedStderr`, depending on `matches`.
- Regular expressions: matching is the caller-supplied `matches` relation. Only the meaning of the default deprecation pattern is fixed, through the `DefaultPatternMeaning` precondition.
- semver beyond canonical `M.m.p` text is not modelled: a `v` or `=` prefix, surrounding white space, prerelease and build metadata. Such texts are unreadable versions in the model.
- semver's size limits are not modelled: it rejects texts over 256 characters and components above `Number.MAX_SAFE_INTEGER`, so `compare` throws and `inc` gives `null` for them. `SemVer.Version` holds unbounded naturals and reads such texts as versions.
- YAML numbers are integers in the model (`YNum(n: int)`): floats such as `enable: 1.5` and the loss of precision of JavaScript numbers above 2^53 are not represented, and neither is their `String()` text.
- Failing tool runs: `HelmChart.exec` and `Git.exec` (typescript/packages/shared/src/utils.ts:168-224) call `@actions/exec` without `ignoreReturnCode`, and that library rejects on every non-zero exit before `template`, `lint` or the other verdicts look at the result. The verdicts (HelmChart.Template, HelmChart.Lint, HelmChart.DependencyUpdate, HelmChart.GenerateReadme) are modelled over a result as given, so their non-zero-exit branches and the rows that follow them are not reached by the real wrapper, which fails the run instead. The library is not part of this model.
- Path normalisation by `path.join`, `path.parse`, `path.format` and `path.resolve` (`..`, repeated slashes, absolute paths) is not modelled. Paths are name sequences, printed joined by `/`.
- `isFileFoundInPath` does not terminate on an absolute path in the source; the model's paths are relative by construction.
- Symbolic links, and the directory order of `readdirSync`: `lookup` walks the tree's children in their given order.
- Helm version bump, base Chart.yaml: the inner `let cmdCommand` declarations are block-scoped, so the command run at typescript/packages/helm-chart/version-bump/src/main.ts:111 is the earlier `ls-tree`. The base document is taken as an input (`baseDocOf`); the model does not reproduce what that output would parse to.
- The `template` call in manifest templating is not awaited. The model records the command and the row, and does not consult the call's verdict.
- `readIgnoreWarnings` is not part of this model. Its result for each chart is an input (`ignoreWarningsOf`).
- The ignored-file list of the kustomize bump and its feature name are not part of this model. They are parameters (`ignored`, `feature`).
- Summary tables, markdown, logging and token URL rewriting: rows are small datatypes with a mark.
- typescript/packages/helm-chart/dep-build and typescript/packages/kustomize/manifest-validation are thin loops around tool calls and are not part of this model.
- Config.ReadPipelineFeatureOptions: its own contract states only the missing-file case. The full behaviour is stated by Config.OptionsAreTheOptionsFeature together with Config.ReadPipelineFeature.
- VersionBump.KustomizeRun: states only the abort on an unlisted unit. The rows of a successful run are stated by VersionBump.KustomizeRows, VersionBump.AttributeCovers and VersionBump.AttributeOnlyChanged.
- VersionBump.HelmRun: as VersionBump.KustomizeRun; the rows are stated by VersionBump.HelmRows.
- VersionBump.UnitName: a kustomize listing name that is not a string is shown as the folder's basename. The listing only ever writes string names.
- VersionBump.HelmUnit: the version text shown for a non-string Chart.yaml version uses `render`, not JavaScript's `String()` of the node.
- ManifestTemplating.Chart: a templated chart's steps are stated as those of ManifestTemplating.Steps for the planned runs, which states each row; the Chart contract itself does not list the rows.

=== FILE: config.dfy ===
/** Per-unit configuration resolution from an optional `.ci.config.yaml`
    (shared/src/utils.ts): the enable switch, key lookup with a default, and
    the feature and options sections. A configuration argument of None means
    the directory has no `.ci.config.yaml`. */
module Config {
  import opened Outcome
  import opened Yaml

  const CiConfigFile := ".ci.config.yaml"
  const EnableKey := "enable"
  const OptionsKey := "options"

  /** The function section of a configuration document, as `Document.get` finds it. */
  function SectionOf(doc: YVal, functionName: string): Option<YVal> {
    if doc.YMap? then Lookup(doc.pairs, functionName) else None
  }

  /** A key of the function section, when that section is a mapping. */
  function Nested(doc: YVal, functionName: string, key: string): Option<YVal> {
    match SectionOf(doc, functionName)
    case Some(YMap(ps)) => Lookup(ps, key)
    case _ => None
  }

  /** Whether a present `enable` value prints as "true", as "false", or as
      neither. null has no toString(). A number never prints as either word, and
      a collection prints as YAML text, which is never a bare word either. */
  function EnableWord(v: YVal): Result<Option<bool>> {
    match v
    case YNull => Err(TypeError("toString() of a null enable value"))
    case YBool(b) => Ok(Some(b))
    case YStr(s) => Ok(if s == "true" then Some(true) else if s == "false" then Some(false) else None)
    case _ => Ok(None)
  }

  /** isFunctionEnabled: an explicit "true" or "false" wins, anything else falls
      back to the caller's default. */
  function IsFunctionEnabled(config: Option<YVal>, functionName: string, defaultBehavior: bool): (r: Result<bool>)
    ensures config.None? ==> r == Ok(defaultBehavior)
    ensures config.Some? && SectionOf(config.value, functionName).None? ==> r == Ok(defaultBehavior)
    ensures config.Some? && SectionOf(config.value, functionName).Some? && SectionOf(config.value, functionName).value.YSeq?
            ==> r == Ok(defaultBehavior)
    ensures config.Some? && Nested(config.value, functionName, EnableKey) == Some(YBool(true)) ==> r == Ok(true)
    ensures config.Some? && Nested(config.value, functionName, EnableKey) == Some(YBool(false)) ==> r == Ok(false)
    ensures config.Some? && Nested(config.value, functionName, EnableKey) == Some(YStr("true")) ==> r == Ok(true)
    ensures config.Some? && Nested(config.value, functionName, EnableKey) == Some(YStr("false")) ==> r == Ok(false)
    ensures r.Ok? && r.value != defaultBehavior ==>
              config.Some? && Nested(config.value, functionName, EnableKey) in
                {Some(YBool(r.value)), Some(YStr(if r.value then "true" else "false"))}
    ensures r.Err? <==> config.Some? && SectionOf(config.value, functionName).Some? &&
                        (!IsCollection(SectionOf(config.value, functionName).value) ||
                         Nested(config.value, functionName, EnableKey) == Some(YNull))
  {
    if config.None? then Ok(defaultBehavior)
    else
      match SectionOf(config.value, functionName)
      case None => Ok(defaultBehavior)
      case Some(YMap(ps)) =>
        (match Lookup(ps, EnableKey)
         case None => Ok(defaultBehavior)
         case Some(e) =>
           var word :- EnableWord(e);
           Ok(word.GetOr(defaultBehavior)))
      case Some(YSeq(_)) => Ok(defaultBehavior)
      case Some(_) => Err(TypeError("has('" + EnableKey + "') on a scalar section"))
  }

  /** Values that unrapYamlbyKey replaces by the default: null and the empty string. */
  predicate Blank(v: YVal) {
    v == YNull || v == YStr("")
  }

  /** unrapYamlbyKey: an absent key without a default is an error; an absent key
      with a default, or a blank value, gives the default; anything else,
      including `false`, comes back unchanged. */
  function Unrap(h: Holder, key: string, default: Option<YVal>): (r: Result<Option<YVal>>)
    ensures r.Err? <==> Get(h, key).Err? || (Get(h, key) == Ok(None) && default.None?)
    ensures Get(h, key) == Ok(None) && default.Some? ==> r == Ok(default)
    ensures Get(h, key).Ok? && Get(h, key).value.Some? && Blank(Get(h, key).value.value) ==> r == Ok(default)
    ensures Get(h, key).Ok? && Get(h, key).value.Some? && !Blank(Get(h, key).value.value) ==> r == Get(h, key)
    ensures r.Ok? && r.value != default ==> r.value.Some? && !Blank(r.value.value) && Get(h, key) == r
  {
    var got :- Get(h, key);
    match got
    case None => if default.None? then Err(MissingKey(key)) else Ok(default)
    case Some(v) => if Blank(v) then Ok(default) else Ok(Some(v))
  }

  /** readPipelineFeature: the `feature` key of the function section, or None
      (the source's `false`) when the file, the section or the key is missing,
      blank or `false`. */
  function ReadPipelineFeature(config: Option<YVal>, functionName: string, feature: string): (r: Result<Option<YVal>>)
    ensures config.None? ==> r == Ok(None)
    ensures r.Ok? && r.value.Some? ==>
              config.Some? && Nested(config.value, functionName, feature) == r.value &&
              !Blank(r.value.value) && r.value.value != YBool(false)
    ensures config.Some? && Nested(config.value, functionName, feature).Some? &&
            !Blank(Nested(config.value, functionName, feature).value) &&
            Nested(config.value, functionName, feature).value != YBool(false)
            ==> r == Ok(Nested(config.value, functionName, feature))
    ensures r.Err? <==> config.Some? && SectionOf(config.value, functionName).Some? &&
                        !Blank(SectionOf(config.value, functionName).value) &&
                        SectionOf(config.value, functionName).value != YBool(false) &&
                        !IsCollection(SectionOf(config.value, functionName).value)
  {
    if config.None? then Ok(None)
    else
      var section := Unrap(Document(config.value), functionName, Some(YBool(false))).value;
      if section == Some(YBool(false)) then Ok(None)
      else
        var found :- Unrap(Node(section.value), feature, Some(YBool(false)));
        if found == Some(YBool(false)) then Ok(None) else Ok(found)
  }

  /** readPipelineFeatureOptions, written the way the source reads the `options`
      key: a probe with default `false`, then a second read without default. */
  function ReadPipelineFeatureOptions(config: Option<YVal>, functionName: string): (r: Result<Option<YVal>>)
    ensures config.None? ==> r == Ok(None)
  {
    if config.None? then Ok(None)
    else
      var probe := Unrap(Document(config.value), functionName, Some(YBool(false))).value;
      if probe == Some(YBool(false)) then Ok(None)
      else
        var content := Unrap(Document(config.value), functionName, None).value;
        var optionsProbe :- Unrap(Node(content.value), OptionsKey, Some(YBool(false)));
        if optionsProbe == Some(YBool(false)) then Ok(None)
        else Unrap(Node(content.value), OptionsKey, None)
  }

  /** The options reader is the feature reader applied to the `options` key: the
      second reads without default never fail once the probes succeeded. */
  lemma OptionsAreTheOptionsFeature(config: Option<YVal>, functionName: string)
    ensures ReadPipelineFeatureOptions(config, functionName) == ReadPipelineFeature(config, functionName, OptionsKey)
  {
  }

  /** Once the enable check has read the function section, reading a feature of
      it, or its options, cannot fail. */
  lemma EnabledSectionIsReadable(config: Option<YVal>, functionName: string, defaultBehavior: bool, feature: string)
    requires IsFunctionEnabled(config, functionName, defaultBehavior).Ok?
    ensures ReadPipelineFeature(config, functionName, feature).Ok?
    ensures ReadPipelineFeatureOptions(config, functionName).Ok?
  {
    OptionsAreTheOptionsFeature(config, functionName);
  }

  /** The holder the actions read their option flags from: the options node, or
      `new yaml.Document('')` when there is none. */
  function OptionsHolder(config: Option<YVal>, functionName: string): (r: Result<Holder>)
    ensures r.Ok? && ReadPipelineFeatureOptions(config, functionName) == Ok(None) ==> r.value == Document(YStr(""))
    ensures r.Ok? && ReadPipelineFeatureOptions(config, functionName).Ok? &&
            ReadPipelineFeatureOptions(config, functionName).value.Some?
            ==> r.value == Node(ReadPipelineFeatureOptions(config, functionName).value.value)
    ensures r.Err? <==> ReadPipelineFeatureOptions(config, functionName).Err?
  {
    var options :- ReadPipelineFeatureOptions(config, functionName);
    Ok(if options.None? then Document(YStr("")) else Node(options.value))
  }

  /** A boolean option as the actions test it: `if (unrapYamlbyKey(options, key, default))`. */
  function Flag(h: Holder, key: string, default: bool): (r: Result<bool>)
    ensures r.Err? <==> Get(h, key).Err?
    ensures Get(h, key) == Ok(None) ==> r == Ok(default)
    ensures Get(h, key) == Ok(Some(YNull)) ==> r == Ok(default)
    ensures Get(h, key).Ok? && Get(h, key).value.Some? && Blank(Get(h, key).value.value) ==> r == Ok(default)
    ensures Get(h, key) == Ok(Some(YBool(true))) ==> r == Ok(true)
    ensures Get(h, key) == Ok(Some(YBool(false))) ==> r == Ok(false)
    ensures Get(h, key).Ok? && Get(h, key).value.Some? && !Blank(Get(h, key).value.value)
            ==> r == Ok(Truthy(Get(h, key).value))
  {
    var v :- Unrap(h, key, Some(YBool(default)));
    Ok(Truthy(v))
  }

  /** Without an options section every flag takes its default. */
  lemma NoOptionsMeansDefaults(key: string, default: bool)
    ensures Flag(Document(YStr("")), key, default) == Ok(default)
  {
  }

  /** A valued option as the actions splice it into a command line:
      `'--flag ' + unrapYamlbyKey(options, key, default)`. */
  function TextOption(h: Holder, key: string, default: string, render: YVal -> string): (r: Result<string>)
    ensures r.Err? <==> Get(h, key).Err?
    ensures Get(h, key) == Ok(None) ==> r == Ok(default)
    ensures Get(h, key).Ok? && Get(h, key).value.Some? && Blank(Get(h, key).value.value) ==> r == Ok(default)
    ensures Get(h, key) == Ok(Some(YStr(default))) ==> r == Ok(default)
    ensures forall s :: s != "" && Get(h, key) == Ok(Some(YStr(s))) ==> r == Ok(s)
    ensures Get(h, key).Ok? && Get(h, key).value.Some? && !Blank(Get(h, key).value.value)
            ==> r == Ok(Stringify(Get(h, key).value, render))
  {
    var v :- Unrap(h, key, Some(YStr(default)));
    Ok(Stringify(v, render))
  }
}

=== FILE: helm_actions.dfy ===
/** The per-chart helm actions: README generation (helm-chart/docs), manifest
    validation (helm-chart/manifest-validation) and linting
    (helm-chart/linting). Each walks the chart listing, skips charts whose
    `.ci.config.yaml` switches it off, and stops at the first failure. */
module HelmActions {
  import opened Outcome
  import opened Yaml
  import Config
  import Text
  import HelmChart
  import Listing
  import opened Sequences

  const DocsFeature := "helm-docs"
  const ValidationFeature := "helm-chart-validation"
  const LintingFeature := "helm-chart-linting"

  const SortValuesOrder := "--sort-values-order"
  const BadgeStyle := "--badge-style"
  const OutputFile := "--output-file"
  const DefaultSortOrder := "alphanum"
  const DefaultBadgeStyle := "flat-square"
  const DefaultReadme := "README.md"
  const HeaderTemplate := "helm/charts/_templates_header.gotmpl"
  const FooterTemplate := "helm/charts/_templates_footer.gotmpl"
  const ReadmeTemplate := "README.md.gotmpl"

  /** The switches each action reads, with their defaults, in the order they are emitted. */
  const DocsSwitches: seq<(string, bool)> :=
    [("--document-dependency-values", true), ("--documentation-strict-mode", false), ("--skip-version-footer", false)]
  const ValidationSwitches: seq<(string, bool)> :=
    [("--skip-crds", false), ("--skip-tests", false), ("--include-crds", false), ("--dependency-update", true)]
  const LintingSwitches: seq<(string, bool)> := [("--strict", true), ("--with-subcharts", false)]

  /** The switches that are on, pushed in order: `if (unrapYamlbyKey(options, flag, default)) push(flag)`. */
  function SwitchesOn(h: Holder, switches: seq<(string, bool)>): (r: Result<seq<string>>)
    ensures |switches| > 0 ==> (r.Err? <==> Get(h, switches[0].0).Err?)
    ensures r.Ok? ==> IsSubsequence(r.value, Firsts(switches))
    ensures r.Ok? ==> forall i :: 0 <= i < |switches| ==>
              Config.Flag(h, switches[i].0, switches[i].1).Ok? &&
              (Config.Flag(h, switches[i].0, switches[i].1) == Ok(true) ==> switches[i].0 in r.value)
    ensures r.Ok? ==> forall f :: f in r.value ==>
              exists i :: 0 <= i < |switches| && switches[i].0 == f && Config.Flag(h, f, switches[i].1) == Ok(true)
  {
    if |switches| == 0 then Ok([])
    else
      var on :- Config.Flag(h, switches[0].0, switches[0].1);
      var tail := switches[1..];
      assert forall i :: 1 <= i < |switches| ==> switches[i] == tail[i - 1];
      assert Firsts(switches)[1..] == Firsts(tail);
      assert |tail| > 0 ==> (Get(h, tail[0].0).Err? <==> Get(h, switches[0].0).Err?);
      var rest := SwitchesOn(h, tail).value;
      if on then
        var r := [switches[0].0] + rest;
        assert r[1..] == rest;
        Ok(r)
      else Ok(rest)
  }

  /** The switches that are on by default, in order. */
  function Defaults(switches: seq<(string, bool)>): seq<string> {
    if |switches| == 0 then []
    else (if switches[0].1 then [switches[0].0] else []) + Defaults(switches[1..])
  }

  /** Without an options section exactly the switches that default to on are emitted. */
  lemma {:induction false} NoOptionsGivesDefaults(switches: seq<(string, bool)>)
    ensures SwitchesOn(Document(YStr("")), switches) == Ok(Defaults(switches))
  {
    if |switches| > 0 {
      var h := Document(YStr(""));
      Config.NoOptionsMeansDefaults(switches[0].0, switches[0].1);
      NoOptionsGivesDefaults(switches[1..]);
      SwitchesOnStep(h, switches);
    }
  }

  /** One step of SwitchesOn: the first switch's name when its flag is on, then the rest. */
  lemma SwitchesOnStep(h: Holder, switches: seq<(string, bool)>)
    requires |switches| > 0 && Config.Flag(h, switches[0].0, switches[0].1).Ok?
    ensures SwitchesOn(h, switches).Ok? && SwitchesOn(h, switches[1..]).Ok?
    ensures SwitchesOn(h, switches).value ==
            (if Config.Flag(h, switches[0].0, switches[0].1).value then [switches[0].0] else []) + SwitchesOn(h, switches[1..]).value
  {
  }

  datatype Mark = Done | Disabled

  /** A row of an action's result table: listing key, result, relative path. */
  datatype Row = Row(key: string, mark: Mark, relativePath: string)

  /** The options holder of an enabled chart; reading it cannot fail once the enable check passed. */
  function EnabledOptions(config: Option<YVal>, feature: string): (h: Holder)
    requires Config.IsFunctionEnabled(config, feature, true).Ok?
    ensures Config.OptionsHolder(config, feature) == Ok(h)
  {
    Config.EnabledSectionIsReadable(config, feature, true, Config.OptionsKey);
    Config.OptionsHolder(config, feature).value
  }

  // ---------------------------------------------------------------- docs

  /** The helm-docs options: the switches, then the sort order and badge style. */
  function DocsOptions(h: Holder, render: YVal -> string): (r: Result<seq<string>>)
    ensures r.Err? <==> Get(h, DocsSwitches[0].0).Err?
    ensures r.Ok? ==>
              |r.value| >= 2 &&
              r.value[|r.value| - 2] == SortValuesOrder + " " + Config.TextOption(h, SortValuesOrder, DefaultSortOrder, render).value &&
              r.value[|r.value| - 1] == BadgeStyle + " " + Config.TextOption(h, BadgeStyle, DefaultBadgeStyle, render).value &&
              r.value[..|r.value| - 2] == SwitchesOn(h, DocsSwitches).value
  {
    var switches :- SwitchesOn(h, DocsSwitches);
    var sort := Config.TextOption(h, SortValuesOrder, DefaultSortOrder, render).value;
    var badge := Config.TextOption(h, BadgeStyle, DefaultBadgeStyle, render).value;
    var r := switches + [SortValuesOrder + " " + sort, BadgeStyle + " " + badge];
    assert r[..|r| - 2] == switches;
    Ok(r)
  }

  /** Without options helm-docs gets its defaults. */
  lemma DocsDefaults(render: YVal -> string)
    ensures DocsOptions(Document(YStr("")), render) ==
            Ok(["--document-dependency-values", SortValuesOrder + " " + DefaultSortOrder, BadgeStyle + " " + DefaultBadgeStyle])
  {
    NoOptionsGivesDefaults(DocsSwitches);
    var s := DocsSwitches;
    assert Defaults(s[2..]) == [] by {
      assert s[2..][1..] == [];
    }
    assert Defaults(s[1..]) == [] by {
      assert s[1..][1..] == s[2..];
    }
    assert Defaults(s) == [s[0].0] + [] == [s[0].0];
    var h := Document(YStr(""));
    assert Config.TextOption(h, SortValuesOrder, DefaultSortOrder, render) == Ok(DefaultSortOrder);
    assert Config.TextOption(h, BadgeStyle, DefaultBadgeStyle, render) == Ok(DefaultBadgeStyle);
    assert [s[0].0] + [SortValuesOrder + " " + DefaultSortOrder, BadgeStyle + " " + DefaultBadgeStyle] ==
           ["--document-dependency-values", SortValuesOrder + " " + DefaultSortOrder, BadgeStyle + " " + DefaultBadgeStyle];
  }

  /** header, the chart's README.md.gotmpl, footer: in that order. */
  function TemplateFiles(ws: string, dir: string): seq<string> {
    [ws + "/" + HeaderTemplate, dir + "/" + ReadmeTemplate, ws + "/" + FooterTemplate]
  }

  /** Only the existing template files reach helm-docs, header before the
      chart's template before footer; with all three present, all three go. */
  lemma DocsTemplatesInOrder(ws: string, dir: string, present: string -> bool)
    ensures IsSubsequence(HelmChart.ExistingFiles(TemplateFiles(ws, dir), present), TemplateFiles(ws, dir))
    ensures (forall f :: f in TemplateFiles(ws, dir) ==> present(f)) ==>
              HelmChart.ExistingFiles(TemplateFiles(ws, dir), present) == TemplateFiles(ws, dir)
    ensures dir + "/" + ReadmeTemplate in HelmChart.ExistingFiles(TemplateFiles(ws, dir), present) <==>
              present(dir + "/" + ReadmeTemplate)
  {
    var t := TemplateFiles(ws, dir);
    assert t[1..][1..] == [t[2]] && t[1..][1..][1..] == [];
    if present(t[0]) && present(t[1]) && present(t[2]) {
      assert HelmChart.ExistingFiles(t[1..][1..], present) == [t[2]];
      assert HelmChart.ExistingFiles(t[1..], present) == [t[1], t[2]];
    }
  }

  /** Whether some line of `git status` names the chart's README file. */
  predicate ReadmeChanged(status: string, relativePath: string, readme: string) {
    Text.SomePieceContains(status, '\n', relativePath + "/" + readme)
  }

  /** A README path holds no line break, so some line names it exactly when
      the whole status does. */
  lemma ReadmeChangedMeaning(status: string, relativePath: string, readme: string)
    requires '\n' !in relativePath + "/" + readme
    ensures ReadmeChanged(status, relativePath, readme) <==> Text.Contains(status, relativePath + "/" + readme)
  {
    Text.ContainsInPiece(status, '\n', relativePath + "/" + readme);
  }

  /** What one chart contributes to the docs run. */
  datatype DocsOutcome =
    | DocsSkipped(row: Row)
    | DocsGenerated(row: Row, command: string, committed: bool)

  /** The inputs for one chart: its configuration, which template files
      exist, what helm-docs returned, and `git status` afterwards. */
  datatype DocsInputs = DocsInputs(config: Option<YVal>, present: string -> bool, generated: HelmChart.ExecResult,
                                   status: string)

  function DocsChart(ws: string, item: Listing.Item, inp: DocsInputs, render: YVal -> string): (r: Result<DocsOutcome>)
    ensures r.Ok? ==> r.value.row == Row(item.key, if r.value.DocsSkipped? then Disabled else Done, item.record.relativePath)
    ensures r.Ok? && r.value.DocsSkipped? <==> Config.IsFunctionEnabled(inp.config, DocsFeature, true) == Ok(false)
    ensures r.Ok? && r.value.DocsGenerated? ==> HelmChart.GenerateReadme(inp.generated).Ok?
    ensures r.Ok? && r.value.DocsGenerated? ==>
              Config.OptionsHolder(inp.config, DocsFeature).Ok? &&
              var h := Config.OptionsHolder(inp.config, DocsFeature).value;
              DocsOptions(h, render).Ok? &&
              r.value.command == HelmChart.DocsCommand(item.record.dir, TemplateFiles(ws, item.record.dir), inp.present,
                                                       DocsOptions(h, render).value) &&
              (r.value.committed <==> ReadmeChanged(inp.status, item.record.relativePath,
                                                   Config.TextOption(h, OutputFile, DefaultReadme, render).value))
    ensures r.Err? <==>
              Config.IsFunctionEnabled(inp.config, DocsFeature, true).Err? ||
              (Config.IsFunctionEnabled(inp.config, DocsFeature, true) == Ok(true) &&
               (DocsOptions(EnabledOptions(inp.config, DocsFeature), render).Err? || HelmChart.GenerateReadme(inp.generated).Err?))
  {
    var enabled :- Config.IsFunctionEnabled(inp.config, DocsFeature, true);
    if !enabled then Ok(DocsSkipped(Row(item.key, Disabled, item.record.relativePath)))
    else
      var h := EnabledOptions(inp.config, DocsFeature);
      var options :- DocsOptions(h, render);
      var readme := Config.TextOption(h, OutputFile, DefaultReadme, render).value;
      var command := HelmChart.DocsCommand(item.record.dir, TemplateFiles(ws, item.record.dir), inp.present, options);
      var _ :- HelmChart.GenerateReadme(inp.generated);
      Ok(DocsGenerated(Row(item.key, Done, item.record.relativePath), command,
                       ReadmeChanged(inp.status, item.record.relativePath, readme)))
  }

  function Committed(o: DocsOutcome): bool {
    o.DocsGenerated? && o.committed
  }

  /** `updatedReadmeCount`: the charts whose README change was committed. */
  function CommitCount(os: seq<DocsOutcome>): (n: nat)
    ensures n <= |os|
  {
    if |os| == 0 then 0 else (if Committed(os[0]) then 1 else 0) + CommitCount(os[1..])
  }

  /** The loop's `updatedReadmeCount++`: each further chart adds one exactly when it committed. */
  lemma {:induction false} CommitCountStep(os: seq<DocsOutcome>, o: DocsOutcome)
    ensures CommitCount(os + [o]) == CommitCount(os) + (if Committed(o) then 1 else 0)
  {
    if |os| == 0 {
      assert os + [o] == [o];
      assert [o][1..] == [];
    } else {
      assert (os + [o])[0] == os[0];
      assert (os + [o])[1..] == os[1..] + [o];
      CommitCountStep(os[1..], o);
    }
  }

  /** A push happens exactly when some chart's README was committed. */
  lemma {:induction false} PushIffSomeCommit(os: seq<DocsOutcome>)
    ensures CommitCount(os) > 0 <==> exists i :: 0 <= i < |os| && Committed(os[i])
  {
    if |os| > 0 {
      PushIffSomeCommit(os[1..]);
      assert forall i :: 1 <= i < |os| ==> os[i] == os[1..][i - 1];
      if Committed(os[0]) {
        assert CommitCount(os) > 0;
      } else {
        assert forall i :: 0 <= i < |os| && Committed(os[i]) ==> 1 <= i;
      }
    }
  }

  /** The whole docs run: every chart's outcome, and whether the branch is pushed. */
  datatype DocsRun = DocsRun(charts: seq<DocsOutcome>, pushed: bool)

  function Docs(ws: string, listing: seq<Listing.Item>, inputsOf: string -> DocsInputs, render: YVal -> string)
    : (r: Result<DocsRun>)
    ensures r.Err? <==> exists i :: 0 <= i < |listing| && DocsChart(ws, listing[i], inputsOf(listing[i].record.dir), render).Err?
    ensures r.Ok? ==> |r.value.charts| == |listing| && forall i :: 0 <= i < |listing| ==>
              DocsChart(ws, listing[i], inputsOf(listing[i].record.dir), render) == Ok(r.value.charts[i])
    ensures r.Ok? ==> (r.value.pushed <==> exists i :: 0 <= i < |r.value.charts| && Committed(r.value.charts[i]))
  {
    var step := (item: Listing.Item) => DocsChart(ws, item, inputsOf(item.record.dir), render);
    assert forall i :: 0 <= i < |listing| ==> step(listing[i]) == DocsChart(ws, listing[i], inputsOf(listing[i].record.dir), render);
    var charts :- All(listing, step);
    PushIffSomeCommit(charts);
    Ok(DocsRun(charts, CommitCount(charts) > 0))
  }

  // ---------------------------------------------------------------- validation

  /** What one chart contributes to validation or linting: a row, and the
      helm command when one ran. */
  datatype Checked = Checked(row: Row, command: Option<string>)

  /** The inputs for one chart: configuration, whether values.ci.yaml exists,
      and what the helm command returned. */
  datatype CheckInputs = CheckInputs(config: Option<YVal>, ciValuesExists: bool, result: HelmChart.ExecResult)

  /** Manifest validation of one chart. `ignoreWarnings` is the section-level
      allow-list, handed to `template` as it is. */
  function ValidateChart(item: Listing.Item, inp: CheckInputs, ignoreWarnings: Option<seq<string>>,
                         matches: (string, string) -> bool): (r: Result<Checked>)
    ensures r.Ok? ==> r.value.row == Row(item.key, if r.value.command.None? then Disabled else Done, item.record.relativePath)
    ensures r.Ok? && r.value.command.None? <==> Config.IsFunctionEnabled(inp.config, ValidationFeature, true) == Ok(false)
    ensures r.Ok? && r.value.command.Some? ==>
              HelmChart.Template(item.record.dir, inp.result, ignoreWarnings, matches).Ok? &&
              Config.OptionsHolder(inp.config, ValidationFeature).Ok? &&
              var h := Config.OptionsHolder(inp.config, ValidationFeature).value;
              SwitchesOn(h, ValidationSwitches).Ok? &&
              r.value.command.value == HelmChart.TemplateCommand(item.record.dir,
                                         HelmChart.HelmValueFiles(item.record.dir, inp.ciValuesExists),
                                         SwitchesOn(h, ValidationSwitches).value)
    ensures r.Err? <==>
              Config.IsFunctionEnabled(inp.config, ValidationFeature, true).Err? ||
              (Config.IsFunctionEnabled(inp.config, ValidationFeature, true) == Ok(true) &&
               (SwitchesOn(EnabledOptions(inp.config, ValidationFeature), ValidationSwitches).Err? ||
                HelmChart.Template(item.record.dir, inp.result, ignoreWarnings, matches).Err?))
  {
    var enabled :- Config.IsFunctionEnabled(inp.config, ValidationFeature, true);
    if !enabled then Ok(Checked(Row(item.key, Disabled, item.record.relativePath), None))
    else
      var h := EnabledOptions(inp.config, ValidationFeature);
      var options :- SwitchesOn(h, ValidationSwitches);
      var command := HelmChart.TemplateCommand(item.record.dir, HelmChart.HelmValueFiles(item.record.dir, inp.ciValuesExists),
                                               options);
      var _ :- HelmChart.Template(item.record.dir, inp.result, ignoreWarnings, matches);
      Ok(Checked(Row(item.key, Done, item.record.relativePath), Some(command)))
  }

  /** Without options validation renders with `--dependency-update` only. */
  lemma ValidationDefaults()
    ensures SwitchesOn(Document(YStr("")), ValidationSwitches) == Ok(["--dependency-update"])
  {
    NoOptionsGivesDefaults(ValidationSwitches);
    var s := ValidationSwitches;
    assert Defaults(s[3..]) == ["--dependency-update"] by {
      assert s[3..][1..] == [];
    }
    assert Defaults(s[2..]) == ["--dependency-update"] by {
      assert s[2..][1..] == s[3..];
    }
    assert Defaults(s[1..]) == ["--dependency-update"] by {
      assert s[1..][1..] == s[2..];
    }
  }

  /** An explicit false drops `--dependency-update`. */
  lemma DependencyUpdateCanBeSwitchedOff(pairs: seq<Pair>)
    requires Lookup(pairs, "--dependency-update") == Some(YBool(false))
    ensures SwitchesOn(Node(YMap(pairs)), ValidationSwitches).Ok?
    ensures "--dependency-update" !in SwitchesOn(Node(YMap(pairs)), ValidationSwitches).value
  {
    var h := Node(YMap(pairs));
    assert Config.Flag(h, "--dependency-update", true) == Ok(false);
  }

  /** The validation run: the first chart that fails validation ends it. */
  function Validation(listing: seq<Listing.Item>, inputsOf: string -> CheckInputs, ignoreWarningsOf: string -> Option<seq<string>>,
                      matches: (string, string) -> bool): (r: Result<seq<Checked>>)
    ensures r.Err? ==>
              exists i :: 0 <= i < |listing| &&
                ValidateChart(listing[i], inputsOf(listing[i].record.dir), ignoreWarningsOf(listing[i].record.dir), matches).Err? &&
                forall j :: 0 <= j < i ==>
                  ValidateChart(listing[j], inputsOf(listing[j].record.dir), ignoreWarningsOf(listing[j].record.dir), matches).Ok?
    ensures r.Ok? ==> |r.value| == |listing| && forall i :: 0 <= i < |listing| ==>
              ValidateChart(listing[i], inputsOf(listing[i].record.dir), ignoreWarningsOf(listing[i].record.dir), matches)
              == Ok(r.value[i])
  {
    var step := (item: Listing.Item) =>
      ValidateChart(item, inputsOf(item.record.dir), ignoreWarningsOf(item.record.dir), matches);
    assert forall i :: 0 <= i < |listing| ==>
      step(listing[i]) == ValidateChart(listing[i], inputsOf(listing[i].record.dir), ignoreWarningsOf(listing[i].record.dir), matches);
    All(listing, step)
  }

  // ---------------------------------------------------------------- linting

  /** Linting of one chart; its ✅ row exists only when lint returned. */
  function LintChart(item: Listing.Item, inp: CheckInputs): (r: Result<Checked>)
    ensures r.Ok? ==> r.value.row == Row(item.key, if r.value.command.None? then Disabled else Done, item.record.relativePath)
    ensures r.Ok? && r.value.command.None? <==> Config.IsFunctionEnabled(inp.config, LintingFeature, true) == Ok(false)
    ensures r.Ok? && r.value.command.Some? ==>
              HelmChart.Lint(inp.result).Ok? &&
              Config.OptionsHolder(inp.config, LintingFeature).Ok? &&
              var h := Config.OptionsHolder(inp.config, LintingFeature).value;
              SwitchesOn(h, LintingSwitches).Ok? &&
              r.value.command.value == HelmChart.LintCommand(item.record.dir,
                                         HelmChart.HelmValueFiles(item.record.dir, inp.ciValuesExists),
                                         SwitchesOn(h, LintingSwitches).value)
    ensures r.Err? <==>
              Config.IsFunctionEnabled(inp.config, LintingFeature, true).Err? ||
              (Config.IsFunctionEnabled(inp.config, LintingFeature, true) == Ok(true) &&
               (SwitchesOn(EnabledOptions(inp.config, LintingFeature), LintingSwitches).Err? || HelmChart.Lint(inp.result).Err?))
  {
    var enabled :- Config.IsFunctionEnabled(inp.config, LintingFeature, true);
    if !enabled then Ok(Checked(Row(item.key, Disabled, item.record.relativePath), None))
    else
      var h := EnabledOptions(inp.config, LintingFeature);
      var options :- SwitchesOn(h, LintingSwitches);
      var command := HelmChart.LintCommand(item.record.dir, HelmChart.HelmValueFiles(item.record.dir, inp.ciValuesExists),
                                           options);
      var _ :- HelmChart.Lint(inp.result);
      Ok(Checked(Row(item.key, Done, item.record.relativePath), Some(command)))
  }

  /** Without options lint runs with `--strict` only. */
  lemma LintingDefaults()
    ensures SwitchesOn(Document(YStr("")), LintingSwitches) == Ok(["--strict"])
  {
    NoOptionsGivesDefaults(LintingSwitches);
    assert Defaults(LintingSwitches[1..]) == [] by {
      assert LintingSwitches[1..][1..] == [];
    }
    assert Defaults(LintingSwitches) == [LintingSwitches[0].0] + [] == [LintingSwitches[0].0];
  }

  /** The linting run: the first lint failure ends it. */
  function Linting(listing: seq<Listing.Item>, inputsOf: string -> CheckInputs): (r: Result<seq<Checked>>)
    ensures r.Err? ==>
              exists i :: 0 <= i < |listing| &&
                LintChart(listing[i], inputsOf(listing[i].record.dir)).Err? &&
                forall j :: 0 <= j < i ==> LintChart(listing[j], inputsOf(listing[j].record.dir)).Ok?
    ensures r.Ok? ==> |r.value| == |listing| && forall i :: 0 <= i < |listing| ==>
              LintChart(listing[i], inputsOf(listing[i].record.dir)) == Ok(r.value[i])
  {
    var step := (item: Listing.Item) => LintChart(item, inputsOf(item.record.dir));
    assert forall i :: 0 <= i < |listing| ==> step(listing[i]) == LintChart(listing[i], inputsOf(listing[i].record.dir));
    All(listing, step)
  }
}

=== FILE: helm_chart.dfy ===
/** The decision logic of the HelmChart helper class (shared/src/utils.ts): how
    the output of `helm template`, `helm lint`, `helm dependency update` and
    `helm-docs` is judged, and the command lines handed to them. The tools are
    not run: their exit code, stdout and stderr are inputs. */
module HelmChart {
  import opened Outcome
  import Text
  import Sequences

  /** The allow-pattern that is always active. */
  const DefaultPattern := "^WARNING: This chart is deprecated$"
  /** The one line the default pattern matches. */
  const DeprecatedLine := "WARNING: This chart is deprecated"
  /** stdout shorter than this, in UTF-16 code units, is an empty manifest. */
  const ManifestFloor := 50

  const ValuesYaml := "values.yaml"
  const ValuesCiYaml := "values.ci.yaml"

  datatype ExecResult = ExecResult(exitCode: int, stdout: string, stderr: string)

  /** What `new RegExp(pattern).test(line)` means for the default pattern. Regular
      expressions are otherwise left to the caller-supplied `matches`. */
  ghost predicate DefaultPatternMeaning(matches: (string, string) -> bool) {
    forall line :: matches(DefaultPattern, line) <==> line == DeprecatedLine
  }

  /** The effective pattern list: the default first, then the caller's patterns. */
  function Patterns(ignoreWarnings: Option<seq<string>>): seq<string> {
    if ignoreWarnings.Some? then [DefaultPattern] + ignoreWarnings.value else [DefaultPattern]
  }

  /** Every piece, trimmed. */
  function Trimmed(pieces: seq<string>): (r: seq<string>)
    ensures |r| == |pieces| && forall j :: 0 <= j < |pieces| ==> r[j] == Text.Trim(pieces[j])
  {
    seq(|pieces|, j requires 0 <= j < |pieces| => Text.Trim(pieces[j]))
  }

  /** The lines that are not empty, in order. */
  function DropEmpty(ls: seq<string>): seq<string> {
    if |ls| == 0 then [] else (if ls[0] == "" then [] else [ls[0]]) + DropEmpty(ls[1..])
  }

  lemma {:induction false} DropEmptyMeaning(ls: seq<string>)
    ensures forall line :: line in DropEmpty(ls) <==> line != "" && line in ls
    ensures Sequences.IsSubsequence(DropEmpty(ls), ls)
    decreases |ls|
  {
    if |ls| > 0 {
      var rest := DropEmpty(ls[1..]);
      DropEmptyMeaning(ls[1..]);
      assert forall q :: q in ls <==> q == ls[0] || q in ls[1..];
      if ls[0] != "" {
        var r := [ls[0]] + rest;
        assert DropEmpty(ls) == r;
        assert r[0] == ls[0] && r[1..] == rest;
      } else {
        assert DropEmpty(ls) == rest;
      }
    }
  }

  /** The stderr lines that are judged: the pieces between "\n", trimmed, blank ones dropped. */
  function Kept(pieces: seq<string>): (lines: seq<string>)
    ensures forall i :: 0 <= i < |lines| ==> lines[i] != ""
    ensures forall j :: 0 <= j < |pieces| && Text.Trim(pieces[j]) != "" ==> Text.Trim(pieces[j]) in lines
  {
    var t := Trimmed(pieces);
    DropEmptyMeaning(t);
    var lines := DropEmpty(t);
    assert forall j :: 0 <= j < |pieces| ==> t[j] in t;
    assert forall i :: 0 <= i < |lines| ==> lines[i] in lines;
    lines
  }

  /** The judged lines are exactly the trimmed pieces that are not blank, in
      the order of the pieces. */
  lemma KeptMeaning(pieces: seq<string>)
    ensures forall line :: line in Kept(pieces) <==> line != "" && line in Trimmed(pieces)
    ensures Sequences.IsSubsequence(Kept(pieces), Trimmed(pieces))
  {
    DropEmptyMeaning(Trimmed(pieces));
  }

  function CheckedLines(stderr: string): seq<string> {
    Kept(Text.Split(stderr, '\n'))
  }

  /** `patterns.some(pattern => new RegExp(pattern).test(line))`. */
  predicate AnyMatches(patterns: seq<string>, line: string, matches: (string, string) -> bool)
    ensures AnyMatches(patterns, line, matches) <==> exists i :: 0 <= i < |patterns| && matches(patterns[i], line)
  {
    if |patterns| == 0 then false
    else
      assert forall i :: 1 <= i < |patterns| ==> patterns[i] == patterns[1..][i - 1];
      matches(patterns[0], line) || AnyMatches(patterns[1..], line, matches)
  }

  /** The first line that no pattern matches, if any. */
  function FirstRejected(lines: seq<string>, patterns: seq<string>, matches: (string, string) -> bool): (r: Option<nat>)
    ensures r.None? <==> forall i :: 0 <= i < |lines| ==> AnyMatches(patterns, lines[i], matches)
    ensures r.Some? ==> r.value < |lines| && !AnyMatches(patterns, lines[r.value], matches)
  {
    if |lines| == 0 then None
    else if !AnyMatches(patterns, lines[0], matches) then Some(0)
    else
      var r := FirstRejected(lines[1..], patterns, matches);
      assert forall i :: 1 <= i < |lines| ==> lines[i] == lines[1..][i - 1];
      if r.None? then None else Some(r.value + 1)
  }

  /** A judged line passes when the default pattern or a caller pattern matches it. */
  predicate LineAllowed(line: string, ignoreWarnings: Option<seq<string>>, matches: (string, string) -> bool) {
    || matches(DefaultPattern, line)
    || (ignoreWarnings.Some? && exists i :: 0 <= i < |ignoreWarnings.value| && matches(ignoreWarnings.value[i], line))
  }

  /** Empty or white-space-only stderr is not judged; otherwise every judged line must pass. */
  predicate StderrAccepted(stderr: string, ignoreWarnings: Option<seq<string>>, matches: (string, string) -> bool) {
    Text.AllSpace(stderr) ||
    forall i :: 0 <= i < |CheckedLines(stderr)| ==> LineAllowed(CheckedLines(stderr)[i], ignoreWarnings, matches)
  }

  lemma PatternsMeaning(line: string, ignoreWarnings: Option<seq<string>>, matches: (string, string) -> bool)
    ensures AnyMatches(Patterns(ignoreWarnings), line, matches) <==> LineAllowed(line, ignoreWarnings, matches)
  {
    var ps := Patterns(ignoreWarnings);
    if ignoreWarnings.Some? {
      var w := ignoreWarnings.value;
      if LineAllowed(line, ignoreWarnings, matches) && !matches(DefaultPattern, line) {
        var i :| 0 <= i < |w| && matches(w[i], line);
        assert ps[i + 1] == w[i];
      }
      if AnyMatches(ps, line, matches) {
        var i :| 0 <= i < |ps| && matches(ps[i], line);
        if i > 0 { assert ps[i] == w[i - 1]; }
      }
    }
  }

  /** A judged stderr has a rejected line exactly when it is not accepted. */
  lemma RejectedMeaning(stderr: string, ignoreWarnings: Option<seq<string>>, matches: (string, string) -> bool)
    ensures stderr != "" && Text.Trim(stderr) != "" &&
            FirstRejected(CheckedLines(stderr), Patterns(ignoreWarnings), matches).Some?
            <==> !StderrAccepted(stderr, ignoreWarnings, matches)
  {
    var lines := CheckedLines(stderr);
    forall i | 0 <= i < |lines|
      ensures AnyMatches(Patterns(ignoreWarnings), lines[i], matches) <==> LineAllowed(lines[i], ignoreWarnings, matches)
    {
      PatternsMeaning(lines[i], ignoreWarnings, matches);
    }
  }

  /** HelmChart.template's verdict on the tool's result: the stderr lines first,
      then the 50-character floor on stdout, then the exit code. */
  function Template(dir: string, result: ExecResult, ignoreWarnings: Option<seq<string>>,
                    matches: (string, string) -> bool): (r: Result<string>)
    ensures r == Err(UnexpectedStderr(dir, result.stderr)) <==> !StderrAccepted(result.stderr, ignoreWarnings, matches)
    ensures StderrAccepted(result.stderr, ignoreWarnings, matches) && Text.Utf16Length(result.stdout) < ManifestFloor
            ==> r == Err(EmptyManifest(dir, result.stdout, result.stderr))
    ensures StderrAccepted(result.stderr, ignoreWarnings, matches) && Text.Utf16Length(result.stdout) >= ManifestFloor &&
            result.exitCode != 0 && result.stderr != ""
            ==> r == Err(TemplateExit(dir, result.exitCode, result.stderr))
    ensures r.Ok? <==> StderrAccepted(result.stderr, ignoreWarnings, matches) && Text.Utf16Length(result.stdout) >= ManifestFloor &&
                       (result.exitCode == 0 || result.stderr == "")
    ensures r.Ok? ==> r.value == result.stdout
  {
    var patterns := Patterns(ignoreWarnings);
    var judged := result.stderr != "" && Text.Trim(result.stderr) != "";
    var rejected := FirstRejected(CheckedLines(result.stderr), patterns, matches);
    RejectedMeaning(result.stderr, ignoreWarnings, matches);
    if judged && rejected.Some? then Err(UnexpectedStderr(dir, result.stderr))
    else if Text.Utf16Length(result.stdout) < ManifestFloor then Err(EmptyManifest(dir, result.stdout, result.stderr))
    else if result.exitCode != 0 && result.stderr != "" then Err(TemplateExit(dir, result.exitCode, result.stderr))
    else Ok(result.stdout)
  }

  /** A string without a line break is one stderr piece. */
  lemma {:induction false} SplitWithoutSeparator(s: string, sep: char)
    requires sep !in s
    ensures Text.Split(s, sep) == [s]
  {
    if |s| > 0 {
      SplitWithoutSeparator(s[1..], sep);
    }
  }

  lemma TrimOfUnpadded(s: string)
    requires |s| > 0 && !Text.IsSpace(s[0]) && !Text.IsSpace(s[|s| - 1])
    ensures Text.Trim(s) == s
  {
    assert Text.LeadingSpace(s) == 0;
    assert Text.TrailingStart(s) == |s|;
    assert s[0..|s|] == s;
  }

  /** A one-line stderr that the default pattern allows is judged as that one line. */
  lemma {:induction false} SingleLineChecked(line: string)
    requires |line| > 0 && '\n' !in line && !Text.IsSpace(line[0]) && !Text.IsSpace(line[|line| - 1])
    ensures CheckedLines(line) == [line]
  {
    SplitWithoutSeparator(line, '\n');
    TrimOfUnpadded(line);
    assert Trimmed([line]) == [line];
    assert DropEmpty([line]) == [line] + DropEmpty([]);
  }

  /** A single allowed stderr line passes when stdout clears the floor. */
  lemma {:induction false} AllowedLinePasses(dir: string, exitCode: int, stdout: string, line: string,
                                             ignoreWarnings: Option<seq<string>>, matches: (string, string) -> bool)
    requires CheckedLines(line) == [line] && LineAllowed(line, ignoreWarnings, matches)
    requires Text.Utf16Length(stdout) >= ManifestFloor && exitCode == 0
    ensures Template(dir, ExecResult(exitCode, stdout, line), ignoreWarnings, matches).Ok?
  {
    assert StderrAccepted(line, ignoreWarnings, matches);
  }

  lemma DeprecatedLineShape()
    ensures |DeprecatedLine| > 0 && '\n' !in DeprecatedLine
    ensures !Text.IsSpace(DeprecatedLine[0]) && !Text.IsSpace(DeprecatedLine[|DeprecatedLine| - 1])
  {
    assert DeprecatedLine[0] == 'W' && DeprecatedLine[|DeprecatedLine| - 1] == 'd';
  }

  /** The deprecated-chart warning alone, on a successful run, never fails
      templating, whatever the caller's patterns. */
  lemma DeprecationWarningIsIgnored(dir: string, stdout: string,
                                    ignoreWarnings: Option<seq<string>>, matches: (string, string) -> bool)
    requires DefaultPatternMeaning(matches)
    requires Text.Utf16Length(stdout) >= ManifestFloor
    ensures Template(dir, ExecResult(0, stdout, DeprecatedLine), ignoreWarnings, matches) == Ok(stdout)
  {
    DeprecatedLineShape();
    SingleLineChecked(DeprecatedLine);
    AllowedLinePasses(dir, 0, stdout, DeprecatedLine, ignoreWarnings, matches);
  }

  /** An explicit empty pattern list behaves exactly like no list: the default still applies. */
  lemma EmptyListIsDefaultOnly(dir: string, result: ExecResult, matches: (string, string) -> bool)
    ensures Template(dir, result, Some([]), matches) == Template(dir, result, None, matches)
  {
    assert Patterns(Some([])) == Patterns(None);
  }

  /** No pattern, not even one matching everything, masks a non-zero exit that wrote to stderr. */
  lemma NonZeroExitIsNeverMasked(dir: string, result: ExecResult, ignoreWarnings: Option<seq<string>>,
                                 matches: (string, string) -> bool)
    requires result.exitCode != 0 && result.stderr != ""
    ensures Template(dir, result, ignoreWarnings, matches).Err?
  {
  }

  /** Example of Template's floor clauses at the boundary: 49 code units fail
      and 50 pass when nothing else is wrong. */
  lemma ManifestFloorBoundary(dir: string, out49: string, out50: string, ignoreWarnings: Option<seq<string>>,
                              matches: (string, string) -> bool)
    requires Text.Utf16Length(out49) == 49 && Text.Utf16Length(out50) == 50
    ensures Template(dir, ExecResult(0, out49, ""), ignoreWarnings, matches) == Err(EmptyManifest(dir, out49, ""))
    ensures Template(dir, ExecResult(0, out50, ""), ignoreWarnings, matches) == Ok(out50)
  {
  }

  /** Example of Template's floor clauses with Utf16Length: the floor counts
      code units, not characters, so 25 characters outside the Basic
      Multilingual Plane already clear it. */
  lemma AstralCharactersCountTwice(dir: string, out: string, ignoreWarnings: Option<seq<string>>,
                                   matches: (string, string) -> bool)
    requires |out| == 25 && forall i :: 0 <= i < |out| ==> Text.IsAstral(out[i])
    ensures Template(dir, ExecResult(0, out, ""), ignoreWarnings, matches) == Ok(out)
  {
  }

  /** HelmChart.lint: fails only on a non-zero exit code that comes with stderr. */
  function Lint(result: ExecResult): (r: Result<string>)
    ensures r.Err? <==> result.exitCode != 0 && result.stderr != ""
    ensures r.Err? ==> r.failure == LintFailed(result.exitCode, result.stderr)
    ensures r.Ok? ==> r.value == result.stdout
  {
    if result.exitCode != 0 && result.stderr != "" then Err(LintFailed(result.exitCode, result.stderr))
    else Ok(result.stdout)
  }

  /** HelmChart.DependencyUpdate: fails on any non-zero exit code. */
  function DependencyUpdate(result: ExecResult): (r: Result<string>)
    ensures r.Err? <==> result.exitCode != 0
    ensures r.Ok? ==> r.value == result.stdout
  {
    if result.exitCode != 0 then Err(DependencyUpdateFailed(result.exitCode)) else Ok(result.stdout)
  }

  /** HelmChart.generateReadmeDocumentation's verdict on helm-docs' result. */
  function GenerateReadme(result: ExecResult): (r: Result<string>)
    ensures r.Err? <==> result.exitCode != 0 && result.stderr != ""
    ensures r.Ok? ==> r.value == result.stdout
  {
    if result.exitCode != 0 && result.stderr != "" then Err(DocsFailed(result.exitCode, result.stderr))
    else Ok(result.stdout)
  }

  /** getHelmValueFiles: values.yaml always, values.ci.yaml after it when that file exists. */
  function HelmValueFiles(dir: string, ciValuesExists: bool): (r: string)
    ensures var base := "-f " + dir + "/" + ValuesYaml;
            |r| >= |base| && r[..|base|] == base &&
            (ciValuesExists <==> |r| > |base|) &&
            (ciValuesExists ==> r[|base|..] == " -f " + dir + "/" + ValuesCiYaml)
  {
    var base := "-f " + dir + "/" + ValuesYaml;
    if ciValuesExists then base + " -f " + dir + "/" + ValuesCiYaml else base
  }

  /** The `helm template` command line. */
  function TemplateCommand(dir: string, valueFiles: string, options: seq<string>): string {
    "helm template helm-release-name \"" + dir + "\" " + valueFiles + " " + Text.Join(options, " ")
  }

  /** The `helm lint` command line. */
  function LintCommand(dir: string, valueFiles: string, options: seq<string>): string {
    "helm lint " + dir + " " + valueFiles + " " + Text.Join(options, " ")
  }

  /** The template files helm-docs is given: those that exist, in the given order. */
  function ExistingFiles(files: seq<string>, present: string -> bool): (r: seq<string>)
    ensures forall f :: f in r <==> f in files && present(f)
    ensures |r| <= |files|
    ensures Sequences.IsSubsequence(r, files)
  {
    if |files| == 0 then []
    else
      var rest := ExistingFiles(files[1..], present);
      if present(files[0]) then
        assert ([files[0]] + rest)[1..] == rest;
        [files[0]] + rest
      else rest
  }

  function TemplateFileArgs(files: seq<string>): seq<string> {
    if |files| == 0 then [] else ["--template-files \"" + files[0] + "\""] + TemplateFileArgs(files[1..])
  }

  /** The `helm-docs` command line. */
  function DocsCommand(dir: string, templateFiles: seq<string>, present: string -> bool, options: seq<string>): string {
    "helm-docs " + Text.Join(TemplateFileArgs(ExistingFiles(templateFiles, present)), " ") + " " +
    Text.Join(options, " ") + " --chart-search-root=\"" + dir + "\"" + " --log-level debug"
  }
}

=== FILE: listing.dfy ===
/** The two listing actions (kustomize/listing and helm-chart/listing): which
    directories of the workspace become units, and the listing record written
    for each. findYamlKeyByDir (shared/src/utils.ts) reads a record back by
    its directory. */
module Listing {
  import opened Outcome
  import Yaml
  import opened Tree
  import opened Sequences
  import opened Paths
  import Text

  const WorkspaceVar := "GITHUB_WORKSPACE"
  const ChartYaml := "Chart.yaml"
  const KustomizationYaml := "kustomization.yaml"
  const KustomizationYml := "kustomization.yml"
  const TemplatesDir := "templates"
  const NameKey := "name"

  /** One listing record. `name` is absent when a chart's Chart.yaml has no name;
      `kustomizationFile` is present in kustomize listings only. */
  datatype Record = Record(dir: string, name: Option<Yaml.YVal>, folderName: string, relativePath: string,
                           manifestPath: string, kustomizationFile: Option<string>)

  datatype Item = Item(key: string, record: Record)

  /** The absolute text of a directory below the workspace, as `path.join` builds it. */
  function DirText(ws: string, p: Path): string {
    ws + "/" + RelativeText(p)
  }

  /** path.dirname of the relative text: "." for a top-level directory. */
  function ManifestPath(p: Path): string {
    if |p| <= 1 then "." else RelativeText(p[..|p| - 1])
  }

  /** Joining with one more name appends a separator and that name. */
  lemma {:induction false} JoinSnoc(p: Path, name: string)
    requires |p| >= 1
    ensures Text.Join(p + [name], "/") == Text.Join(p, "/") + "/" + name
    decreases |p|
  {
    if |p| > 1 {
      JoinSnoc(p[1..], name);
      assert (p + [name])[1..] == p[1..] + [name];
    } else {
      assert (p + [name])[1..] == [name];
    }
  }

  /** The manifest path is the relative path without its last name. */
  lemma ManifestPathIsParent(p: Path)
    requires |p| >= 2
    ensures RelativeText(p) == ManifestPath(p) + "/" + p[|p| - 1]
  {
    JoinSnoc(p[..|p| - 1], p[|p| - 1]);
    assert p[..|p| - 1] + [p[|p| - 1]] == p;
  }

  /** The filter's walk: from the candidate up to, but not including, the
      workspace root, looking for a `templates` directory whose immediate parent
      holds Chart.yaml. `k` is the depth still to be examined. */
  predicate WalkFindsChart(root: seq<Entry>, p: Path, k: nat)
    requires k <= |p|
    ensures WalkFindsChart(root, p, k) <==>
              exists j :: 0 <= j < k && p[j] == TemplatesDir && Exists(root, p[..j] + [ChartYaml])
  {
    if k == 0 then false
    else (p[k - 1] == TemplatesDir && Exists(root, p[..k - 1] + [ChartYaml])) || WalkFindsChart(root, p, k - 1)
  }

  predicate InsideChartTemplates(root: seq<Entry>, p: Path) {
    WalkFindsChart(root, p, |p|)
  }

  /** The directories holding kustomization.yaml, then those holding
      kustomization.yml, each once. */
  function KustomizeCandidates(root: seq<Entry>): seq<Path> {
    Dedup(Lookup(root, KustomizationYaml) + Lookup(root, KustomizationYml))
  }

  /** The candidates outside every chart's templates directory. */
  function OutsideCharts(root: seq<Entry>, ps: seq<Path>): seq<Path> {
    if |ps| == 0 then []
    else (if InsideChartTemplates(root, ps[0]) then [] else [ps[0]]) + OutsideCharts(root, ps[1..])
  }

  /** The filter keeps exactly the candidates outside every chart's templates, in their order. */
  lemma {:induction false} OutsideChartsMeaning(root: seq<Entry>, ps: seq<Path>)
    ensures forall q :: q in OutsideCharts(root, ps) <==> q in ps && !InsideChartTemplates(root, q)
    ensures IsSubsequence(OutsideCharts(root, ps), ps)
    decreases |ps|
  {
    if |ps| > 0 {
      var rest := OutsideCharts(root, ps[1..]);
      OutsideChartsMeaning(root, ps[1..]);
      assert forall q :: q in ps <==> q == ps[0] || q in ps[1..];
      if !InsideChartTemplates(root, ps[0]) {
        var r := [ps[0]] + rest;
        assert r[0] == ps[0] && r[1..] == rest;
      } else {
        assert OutsideCharts(root, ps) == rest;
      }
    }
  }

  function KustomizeDirs(root: seq<Entry>): seq<Path> {
    OutsideCharts(root, KustomizeCandidates(root))
  }

  /** A kustomize unit is a directory below the root with either kustomization
      file, outside every chart's templates directory. */
  lemma KustomizeDirsExactly(root: seq<Entry>, q: Path)
    requires WellFormed(root)
    ensures q in KustomizeDirs(root) <==>
              |q| >= 1 && (Marked(root, q, KustomizationYaml) || Marked(root, q, KustomizationYml)) &&
              !InsideChartTemplates(root, q)
  {
    OutsideChartsMeaning(root, KustomizeCandidates(root));
    LookupExactly(root, KustomizationYaml, q);
    LookupExactly(root, KustomizationYml, q);
  }

  /** The `.yaml` directories come first, in lookup order, and nothing repeats. */
  lemma KustomizeCandidatesOrder(root: seq<Entry>)
    requires WellFormed(root)
    ensures NoDuplicates(KustomizeCandidates(root))
    ensures |KustomizeCandidates(root)| >= |Lookup(root, KustomizationYaml)|
    ensures KustomizeCandidates(root)[..|Lookup(root, KustomizationYaml)|] == Lookup(root, KustomizationYaml)
  {
    LookupOrdered(root, KustomizationYaml);
    DedupKeepsDistinctFront(Lookup(root, KustomizationYaml), Lookup(root, KustomizationYml));
  }

  /** Example of KustomizeDirsExactly's exclusion on two concrete trees: only
      the immediate parent of `templates` is consulted, so a Chart.yaml two
      levels up does not exclude and one level up does. */
  lemma OnlyImmediateParentExcludes()
    ensures var app := Dir("app", [File(KustomizationYaml)]);
            var farChart := [Dir("chart", [File(ChartYaml), Dir("sub", [Dir(TemplatesDir, [app])])])];
            var nearChart := [Dir("chart", [File(ChartYaml), Dir(TemplatesDir, [app])])];
            !InsideChartTemplates(farChart, ["chart", "sub", TemplatesDir, "app"]) &&
            InsideChartTemplates(nearChart, ["chart", TemplatesDir, "app"])
  {
    var app := Dir("app", [File(KustomizationYaml)]);
    var farChart := [Dir("chart", [File(ChartYaml), Dir("sub", [Dir(TemplatesDir, [app])])])];
    var p := ["chart", "sub", TemplatesDir, "app"];
    assert !Exists(farChart, p[..2] + [ChartYaml]) by {
      assert p[..2] + [ChartYaml] == ["chart", "sub", ChartYaml];
      var sub := Dir("sub", [Dir(TemplatesDir, [app])]);
      assert ChartYaml != TemplatesDir && ChartYaml != "sub";
      assert Child(farChart, "chart") == Some(farChart[0]);
      assert Child(farChart[0].children, "sub") == Some(sub);
      assert Child(sub.children, ChartYaml) == None;
      assert Resolve(sub.children, [ChartYaml]) == None;
      assert Resolve(farChart[0].children, ["sub", ChartYaml]) == None;
    }
    assert "app" != TemplatesDir && "sub" != TemplatesDir && "chart" != TemplatesDir;
    var nearChart := [Dir("chart", [File(ChartYaml), Dir(TemplatesDir, [app])])];
    var q := ["chart", TemplatesDir, "app"];
    assert Exists(nearChart, q[..1] + [ChartYaml]) by {
      assert q[..1] + [ChartYaml] == ["chart", ChartYaml];
    }
  }

  /** The record of one kustomize unit. */
  function KustomizeEntry(ws: string, root: seq<Entry>, p: Path): (item: Item)
    requires |p| >= 1
    ensures item.key == item.record.folderName + "__" + item.record.folderName
    ensures item.record.name == Some(Yaml.YStr(item.record.folderName)) && item.record.folderName == p[|p| - 1]
    ensures item.record.dir == ws + "/" + item.record.relativePath && item.record.relativePath == RelativeText(p)
    ensures item.record.kustomizationFile == Some(KustomizationYaml) <==> Exists(root, p + [KustomizationYaml])
    ensures item.record.kustomizationFile.Some? &&
            item.record.kustomizationFile.value in {KustomizationYaml, KustomizationYml}
  {
    var base := p[|p| - 1];
    var file := if Exists(root, p + [KustomizationYaml]) then KustomizationYaml else KustomizationYml;
    Item(base + "__" + base,
         Record(DirText(ws, p), Some(Yaml.YStr(base)), base, RelativeText(p), ManifestPath(p), Some(file)))
  }

  /** The kustomization file recorded for a unit is one that is there. */
  lemma RecordedFileExists(ws: string, root: seq<Entry>, p: Path)
    requires |p| >= 1 && (Marked(root, p, KustomizationYaml) || Marked(root, p, KustomizationYml))
    ensures Exists(root, p + [KustomizationEntryFile(ws, root, p)])
  {
    MarkedMeansChild(root, p, KustomizationYaml);
    MarkedMeansChild(root, p, KustomizationYml);
  }

  function KustomizationEntryFile(ws: string, root: seq<Entry>, p: Path): string
    requires |p| >= 1
  {
    KustomizeEntry(ws, root, p).record.kustomizationFile.value
  }

  /** A directory holding `marker` makes `p + [marker]` exist. */
  lemma {:induction false} MarkedMeansChild(es: seq<Entry>, p: Path, marker: string)
    requires |p| >= 1
    ensures Marked(es, p, marker) <==> Resolve(es, p).Some? && Resolve(es, p).value.Dir? && Exists(es, p + [marker])
    decreases p
  {
    var q := p + [marker];
    assert q[0] == p[0];
    match Child(es, p[0])
    case None =>
    case Some(e) =>
      if e.Dir? {
        if |p| > 1 {
          MarkedMeansChild(e.children, p[1..], marker);
          assert q[1..] == p[1..] + [marker];
        } else {
          assert q[1..] == [marker];
          assert Resolve(es, p) == Some(e);
          assert Resolve(es, q) == Resolve(e.children, [marker]);
          assert Resolve(e.children, [marker]).Some? <==> Child(e.children, marker).Some?;
        }
      }
  }

  function KustomizeEntries(ws: string, root: seq<Entry>, ps: seq<Path>): (items: seq<Item>)
    requires forall i :: 0 <= i < |ps| ==> |ps[i]| >= 1
    ensures |items| == |ps|
    ensures forall i :: 0 <= i < |ps| ==> items[i] == KustomizeEntry(ws, root, ps[i])
  {
    seq(|ps|, i requires 0 <= i < |ps| => KustomizeEntry(ws, root, ps[i]))
  }

  /** The listing is refused when the workspace variable is unset or empty. */
  predicate MissingWorkspace(ws: Option<string>) {
    ws.None? || ws.value == ""
  }

  /** The kustomize listing: one record per unit, in candidate order. */
  function KustomizeListing(ws: Option<string>, root: seq<Entry>): (r: Result<seq<Item>>)
    ensures r.Err? <==> MissingWorkspace(ws)
    ensures r.Err? ==> r.failure == MissingEnv(WorkspaceVar)
    ensures r.Ok? ==> |r.value| == |KustomizeDirs(root)|
    ensures r.Ok? ==> forall i :: 0 <= i < |r.value| ==>
              r.value[i].record.relativePath == RelativeText(KustomizeDirs(root)[i])
    ensures r.Ok? ==>
              (forall i :: 0 <= i < |KustomizeDirs(root)| ==> |KustomizeDirs(root)[i]| >= 1) &&
              forall i :: 0 <= i < |r.value| ==> r.value[i] == KustomizeEntry(ws.value, root, KustomizeDirs(root)[i])
  {
    if MissingWorkspace(ws) then Err(MissingEnv(WorkspaceVar))
    else
      var dirs := KustomizeDirs(root);
      KustomizeDirsNonEmpty(root);
      Ok(KustomizeEntries(ws.value, root, dirs))
  }

  lemma KustomizeDirsNonEmpty(root: seq<Entry>)
    ensures forall i :: 0 <= i < |KustomizeDirs(root)| ==> |KustomizeDirs(root)[i]| >= 1
  {
    var yaml, yml := Lookup(root, KustomizationYaml), Lookup(root, KustomizationYml);
    LookupHeads(root, KustomizationYaml);
    LookupHeads(root, KustomizationYml);
    assert forall p :: p in yaml + yml ==> p in yaml || p in yml;
    assert forall p :: p in yaml + yml ==> |p| >= 1;
    assert forall p :: p in KustomizeCandidates(root) ==> |p| >= 1;
    OutsideChartsMeaning(root, KustomizeCandidates(root));
    var ps := KustomizeDirs(root);
    assert forall i :: 0 <= i < |ps| ==> ps[i] in KustomizeCandidates(root);
  }

  /** The record of one chart: the key joins the folder name and the chart's
      own name, whatever that name's YAML type. */
  function HelmEntry(ws: string, p: Path, chartDoc: Yaml.YVal, render: Yaml.YVal -> string): (item: Item)
    requires |p| >= 1
    ensures item.record.folderName == p[|p| - 1]
    ensures item.record.name == Yaml.Get(Yaml.Document(chartDoc), NameKey).value
    ensures item.key == item.record.folderName + "__" + Yaml.Stringify(item.record.name, render)
    ensures item.record.dir == ws + "/" + item.record.relativePath && item.record.relativePath == RelativeText(p)
    ensures item.record.kustomizationFile.None?
  {
    var name := Yaml.Get(Yaml.Document(chartDoc), NameKey).value;
    var base := p[|p| - 1];
    Item(base + "__" + Yaml.Stringify(name, render),
         Record(DirText(ws, p), name, base, RelativeText(p), ManifestPath(p), None))
  }

  /** The helm chart listing: one record per directory holding Chart.yaml, in
      lookup order. `chartDoc` gives each chart's parsed Chart.yaml. */
  function HelmListing(ws: Option<string>, root: seq<Entry>, chartDoc: Path -> Yaml.YVal, render: Yaml.YVal -> string)
    : (r: Result<seq<Item>>)
    ensures r.Err? <==> MissingWorkspace(ws)
    ensures r.Ok? ==> |r.value| == |Lookup(root, ChartYaml)|
    ensures r.Ok? ==> forall i :: 0 <= i < |r.value| ==>
              |Lookup(root, ChartYaml)[i]| >= 1 &&
              r.value[i] == HelmEntry(ws.value, Lookup(root, ChartYaml)[i], chartDoc(Lookup(root, ChartYaml)[i]), render)
  {
    if MissingWorkspace(ws) then Err(MissingEnv(WorkspaceVar))
    else
      var dirs := Lookup(root, ChartYaml);
      LookupHeads(root, ChartYaml);
      Ok(seq(|dirs|, i requires 0 <= i < |dirs| => HelmEntry(ws.value, dirs[i], chartDoc(dirs[i]), render)))
  }

  /** findYamlKeyByDir: the key of the first record with the given directory. */
  function FindKeyByDir(items: seq<Item>, dir: string): (r: Option<string>)
    ensures r.None? <==> forall i :: 0 <= i < |items| ==> items[i].record.dir != dir
    ensures r.Some? ==> exists i :: 0 <= i < |items| && items[i].record.dir == dir && items[i].key == r.value &&
                                    forall j :: 0 <= j < i ==> items[j].record.dir != dir
  {
    if |items| == 0 then None
    else if items[0].record.dir == dir then Some(items[0].key)
    else
      var r := FindKeyByDir(items[1..], dir);
      FindKeyTail(items, dir, r);
      r
  }

  lemma FindKeyTail(items: seq<Item>, dir: string, r: Option<string>)
    requires |items| > 0 && items[0].record.dir != dir
    requires r.None? <==> forall i :: 0 <= i < |items[1..]| ==> items[1..][i].record.dir != dir
    requires r.Some? ==> exists i :: 0 <= i < |items[1..]| && items[1..][i].record.dir == dir &&
                                     items[1..][i].key == r.value &&
                                     forall j :: 0 <= j < i ==> items[1..][j].record.dir != dir
    ensures r.None? <==> forall i :: 0 <= i < |items| ==> items[i].record.dir != dir
    ensures r.Some? ==> exists i :: 0 <= i < |items| && items[i].record.dir == dir && items[i].key == r.value &&
                                    forall j :: 0 <= j < i ==> items[j].record.dir != dir
  {
    assert forall i :: 1 <= i < |items| ==> items[i] == items[1..][i - 1];
    if r.Some? {
      var i :| 0 <= i < |items[1..]| && items[1..][i].record.dir == dir && items[1..][i].key == r.value &&
               forall j :: 0 <= j < i ==> items[1..][j].record.dir != dir;
      assert items[i + 1] == items[1..][i];
    }
  }
}

=== FILE: manifest_templating.dfy ===
/** The k8s-manifest-templating action: for every chart of the listing, the
    `helm template` runs that render its manifests into `manifests/`. The
    helm calls, the folder creation and git are left to their inputs. */
module ManifestTemplating {
  import opened Outcome
  import opened Yaml
  import Config
  import Text
  import HelmChart
  import Listing

  const Feature := "k8s-manifest-templating"
  const TemplatingFeature := "helm-charts"
  const DefaultKey := "default-manifest-templating"
  const AdditionalKey := "additional-manifest-templating"
  const PrefixKey := "prefix-manifest-folder-name"
  const ValueFilesKey := "value-files"
  const SkipCrds := "--skip-crds"
  const ManifestsDir := "manifests"
  const GeneratedPrefix := "ENV"

  // ---------------------------------------------------------------- runs

  /** One templating run: the folder-name prefix (empty, or ending in "."),
      the extra value files, and the counter value a generated prefix used. */
  datatype Run = Run(prefix: string, valueFiles: seq<string>, envNumber: Option<nat>)

  const DefaultRun := Run("", [], None)

  /** The default run is skipped only when the options hold the boolean false for it. */
  predicate DefaultSkipped(options: Option<YVal>) {
    options.Some? && options.value.YMap? && Lookup(options.value.pairs, DefaultKey) == Some(YBool(false))
  }

  /** The elements of `additional-manifest-templating`, when it is a list; none otherwise. */
  function AdditionalItems(options: Option<YVal>): (items: seq<YVal>)
    ensures |items| > 0 ==> options.Some? && options.value.YMap? &&
                            Lookup(options.value.pairs, AdditionalKey) == Some(YSeq(items))
    ensures options.Some? && options.value.YMap? && Lookup(options.value.pairs, AdditionalKey).Some? &&
            Lookup(options.value.pairs, AdditionalKey).value.YSeq? ==>
              items == Lookup(options.value.pairs, AdditionalKey).value.items
  {
    if options.Some? && options.value.YMap? then
      match Lookup(options.value.pairs, AdditionalKey)
      case Some(YSeq(items)) => items
      case _ => []
    else []
  }

  /** An element the loop can use: an object whose `value-files` is a list.
      Anything else makes `forEach` (or the property read) throw. */
  predicate UsableItem(v: YVal) {
    v.YMap? && Lookup(v.pairs, ValueFilesKey).Some? && Lookup(v.pairs, ValueFilesKey).value.YSeq?
  }

  /** The value-file texts as string concatenation prints them. */
  function FileTexts(files: seq<YVal>): (r: seq<string>)
    ensures |r| == |files| && forall i :: 0 <= i < |files| ==> r[i] == JsText(files[i])
  {
    seq(|files|, i requires 0 <= i < |files| => JsText(files[i]))
  }

  function GeneratedName(n: nat): string {
    GeneratedPrefix + Text.NatToString(n) + "."
  }

  /** What a run takes from its element: the value files, and the element's
      prefix when that is truthy, a generated "ENV<n>." name otherwise. */
  predicate RunOf(item: YVal, run: Run)
    requires UsableItem(item)
  {
    var prefix := Lookup(item.pairs, PrefixKey);
    run.valueFiles == FileTexts(Lookup(item.pairs, ValueFilesKey).value.items) &&
    (run.envNumber.None? <==> Truthy(prefix)) &&
    (run.envNumber.None? ==> prefix.Some? && run.prefix == JsText(prefix.value) + ".") &&
    (run.envNumber.Some? ==> run.prefix == GeneratedName(run.envNumber.value))
  }

  /** The run of one element at counter value `c`. */
  function RunFor(item: YVal, c: nat): (run: Run)
    requires UsableItem(item)
    ensures RunOf(item, run)
    ensures run.envNumber.Some? ==> run.envNumber.value == c
  {
    var prefixValue := Lookup(item.pairs, PrefixKey);
    var files := FileTexts(Lookup(item.pairs, ValueFilesKey).value.items);
    if Truthy(prefixValue) then Run(JsText(prefixValue.value) + ".", files, None)
    else Run(GeneratedName(c), files, Some(c))
  }

  /** The loop over the additional elements: `addCounter++`, then a falsy
      prefix becomes "ENV" followed by the counter, which is incremented once more. */
  function Runs(items: seq<YVal>, counter: nat): (r: seq<Run>)
    requires forall i :: 0 <= i < |items| ==> UsableItem(items[i])
    ensures |r| == |items| && forall i :: 0 <= i < |items| ==> RunOf(items[i], r[i])
    decreases |items|
  {
    if |items| == 0 then []
    else
      var c := counter + 1;
      var first := RunFor(items[0], c);
      var tail := items[1..];
      assert forall i :: 0 <= i < |tail| ==> tail[i] == items[i + 1];
      var rest := Runs(tail, if first.envNumber.Some? then c + 1 else c);
      var r := [first] + rest;
      assert r[0] == first;
      assert forall i :: 0 <= i < |rest| ==> r[i + 1] == rest[i];
      r
  }

  /** Every generated number is above `counter`. */
  predicate NumberedAbove(r: seq<Run>, counter: nat) {
    forall i :: 0 <= i < |r| && r[i].envNumber.Some? ==> r[i].envNumber.value > counter
  }

  /** The generated numbers strictly increase along the runs. */
  predicate NumbersIncrease(r: seq<Run>) {
    forall i, j :: 0 <= i < j < |r| && r[i].envNumber.Some? && r[j].envNumber.Some? ==>
      r[i].envNumber.value < r[j].envNumber.value
  }

  lemma NumberingCons(first: Run, rest: seq<Run>, counter: nat, next: nat)
    requires first.envNumber.Some? ==> counter < first.envNumber.value < next
    requires counter < next && NumberedAbove(rest, next) && NumbersIncrease(rest)
    ensures NumberedAbove([first] + rest, counter) && NumbersIncrease([first] + rest)
  {
    var r := [first] + rest;
    assert forall i :: 0 < i < |r| ==> r[i] == rest[i - 1];
  }

  /** The generated numbers lie above the counter the loop starts from and
      strictly increase along the runs. */
  lemma {:induction false} RunsNumbering(items: seq<YVal>, counter: nat)
    requires forall i :: 0 <= i < |items| ==> UsableItem(items[i])
    ensures NumberedAbove(Runs(items, counter), counter) && NumbersIncrease(Runs(items, counter))
    decreases |items|
  {
    if |items| > 0 {
      var c := counter + 1;
      var first := RunFor(items[0], c);
      var next := if first.envNumber.Some? then c + 1 else c;
      var tail := items[1..];
      assert forall i :: 0 <= i < |tail| ==> tail[i] == items[i + 1];
      RunsNumbering(tail, next);
      NumberingCons(first, Runs(tail, next), counter, next);
      RunsStep(items, counter);
    }
  }

  /** One step of Runs: the first item's run, then the runs of the rest from the next counter. */
  lemma RunsStep(items: seq<YVal>, counter: nat)
    requires |items| > 0 && forall i :: 0 <= i < |items| ==> UsableItem(items[i])
    ensures var first := RunFor(items[0], counter + 1);
            Runs(items, counter) ==
            [first] + Runs(items[1..], if first.envNumber.Some? then counter + 2 else counter + 1)
  {
  }

  /** The additional runs, or the TypeError an unusable element raises. */
  function AdditionalRuns(items: seq<YVal>): (r: Result<seq<Run>>)
    ensures r.Err? <==> exists i :: 0 <= i < |items| && !UsableItem(items[i])
    ensures r.Ok? ==> r.value == Runs(items, 0)
  {
    if forall i :: 0 <= i < |items| ==> UsableItem(items[i]) then Ok(Runs(items, 0))
    else Err(TypeError(ValueFilesKey + ".forEach"))
  }

  lemma GeneratedNameInjective(m: nat, n: nat)
    requires m != n
    ensures GeneratedName(m) != GeneratedName(n)
  {
    Text.NatToStringInjective(m, n);
    var a, b := GeneratedName(m), GeneratedName(n);
    assert a[3..|a| - 1] == Text.NatToString(m);
    assert b[3..|b| - 1] == Text.NatToString(n);
  }

  /** Two generated prefixes of one chart never coincide. */
  lemma GeneratedPrefixesDistinct(items: seq<YVal>, counter: nat, i: nat, j: nat)
    requires forall k :: 0 <= k < |items| ==> UsableItem(items[k])
    requires i < j < |items|
    ensures Runs(items, counter)[i].envNumber.Some? && Runs(items, counter)[j].envNumber.Some? ==>
            Runs(items, counter)[i].prefix != Runs(items, counter)[j].prefix
  {
    var runs := Runs(items, counter);
    if runs[i].envNumber.Some? && runs[j].envNumber.Some? {
      RunsNumbering(items, counter);
      GeneratedNameInjective(runs[i].envNumber.value, runs[j].envNumber.value);
    }
  }

  /** The runs of one chart: the default one unless switched off, then one per additional element. */
  function PlannedRuns(options: Option<YVal>): (r: Result<seq<Run>>)
    ensures r.Err? <==> exists i :: 0 <= i < |AdditionalItems(options)| && !UsableItem(AdditionalItems(options)[i])
    ensures r.Ok? ==> |r.value| == (if DefaultSkipped(options) then 0 else 1) + |AdditionalItems(options)|
    ensures r.Ok? && !DefaultSkipped(options) ==> r.value[0] == DefaultRun
    ensures r.Ok? ==>
              AdditionalRuns(AdditionalItems(options)).Ok? &&
              r.value[(if DefaultSkipped(options) then 0 else 1)..] == AdditionalRuns(AdditionalItems(options)).value
  {
    var extra :- AdditionalRuns(AdditionalItems(options));
    Ok(if DefaultSkipped(options) then extra else [DefaultRun] + extra)
  }

  /** Anything but the boolean false keeps the default run (absent, true, "yes", ...). */
  lemma OnlyFalseSkipsDefault(pairs: seq<Pair>)
    requires Lookup(pairs, DefaultKey) != Some(YBool(false))
    requires PlannedRuns(Some(YMap(pairs))).Ok?
    ensures PlannedRuns(Some(YMap(pairs))).value[0] == DefaultRun
  {
  }

  /** A non-list `additional-manifest-templating` adds no run. */
  lemma NonListAddsNothing(pairs: seq<Pair>)
    requires Lookup(pairs, AdditionalKey).None? || !Lookup(pairs, AdditionalKey).value.YSeq?
    ensures PlannedRuns(Some(YMap(pairs))).Ok?
    ensures |PlannedRuns(Some(YMap(pairs))).value| == if Lookup(pairs, DefaultKey) == Some(YBool(false)) then 0 else 1
  {
  }

  // ---------------------------------------------------------------- one run

  /** The value arguments: the chart's values.yaml, then each extra file in order. */
  function ValueArgs(ws: string, rel: string, files: seq<string>): string {
    "-f " + ws + "/" + rel + "/" + HelmChart.ValuesYaml + ExtraValueArgs(ws, rel, files)
  }

  /** One extra value file's argument: ` -f ws/rel/file`. */
  function FileArg(ws: string, rel: string, file: string): string {
    " -f " + ws + "/" + rel + "/" + file
  }

  function ExtraValueArgs(ws: string, rel: string, files: seq<string>): string {
    if |files| == 0 then "" else FileArg(ws, rel, files[0]) + ExtraValueArgs(ws, rel, files[1..])
  }

  /** Appending a value file appends exactly its ` -f` argument. */
  lemma {:induction false} ExtraValueArgsSnoc(ws: string, rel: string, files: seq<string>, f: string)
    ensures ExtraValueArgs(ws, rel, files + [f]) == ExtraValueArgs(ws, rel, files) + FileArg(ws, rel, f)
    decreases |files|
  {
    if |files| == 0 {
      assert (files + [f])[1..] == [];
    } else {
      var head, tail := FileArg(ws, rel, files[0]), files[1..];
      ExtraValueArgsSnoc(ws, rel, tail, f);
      assert (files + [f])[0] == files[0];
      assert (files + [f])[1..] == tail + [f];
      assert ExtraValueArgs(ws, rel, files + [f]) == head + (ExtraValueArgs(ws, rel, tail) + FileArg(ws, rel, f));
      assert head + (ExtraValueArgs(ws, rel, tail) + FileArg(ws, rel, f))
          == (head + ExtraValueArgs(ws, rel, tail)) + FileArg(ws, rel, f);
    }
  }

  /** The values.yaml argument always leads; the extra files follow, one `-f` each, in order. */
  lemma ValueArgsShape(ws: string, rel: string, files: seq<string>, f: string)
    ensures var head := "-f " + ws + "/" + rel + "/" + HelmChart.ValuesYaml;
            ValueArgs(ws, rel, []) == head &&
            ValueArgs(ws, rel, files + [f]) == ValueArgs(ws, rel, files) + FileArg(ws, rel, f)
  {
    ExtraValueArgsSnoc(ws, rel, files, f);
  }

  /** The folder a run writes into, below the workspace's `manifests/`. */
  function Folder(ws: string, manifestPath: string, prefix: string, name: string): string {
    ws + "/" + ManifestsDir + "/" + manifestPath + "/" + prefix + name
  }

  /** Runs of one chart with different prefixes write into different folders. */
  lemma DistinctPrefixesDistinctFolders(ws: string, manifestPath: string, p: string, q: string, name: string)
    ensures p != q ==> Folder(ws, manifestPath, p, name) != Folder(ws, manifestPath, q, name)
  {
    var base := ws + "/" + ManifestsDir + "/" + manifestPath + "/";
    var a, b := Folder(ws, manifestPath, p, name), Folder(ws, manifestPath, q, name);
    assert a == base + p + name && b == base + q + name;
    if a == b {
      assert |p| == |q|;
      assert p == a[|base|..|base| + |p|];
      assert q == b[|base|..|base| + |q|];
    }
  }

  /** The helm options of a run: `--skip-crds` when set, and the output folder, always last. */
  function HelmOptions(skipCrds: bool, folder: string): (r: seq<string>)
    ensures |r| == if skipCrds then 2 else 1
    ensures r[|r| - 1] == "--output-dir \"" + folder + "\""
    ensures skipCrds ==> r[0] == SkipCrds
    ensures forall i :: 0 <= i < |r| - 1 ==> r[i] == SkipCrds
  {
    (if skipCrds then [SkipCrds] else []) + ["--output-dir \"" + folder + "\""]
  }

  datatype Mark = Templated | Disabled

  /** A row of the result table: chart, folder, key, result, manifest folder. */
  datatype Row = Row(name: string, relativePath: string, key: string, mark: Mark, manifestFolder: string)

  /** A `helm template` call, as its command line, and the row it adds. */
  datatype Step = Step(folder: string, command: string, row: Row)

  /** The chart name as the listing gives it back; a name the listing lacks is an error. */
  function NameText(rec: Listing.Record, render: YVal -> string): (r: Result<string>)
    ensures r.Err? <==> rec.name.None?
    ensures rec.name.Some? && rec.name.value.YStr? && rec.name.value.s != "" ==> r == Ok(rec.name.value.s)
    ensures rec.name.Some? && Config.Blank(rec.name.value) ==> r == Ok("undefined")
    ensures rec.name.Some? && !Config.Blank(rec.name.value) ==> r == Ok(Stringify(rec.name, render))
  {
    match rec.name
    case None => Err(MissingKey(Listing.NameKey))
    case Some(v) => Ok(if Config.Blank(v) then "undefined" else Stringify(Some(v), render))
  }

  function MakeStep(ws: string, key: string, rec: Listing.Record, name: string, skipCrds: bool, run: Run): Step {
    var folder := Folder(ws, rec.manifestPath, run.prefix, name);
    Step(folder,
         HelmChart.TemplateCommand(rec.dir, ValueArgs(ws, rec.relativePath, run.valueFiles), HelmOptions(skipCrds, folder)),
         Row(name, rec.relativePath, key, Templated, ManifestsDir + "/" + rec.manifestPath + "/" + run.prefix + name))
  }

  /** The calls for a chart's runs; the `--skip-crds` option is read only when a run happens. */
  function Steps(ws: string, key: string, rec: Listing.Record, name: string, options: Holder, runs: seq<Run>)
    : (r: Result<seq<Step>>)
    ensures |runs| == 0 ==> r == Ok([])
    ensures r.Ok? ==> |r.value| == |runs|
    ensures r.Ok? ==> forall i :: 0 <= i < |runs| ==>
              r.value[i].folder == Folder(ws, rec.manifestPath, runs[i].prefix, name) &&
              r.value[i].row.mark == Templated && r.value[i].row.key == key &&
              r.value[i].row.name == name && r.value[i].row.relativePath == rec.relativePath &&
              r.value[i].row.manifestFolder == ManifestsDir + "/" + rec.manifestPath + "/" + runs[i].prefix + name
    ensures r.Ok? && |runs| > 0 ==> Config.Flag(options, SkipCrds, false).Ok? && forall i :: 0 <= i < |runs| ==>
              r.value[i].command == HelmChart.TemplateCommand(rec.dir, ValueArgs(ws, rec.relativePath, runs[i].valueFiles),
                                                              HelmOptions(Config.Flag(options, SkipCrds, false).value, r.value[i].folder))
    ensures |runs| > 0 ==> (r.Err? <==> Config.Flag(options, SkipCrds, false).Err?)
  {
    if |runs| == 0 then Ok([])
    else
      var skip :- Config.Flag(options, SkipCrds, false);
      Ok(seq(|runs|, i requires 0 <= i < |runs| => MakeStep(ws, key, rec, name, skip, runs[i])))
  }

  /** What one chart contributes: a Disabled row, or its templating calls. */
  datatype ChartOutcome = ChartDisabled(row: Row) | ChartTemplated(steps: seq<Step>)

  /** One listing item: `config` is the chart's `.ci.config.yaml`. */
  function Chart(ws: string, item: Listing.Item, config: Option<YVal>, render: YVal -> string): (r: Result<ChartOutcome>)
    ensures r.Ok? && r.value.ChartDisabled? <==>
              item.record.name.Some? && Config.IsFunctionEnabled(config, Feature, true) == Ok(false)
    ensures r.Ok? && r.value.ChartDisabled? ==>
              NameText(item.record, render).Ok? &&
              r.value.row == Row(NameText(item.record, render).value, item.record.relativePath, item.key, Disabled, "-")
    ensures r.Ok? && r.value.ChartTemplated? ==>
              Config.ReadPipelineFeature(config, Feature, TemplatingFeature).Ok? &&
              PlannedRuns(Config.ReadPipelineFeature(config, Feature, TemplatingFeature).value).Ok? &&
              |r.value.steps| == |PlannedRuns(Config.ReadPipelineFeature(config, Feature, TemplatingFeature).value).value|
    ensures r.Ok? && r.value.ChartTemplated? ==>
              NameText(item.record, render).Ok? && Config.OptionsHolder(config, Feature).Ok? &&
              Steps(ws, item.key, item.record, NameText(item.record, render).value, Config.OptionsHolder(config, Feature).value,
                    PlannedRuns(Config.ReadPipelineFeature(config, Feature, TemplatingFeature).value).value)
              == Ok(r.value.steps)
    ensures r.Err? <==>
              NameText(item.record, render).Err? || Config.IsFunctionEnabled(config, Feature, true).Err? ||
              (Config.IsFunctionEnabled(config, Feature, true) == Ok(true) &&
               Config.ReadPipelineFeature(config, Feature, TemplatingFeature).Ok? &&
               Config.OptionsHolder(config, Feature).Ok? &&
               (PlannedRuns(Config.ReadPipelineFeature(config, Feature, TemplatingFeature).value).Err? ||
                (PlannedRuns(Config.ReadPipelineFeature(config, Feature, TemplatingFeature).value).Ok? &&
                 Steps(ws, item.key, item.record, NameText(item.record, render).value, Config.OptionsHolder(config, Feature).value,
                       PlannedRuns(Config.ReadPipelineFeature(config, Feature, TemplatingFeature).value).value).Err?)))
  {
    var name :- NameText(item.record, render);
    var enabled :- Config.IsFunctionEnabled(config, Feature, true);
    if !enabled then
      Ok(ChartDisabled(Row(name, item.record.relativePath, item.key, Disabled, "-")))
    else
      Config.EnabledSectionIsReadable(config, Feature, true, TemplatingFeature);
      var options := Config.ReadPipelineFeature(config, Feature, TemplatingFeature).value;
      var runs :- PlannedRuns(options);
      var holder := Config.OptionsHolder(config, Feature).value;
      var steps :- Steps(ws, item.key, item.record, name, holder, runs);
      Ok(ChartTemplated(steps))
  }

  /** The loop over the listing; the first error ends the run. */
  function Charts(ws: string, listing: seq<Listing.Item>, configOf: string -> Option<YVal>, render: YVal -> string)
    : (r: Result<seq<ChartOutcome>>)
    ensures r.Err? ==>
              exists i :: 0 <= i < |listing| && Chart(ws, listing[i], configOf(listing[i].record.dir), render).Err? &&
                forall j :: 0 <= j < i ==> Chart(ws, listing[j], configOf(listing[j].record.dir), render).Ok?
    ensures r.Ok? ==> |r.value| == |listing| && forall i :: 0 <= i < |listing| ==>
              Chart(ws, listing[i], configOf(listing[i].record.dir), render) == Ok(r.value[i])
  {
    var step := (item: Listing.Item) => Chart(ws, item, configOf(item.record.dir), render);
    assert forall i :: 0 <= i < |listing| ==> step(listing[i]) == Chart(ws, listing[i], configOf(listing[i].record.dir), render);
    All(listing, step)
  }

  /** The changes are committed when some line of `git status` mentions `manifests/`. */
  predicate ShouldCommit(status: string) {
    Text.SomePieceContains(status, '\n', ManifestsDir + "/")
  }

  /** `manifests/` holds no line break, so some line mentions it exactly when the whole status does. */
  lemma ShouldCommitMeaning(status: string)
    ensures ShouldCommit(status) <==> Text.Contains(status, ManifestsDir + "/")
  {
    assert '\n' !in ManifestsDir + "/";
    Text.ContainsInPiece(status, '\n', ManifestsDir + "/");
  }

  /** The whole templating run: every chart's outcome, and whether the changes
      under `manifests/` are added, committed and pushed. `status` is the output
      of `git status` after the loop. */
  datatype TemplatingRun = TemplatingRun(charts: seq<ChartOutcome>, committed: bool)

  function Templating(ws: string, listing: seq<Listing.Item>, configOf: string -> Option<YVal>, render: YVal -> string,
                      status: string): (r: Result<TemplatingRun>)
    ensures r.Err? <==> Charts(ws, listing, configOf, render).Err?
    ensures r.Ok? ==> r.value.charts == Charts(ws, listing, configOf, render).value
    ensures r.Ok? ==> (r.value.committed <==> Text.Contains(status, ManifestsDir + "/"))
  {
    var charts :- Charts(ws, listing, configOf, render);
    ShouldCommitMeaning(status);
    Ok(TemplatingRun(charts, ShouldCommit(status)))
  }
}

=== FILE: outcome.dfy ===
/** Failures the actions raise, and the failure-compatible wrappers the model uses
    in place of the source's exceptions, `undefined` and `false` sentinels. */
module Outcome {

  /** The errors the actions throw. Every one of them ends the action run: each
      action has a single try/catch around its whole body that calls setFailed. */
  datatype Failure =
    /** A JavaScript TypeError: a method or property used on null or on a scalar. */
    | TypeError(what: string)
    /** unrapYamlbyKey: the key is absent and no default was given. */
    | MissingKey(key: string)
    /** HelmChart.template: a stderr line that no allow-pattern matches. */
    | UnexpectedStderr(dir: string, stderr: string)
    /** HelmChart.template: stdout shorter than the 50-character floor. */
    | EmptyManifest(dir: string, stdout: string, stderr: string)
    /** HelmChart.template: non-zero exit code together with some stderr. */
    | TemplateExit(dir: string, exitCode: int, stderr: string)
    /** HelmChart.lint: non-zero exit code together with some stderr. */
    | LintFailed(exitCode: int, stderr: string)
    /** HelmChart.DependencyUpdate: non-zero exit code. */
    | DependencyUpdateFailed(exitCode: int)
    /** HelmChart.generateReadmeDocumentation: non-zero exit code together with some stderr. */
    | DocsFailed(exitCode: int, stderr: string)
    /** Version bump: a project directory that no listing record names. */
    | UnknownDir(dir: string)
    /** Helm version bump: the chart directory has no Chart.yaml. */
    | ChartYamlMissing(dir: string)
    /** semver.compare on a string that is not a version. */
    | InvalidVersion(text: string)
    /** A required environment variable is unset or empty. */
    | MissingEnv(name: string)

  datatype Option<+T> = None | Some(value: T) {
    function GetOr(default: T): T {
      match this
      case Some(v) => v
      case None => default
    }
  }

  datatype Result<+T> = Ok(value: T) | Err(failure: Failure) {
    predicate IsFailure() {
      Err?
    }

    function PropagateFailure<U>(): Result<U>
      requires Err?
    {
      Err(failure)
    }

    function Extract(): T
      requires Ok?
    {
      value
    }
  }

  /** A loop without a per-item catch: every step's value, or the error of
      the first step that fails, after which no step runs. */
  function All<T, U>(xs: seq<T>, f: T -> Result<U>): (r: Result<seq<U>>)
    ensures r.Err? <==> exists i :: 0 <= i < |xs| && f(xs[i]).Err?
    ensures r.Ok? ==> |r.value| == |xs| && forall i :: 0 <= i < |xs| ==> f(xs[i]) == Ok(r.value[i])
    ensures r.Err? ==> exists i :: 0 <= i < |xs| && f(xs[i]) == Err(r.failure) &&
                                   forall j :: 0 <= j < i ==> f(xs[j]).Ok?
  {
    if |xs| == 0 then Ok([])
    else
      assert forall i :: 1 <= i < |xs| ==> xs[i] == xs[1..][i - 1];
      match f(xs[0])
      case Err(e) => Err(e)
      case Ok(v) =>
        match All(xs[1..], f)
        case Err(e) =>
          Err(e)
        case Ok(vs) =>
          var r := [v] + vs;
          assert forall i :: 1 <= i < |r| ==> r[i] == vs[i - 1];
          Ok(r)
  }
}

=== FILE: paths.dfy ===
/** Path texts and isFileFoundInPath (shared/src/utils.ts): the search for the
    nearest directory, from a changed file's own directory up to the
    workspace root, that holds a given file. */
module Paths {
  import opened Outcome
  import opened Tree
  import Text

  /** path.dirname on a relative path: one name less; the root stays the root. */
  function Dirname(p: Path): (d: Path)
    ensures |p| == 0 ==> d == []
    ensures |p| > 0 ==> |d| == |p| - 1 && d == p[..|d|]
  {
    if |p| == 0 then [] else p[..|p| - 1]
  }

  /** The relative text of a path below the root, as `path.relative` prints it. */
  function RelativeText(p: Path): string {
    Text.Join(p, "/")
  }

  /** `cwd + '/' + dirname`, the text isFileFoundInPath builds for an ancestor. */
  function AncestorText(cwd: string, anc: Path): string {
    cwd + "/" + (if anc == [] then "." else RelativeText(anc))
  }

  /** The directories isFileFoundInPath tries for `p`: its directory, then each
      parent, down to the root. The first one that holds `file` is the answer. */
  function FindInAncestors(root: seq<Entry>, file: string, p: Path): (r: Option<Path>)
    ensures r.Some? ==> |r.value| <= |Dirname(p)| && r.value == Dirname(p)[..|r.value|]
    ensures r.Some? ==> Exists(root, r.value + [file])
    ensures r.Some? ==> forall k :: |r.value| < k <= |Dirname(p)| ==> !Exists(root, Dirname(p)[..k] + [file])
    ensures r.None? <==> forall k :: 0 <= k <= |Dirname(p)| ==> !Exists(root, Dirname(p)[..k] + [file])
    decreases |p|
  {
    var d := Dirname(p);
    if Exists(root, d + [file]) then
      assert d[..|d|] == d;
      Some(d)
    else if d == [] then
      assert forall k :: 0 <= k <= |d| ==> d[..k] == d;
      None
    else
      var r := FindInAncestors(root, file, d);
      assert forall k :: 0 <= k <= |Dirname(d)| ==> Dirname(d)[..k] == d[..k];
      assert d[..|d|] == d;
      r
  }

  /** isFileFoundInPath: the text of the nearest ancestor directory holding
      `file`, or None where the source returns `false`. */
  function IsFileFoundInPath(root: seq<Entry>, cwd: string, file: string, p: Path): (r: Option<string>)
    ensures r.None? <==> FindInAncestors(root, file, p).None?
    ensures r.Some? ==> r.value == AncestorText(cwd, FindInAncestors(root, file, p).value)
  {
    match FindInAncestors(root, file, p)
    case None => None
    case Some(anc) => Some(AncestorText(cwd, anc))
  }

  /** A file beside the changed file is found first, whatever the ancestors hold. */
  lemma OwnDirectoryWins(root: seq<Entry>, file: string, p: Path)
    requires Exists(root, Dirname(p) + [file])
    ensures FindInAncestors(root, file, p) == Some(Dirname(p))
  {
  }

  /** The workspace root is the last directory tried. */
  lemma RootIsTried(root: seq<Entry>, file: string, p: Path)
    requires Exists(root, [file])
    ensures FindInAncestors(root, file, p).Some?
  {
    var d := Dirname(p);
    assert d[..0] + [file] == [file];
  }
}

=== FILE: semver.dfy ===
/** Plain Semantic Versioning 2.0.0 versions MAJOR.MINOR.PATCH: precedence
    (item 11), the patch increment (item 6) and the canonical text form (item 2). */
module SemVer {
  import opened Outcome
  import Text

  datatype Version = Version(major: nat, minor: nat, patch: nat)

  /** Precedence: numeric comparison of major, then minor, then patch. */
  predicate Less(a: Version, b: Version) {
    || a.major < b.major
    || (a.major == b.major && a.minor < b.minor)
    || (a.major == b.major && a.minor == b.minor && a.patch < b.patch)
  }

  predicate LessOrEqual(a: Version, b: Version) {
    Less(a, b) || a == b
  }

  /** semver.compare: -1, 0 or 1. */
  function Compare(a: Version, b: Version): (c: int)
    ensures c == -1 <==> Less(a, b)
    ensures c == 0 <==> a == b
    ensures c == 1 <==> Less(b, a)
  {
    if a.major != b.major then (if a.major < b.major then -1 else 1)
    else if a.minor != b.minor then (if a.minor < b.minor then -1 else 1)
    else if a.patch != b.patch then (if a.patch < b.patch then -1 else 1)
    else 0
  }

  /** Precedence is a strict total order. */
  lemma LessIsStrictTotalOrder(a: Version, b: Version, c: Version)
    ensures !Less(a, a)
    ensures Less(a, b) && Less(b, c) ==> Less(a, c)
    ensures Less(a, b) || a == b || Less(b, a)
    ensures !(Less(a, b) && Less(b, a))
  {
  }

  /** semver.inc(v, 'patch') on a version without pre-release: the next version. */
  function IncPatch(v: Version): (r: Version)
    ensures Less(v, r)
    ensures forall w :: Less(v, w) ==> LessOrEqual(r, w)
  {
    Version(v.major, v.minor, v.patch + 1)
  }

  /** The canonical text MAJOR.MINOR.PATCH. */
  function Show(v: Version): string {
    Text.NatToString(v.major) + "." + Text.NatToString(v.minor) + "." + Text.NatToString(v.patch)
  }

  /** Reads exactly the canonical text: three numeric identifiers without
      leading zeros, separated by dots. */
  function Parse(s: string): Option<Version> {
    var parts := Text.Split(s, '.');
    if |parts| != 3 then None
    else
      match (Text.ParseNat(parts[0]), Text.ParseNat(parts[1]), Text.ParseNat(parts[2]))
      case (Some(a), Some(b), Some(c)) => Some(Version(a, b, c))
      case _ => None
  }

  lemma NoDotInNumeral(n: nat)
    ensures '.' !in Text.NatToString(n)
  {
  }

  /** The pieces of a printed version are the three numerals. */
  lemma SplitOfShow(v: Version)
    ensures Text.Split(Show(v), '.') ==
            [Text.NatToString(v.major), Text.NatToString(v.minor), Text.NatToString(v.patch)]
  {
    NoDotInNumeral(v.major);
    NoDotInNumeral(v.minor);
    NoDotInNumeral(v.patch);
    SplitThree(Text.NatToString(v.major), Text.NatToString(v.minor), Text.NatToString(v.patch));
  }

  /** Three dot-free pieces joined by dots split back into those pieces. */
  lemma SplitThree(a: string, b: string, c: string)
    requires '.' !in a && '.' !in b && '.' !in c
    ensures Text.Split(a + "." + b + "." + c, '.') == [a, b, c]
  {
    var bc := b + ['.'] + c;
    SplitWithoutDot(c);
    Text.SplitAfter(b, '.', c);
    Text.SplitAfter(a, '.', bc);
    assert a + "." + b + "." + c == a + ['.'] + bc;
  }

  /** Printing a version and parsing the text gives the version back. */
  lemma ParseShow(v: Version)
    ensures Parse(Show(v)) == Some(v)
  {
    SplitOfShow(v);
    Text.NatRoundTrip(v.major);
    Text.NatRoundTrip(v.minor);
    Text.NatRoundTrip(v.patch);
  }

  lemma {:induction false} SplitWithoutDot(s: string)
    requires '.' !in s
    ensures Text.Split(s, '.') == [s]
  {
    if |s| > 0 {
      SplitWithoutDot(s[1..]);
    }
  }

  /** Text that parses is the canonical text of what it parses to. */
  lemma ShowParse(s: string)
    requires Parse(s).Some?
    ensures Show(Parse(s).value) == s
  {
    var parts := Text.Split(s, '.');
    Text.CanonicalRoundTrip(parts[0]);
    Text.CanonicalRoundTrip(parts[1]);
    Text.CanonicalRoundTrip(parts[2]);
    assert Text.Join(parts, ".") == s;
    assert parts[1..][1..] == [parts[2]];
    assert Text.Join(parts[1..], ".") == parts[1] + "." + parts[2];
    assert s == parts[0] + "." + (parts[1] + "." + parts[2]);
  }
}

=== FILE: sequences.dfy ===
/** removeDuplicatesFromStringArray (shared/src/utils.ts): keep the first
    occurrence of every element, in the original order. */
module Sequences {

  predicate NoDuplicates<T(==,!new)>(s: seq<T>) {
    forall i, j :: 0 <= i < j < |s| ==> s[i] != s[j]
  }

  /** The first components of a sequence of pairs, in order. */
  function Firsts<A, B>(s: seq<(A, B)>): (r: seq<A>)
    ensures |r| == |s| && forall i :: 0 <= i < |s| ==> r[i] == s[i].0
  {
    seq(|s|, i requires 0 <= i < |s| => s[i].0)
  }

  /** The position of the first occurrence of `x`. */
  function IndexOf<T(==,!new)>(s: seq<T>, x: T): (i: nat)
    requires x in s
    ensures i < |s| && s[i] == x && x !in s[..i]
  {
    if s[0] == x then 0
    else
      var i := IndexOf(s[1..], x);
      assert s[..i + 1] == [s[0]] + s[1..][..i];
      i + 1
  }

  /** The first occurrence is the only index holding `x` with no `x` before it. */
  lemma IndexOfUnique<T(!new)>(s: seq<T>, x: T, i: nat)
    requires i < |s| && s[i] == x && x !in s[..i]
    ensures IndexOf(s, x) == i
  {
  }

  /** The `reduce` of the source: an accumulator that receives each element it
      does not include yet. */
  function Dedup<T(==,!new)>(s: seq<T>): (r: seq<T>)
    ensures NoDuplicates(r)
    ensures forall x :: x in r <==> x in s
    decreases |s|
  {
    if |s| == 0 then []
    else
      var acc := Dedup(s[..|s| - 1]);
      var last := s[|s| - 1];
      assert s == s[..|s| - 1] + [last];
      if last in acc then acc else acc + [last]
  }

  /** An element of a prefix has its first occurrence inside that prefix. */
  lemma IndexOfPrefix<T(!new)>(s: seq<T>, m: nat, x: T)
    requires m <= |s| && x in s[..m]
    ensures IndexOf(s[..m], x) == IndexOf(s, x)
  {
    var i := IndexOf(s[..m], x);
    assert s[..m][..i] == s[..i];
    IndexOfUnique(s, x, i);
  }

  /** The kept elements appear in the order of their first occurrences. */
  lemma {:induction false} DedupKeepsFirstOccurrenceOrder<T(!new)>(s: seq<T>)
    ensures forall i, j :: 0 <= i < j < |Dedup(s)| ==> IndexOf(s, Dedup(s)[i]) < IndexOf(s, Dedup(s)[j])
    decreases |s|
  {
    if |s| > 0 {
      var init := s[..|s| - 1];
      var last := s[|s| - 1];
      var acc := Dedup(init);
      var r := Dedup(s);
      DedupKeepsFirstOccurrenceOrder(init);
      assert init == s[..|s| - 1];
      forall x | x in acc ensures IndexOf(s, x) == IndexOf(init, x) && IndexOf(s, x) < |s| - 1 {
        IndexOfPrefix(s, |s| - 1, x);
      }
      if last !in acc {
        IndexOfUnique(s, last, |s| - 1);
        forall i, j | 0 <= i < j < |r| ensures IndexOf(s, r[i]) < IndexOf(s, r[j]) {
          assert r[i] == acc[i];
          if j < |acc| {
            assert r[j] == acc[j];
          }
        }
      }
    }
  }

  /** A sequence without duplicates is its own de-duplication. */
  lemma {:induction false} DedupOfDistinct<T(!new)>(s: seq<T>)
    requires NoDuplicates(s)
    ensures Dedup(s) == s
    decreases |s|
  {
    if |s| > 0 {
      var init := s[..|s| - 1];
      assert NoDuplicates(init);
      DedupOfDistinct(init);
      assert s[|s| - 1] !in init;
      assert s == init + [s[|s| - 1]];
    }
  }

  /** De-duplicating twice changes nothing more. */
  lemma DedupIdempotent<T(!new)>(s: seq<T>)
    ensures Dedup(Dedup(s)) == Dedup(s)
  {
    DedupOfDistinct(Dedup(s));
  }

  /** De-duplicating a concatenation whose first part is already distinct keeps
      that part, unchanged, at the front. */
  lemma {:induction false} DedupKeepsDistinctFront<T(!new)>(a: seq<T>, b: seq<T>)
    requires NoDuplicates(a)
    ensures |Dedup(a + b)| >= |a| && Dedup(a + b)[..|a|] == a
    decreases |b|
  {
    if |b| == 0 {
      assert a + b == a;
      DedupOfDistinct(a);
    } else {
      var b' := b[..|b| - 1];
      DedupKeepsDistinctFront(a, b');
      assert (a + b)[..|a + b| - 1] == a + b';
    }
  }

  /** `a` is `b` with some elements left out, the rest in their order. */
  predicate IsSubsequence<T(==)>(a: seq<T>, b: seq<T>)
    decreases |b|
  {
    if |a| == 0 then true
    else if |b| == 0 then false
    else (a[0] == b[0] && IsSubsequence(a[1..], b[1..])) || IsSubsequence(a, b[1..])
  }

  /** removeDuplicatesFromStringArray, with the reduce written as a loop. */
  method RemoveDuplicates<T(==,!new)>(arr: seq<T>) returns (unique: seq<T>)
    ensures NoDuplicates(unique)
    ensures forall x :: x in unique <==> x in arr
    ensures unique == Dedup(arr)
  {
    unique := [];
    var i := 0;
    while i < |arr|
      invariant 0 <= i <= |arr|
      invariant unique == Dedup(arr[..i])
    {
      assert arr[..i + 1][..i] == arr[..i];
      if arr[i] !in unique {
        unique := unique + [arr[i]];
      }
      i := i + 1;
    }
    assert arr[..i] == arr;
  }
}

=== FILE: text.dfy ===
/** The string primitives the actions lean on, with JavaScript's meaning:
    String.prototype.trim, split on one character, join, includes, and the
    decimal text of numbers. */
module Text {
  import opened Outcome

  /** ECMAScript WhiteSpace and LineTerminator code points: what trim() removes. */
  predicate IsSpace(c: char) {
    || c == '\t' || c == '\n' || c == '\U{000B}' || c == '\U{000C}' || c == '\r' || c == ' '
    || c == '\U{00A0}' || c == '\U{1680}' || ('\U{2000}' <= c <= '\U{200A}')
    || c == '\U{2028}' || c == '\U{2029}' || c == '\U{202F}' || c == '\U{205F}'
    || c == '\U{3000}' || c == '\U{FEFF}'
  }

  predicate AllSpace(s: string) {
    forall i :: 0 <= i < |s| ==> IsSpace(s[i])
  }

  /** The number of white-space characters that start `s`. */
  function LeadingSpace(s: string): (n: nat)
    ensures n <= |s| && AllSpace(s[..n])
    ensures n < |s| ==> !IsSpace(s[n])
  {
    if |s| > 0 && IsSpace(s[0]) then
      var n := 1 + LeadingSpace(s[1..]);
      assert forall k :: 1 <= k < n ==> s[..n][k] == s[1..][..n - 1][k - 1];
      n
    else 0
  }

  /** The length of `s` without the white space that ends it. */
  function TrailingStart(s: string): (n: nat)
    ensures n <= |s| && AllSpace(s[n..])
    ensures n > 0 ==> !IsSpace(s[n - 1])
    ensures forall k :: 0 <= k < |s| && !IsSpace(s[k]) ==> k < n
  {
    if |s| > 0 && IsSpace(s[|s| - 1]) then
      var n := TrailingStart(s[..|s| - 1]);
      forall k | 0 <= k < |s| - n ensures IsSpace(s[n..][k]) {
        if k < |s| - 1 - n {
          assert s[n..][k] == s[..|s| - 1][n..][k];
        }
      }
      assert forall k :: 0 <= k < |s| - 1 ==> s[k] == s[..|s| - 1][k];
      n
    else |s|
  }

  /** String.prototype.trim: the longest slice without surrounding white space. */
  function Trim(s: string): (r: string)
    ensures exists i, j :: 0 <= i <= j <= |s| && r == s[i..j] && AllSpace(s[..i]) && AllSpace(s[j..])
    ensures |r| > 0 ==> !IsSpace(r[0]) && !IsSpace(r[|r| - 1])
    ensures r == "" <==> AllSpace(s)
  {
    var i, j := LeadingSpace(s), TrailingStart(s);
    if i == |s| then
      assert s[..i] == s;
      assert s[i..i] == "" && s[i..] == "";
      ""
    else
      assert !IsSpace(s[i]);
      assert j > i;
      var r := s[i..j];
      assert r[0] == s[i] && r[|r| - 1] == s[j - 1];
      assert 0 <= i <= j <= |s| && r == s[i..j] && AllSpace(s[..i]) && AllSpace(s[j..]);
      r
  }

  /** A character outside the Basic Multilingual Plane: two UTF-16 code units. */
  predicate IsAstral(c: char) {
    c as int > 0xFFFF
  }

  /** String.prototype.length: the number of UTF-16 code units. */
  function Utf16Length(s: string): (n: nat)
    ensures |s| <= n <= 2 * |s|
    ensures n == |s| <==> forall i :: 0 <= i < |s| ==> !IsAstral(s[i])
    ensures n == 2 * |s| <==> forall i :: 0 <= i < |s| ==> IsAstral(s[i])
  {
    if |s| == 0 then 0
    else
      var tail := s[1..];
      assert forall i :: 1 <= i < |s| ==> s[i] == tail[i - 1];
      (if IsAstral(s[0]) then 2 else 1) + Utf16Length(tail)
  }

  /** Joins the parts with `sep` between consecutive parts (Array.prototype.join). */
  function Join(parts: seq<string>, sep: string): string {
    if |parts| == 0 then ""
    else if |parts| == 1 then parts[0]
    else parts[0] + sep + Join(parts[1..], sep)
  }

  /** String.prototype.split with a one-character separator: the pieces between
      the separators, so "a\nb\n" splits into "a", "b" and "". */
  function Split(s: string, sep: char): (parts: seq<string>)
    ensures |parts| >= 1
    ensures forall i :: 0 <= i < |parts| ==> sep !in parts[i]
    ensures Join(parts, [sep]) == s
  {
    if |s| == 0 then [""]
    else
      var rest := Split(s[1..], sep);
      if s[0] == sep then
        assert Join([""] + rest, [sep]) == [sep] + Join(rest, [sep]) by {
          assert ([""] + rest)[1..] == rest;
        }
        assert s == [sep] + s[1..];
        [""] + rest
      else
        var parts := [[s[0]] + rest[0]] + rest[1..];
        assert Join(parts, [sep]) == [s[0]] + Join(rest, [sep]) by {
          if |rest| > 1 {
            assert parts[1..] == rest[1..];
          }
        }
        assert s == [s[0]] + s[1..];
        parts
  }

  /** Splitting text that starts with a separator-free piece and a separator
      yields that piece, then the split of the rest. */
  lemma {:induction false} SplitAfter(x: string, sep: char, y: string)
    requires sep !in x
    ensures Split(x + [sep] + y, sep) == [x] + Split(y, sep)
  {
    if |x| == 0 {
      assert x + [sep] + y == [sep] + y;
      assert ([sep] + y)[1..] == y;
    } else {
      var t := x + [sep] + y;
      SplitAfter(x[1..], sep, y);
      assert t[0] == x[0] && t[1..] == x[1..] + [sep] + y;
      SplitHead(t, sep);
      assert [x[0]] + x[1..] == x;
    }
  }

  /** Text that starts with a character other than the separator: that
      character joins the first piece of the rest. */
  lemma SplitHead(t: string, sep: char)
    requires |t| > 0 && t[0] != sep
    ensures Split(t, sep) == [[t[0]] + Split(t[1..], sep)[0]] + Split(t[1..], sep)[1..]
  {
  }

  /** String.prototype.includes. */
  predicate Contains(s: string, sub: string)
    decreases |s|
  {
    if |s| < |sub| then false
    else s[..|sub|] == sub || (|s| > 0 && Contains(s[1..], sub))
  }

  /** `s.split(sep).some(piece => piece.includes(m))`. */
  predicate SomePieceContains(s: string, sep: char, m: string) {
    exists i :: 0 <= i < |Split(s, sep)| && Contains(Split(s, sep)[i], m)
  }

  /** Text with no separator in it lies within one piece: some piece contains
      it exactly when the whole text does. */
  lemma {:induction false} ContainsInPiece(s: string, sep: char, m: string)
    requires sep !in m
    ensures SomePieceContains(s, sep, m) <==> Contains(s, m)
    decreases |s|
  {
    var parts := Split(s, sep);
    if |s| == 0 {
      assert parts == [""];
    } else {
      var t := s[1..];
      var rest := Split(t, sep);
      ContainsInPiece(t, sep, m);
      ContainsStep(s, m);
      if s[0] == sep {
        assert parts == [""] + rest;
        assert |m| > 0 ==> !(|s| >= |m| && s[..|m|] == m) by {
          if |m| > 0 && |s| >= |m| {
            assert s[..|m|][0] == sep;
          }
        }
        assert Contains("", m) <==> m == "";
        SomePieceCons("", rest, m);
      } else {
        SplitHead(s, sep);
        SplitFirstPiece(t, sep);
        var p := [s[0]] + rest[0];
        assert s[..|p|] == p;
        PrefixWithin(s, p, sep, m);
        ContainsStep(p, m);
        assert p[1..] == rest[0];
        SomePieceCons(p, rest[1..], m);
        SomePieceCons(rest[0], rest[1..], m);
        assert [rest[0]] + rest[1..] == rest;
      }
    }
  }

  /** Some piece of `[first] + rest` contains `m` iff `first` or a piece of `rest` does. */
  lemma SomePieceCons(first: string, rest: seq<string>, m: string)
    ensures (exists i :: 0 <= i < |[first] + rest| && Contains(([first] + rest)[i], m)) <==>
            Contains(first, m) || exists i :: 0 <= i < |rest| && Contains(rest[i], m)
  {
    var ps := [first] + rest;
    assert forall i :: 0 <= i < |rest| ==> ps[i + 1] == rest[i];
    if exists i :: 0 <= i < |ps| && Contains(ps[i], m) {
      var i :| 0 <= i < |ps| && Contains(ps[i], m);
      if i > 0 { assert ps[i] == rest[i - 1]; }
    }
    if Contains(first, m) {
      assert ps[0] == first;
    }
    if exists i :: 0 <= i < |rest| && Contains(rest[i], m) {
      var i :| 0 <= i < |rest| && Contains(rest[i], m);
      assert Contains(ps[i + 1], m);
    }
  }

  /** Contains unfolded once: a match at the front, or one further on. */
  lemma ContainsStep(s: string, m: string)
    requires |s| > 0
    ensures Contains(s, m) <==> (|s| >= |m| && s[..|m|] == m) || Contains(s[1..], m)
  {
    if |s| < |m| {
      ContainsShorter(s[1..], m);
    }
  }

  lemma ContainsShorter(s: string, m: string)
    requires |s| < |m|
    ensures !Contains(s, m)
  {
  }

  /** The first piece of a split is a prefix of the text, followed by a separator when it is not all of it. */
  lemma SplitFirstPiece(t: string, sep: char)
    ensures var p := Split(t, sep)[0];
            |p| <= |t| && t[..|p|] == p && (|p| < |t| ==> t[|p|] == sep)
  {
    var parts := Split(t, sep);
    if |parts| > 1 {
      assert t == parts[0] + [sep] + Join(parts[1..], [sep]);
    }
  }

  /** When `p` is a prefix of `s` that ends at a separator (or at the end), a
      separator-free `m` starts `s` exactly when it starts `p`. */
  lemma PrefixWithin(s: string, p: string, sep: char, m: string)
    requires |p| <= |s| && s[..|p|] == p && (|p| < |s| ==> s[|p|] == sep) && sep !in m
    ensures (|s| >= |m| && s[..|m|] == m) <==> (|p| >= |m| && p[..|m|] == m)
  {
    if |p| < |m| <= |s| {
      assert s[..|m|][|p|] == sep;
    }
    if |m| <= |p| {
      assert p[..|m|] == s[..|m|];
    }
  }

  predicate IsDigit(c: char) {
    '0' <= c <= '9'
  }

  function DigitChar(d: nat): (c: char)
    requires d < 10
    ensures IsDigit(c) && c as int - '0' as int == d
  {
    "0123456789"[d]
  }

  function DigitValue(c: char): nat
    requires IsDigit(c)
  {
    c as int - '0' as int
  }

  /** Decimal text of a natural number, without leading zeros. */
  function NatToString(n: nat): (s: string)
    ensures |s| >= 1
    ensures forall i :: 0 <= i < |s| ==> IsDigit(s[i])
    ensures s[0] != '0' || s == "0"
  {
    if n < 10 then [DigitChar(n)] else NatToString(n / 10) + [DigitChar(n % 10)]
  }

  /** Number.prototype.toString for an integer. */
  function IntToString(n: int): string {
    if n < 0 then "-" + NatToString(-n) else NatToString(n)
  }

  predicate AllDigits(s: string) {
    forall i :: 0 <= i < |s| ==> IsDigit(s[i])
  }

  /** A numeric identifier of Semantic Versioning: digits, and no leading zero unless it is "0". */
  predicate Canonical(s: string) {
    |s| >= 1 && AllDigits(s) && (s[0] != '0' || s == "0")
  }

  function DigitsValue(s: string): nat
    requires AllDigits(s)
  {
    if |s| == 0 then 0 else DigitsValue(s[..|s| - 1]) * 10 + DigitValue(s[|s| - 1])
  }

  function ParseNat(s: string): Option<nat> {
    if Canonical(s) then Some(DigitsValue(s)) else None
  }

  lemma {:induction false} DigitsValueOfNatToString(n: nat)
    ensures DigitsValue(NatToString(n)) == n
  {
    if n >= 10 {
      var s := NatToString(n);
      assert s[..|s| - 1] == NatToString(n / 10);
      DigitsValueOfNatToString(n / 10);
    }
  }

  /** Printing a number and reading it back gives the number. */
  lemma NatRoundTrip(n: nat)
    ensures ParseNat(NatToString(n)) == Some(n)
  {
    DigitsValueOfNatToString(n);
  }

  lemma {:induction false} LeadingDigitPositive(s: string)
    requires |s| >= 1 && AllDigits(s) && s[0] != '0'
    ensures DigitsValue(s) >= 1
  {
    if |s| > 1 {
      LeadingDigitPositive(s[..|s| - 1]);
    }
  }

  /** Reading a canonical numeral and printing the number gives the numeral back. */
  lemma {:induction false} CanonicalRoundTrip(s: string)
    requires Canonical(s)
    ensures NatToString(DigitsValue(s)) == s
  {
    if |s| > 1 {
      var p := s[..|s| - 1];
      LeadingDigitPositive(p);
      CanonicalRoundTrip(p);
      var n := DigitsValue(s);
      assert n / 10 == DigitsValue(p) && n % 10 == DigitValue(s[|s| - 1]);
      assert s == p + [s[|s| - 1]];
    }
  }

  /** Distinct numbers print differently. */
  lemma NatToStringInjective(m: nat, n: nat)
    requires m != n
    ensures NatToString(m) != NatToString(n)
  {
    NatRoundTrip(m);
    NatRoundTrip(n);
  }
}

=== FILE: tree.dfy ===
/** The workspace as a finite directory tree, and `lookup`
    (shared/src/utils.ts): the pre-order walk that collects every directory
    below the root that directly contains a marker file. Paths are sequences
    of names relative to the root; the root itself is the empty path. */
module Tree {
  import opened Outcome
  import opened Sequences

  /** A directory entry. Children are in the order the directory listing returns them. */
  datatype Entry = File(name: string) | Dir(name: string, children: seq<Entry>)

  /** Names relative to the workspace root. */
  type Path = seq<string>

  /** Sibling names are distinct, at every level. A directory listing never repeats a name. */
  predicate WellFormed(es: seq<Entry>)
    decreases es
  {
    && (forall i, j :: 0 <= i < j < |es| ==> es[i].name != es[j].name)
    && (forall i :: 0 <= i < |es| ==> es[i].Dir? ==> WellFormed(es[i].children))
  }

  /** The entry with the given name. */
  function Child(es: seq<Entry>, name: string): (r: Option<Entry>)
    ensures r.Some? ==> r.value in es && r.value.name == name
    ensures r.None? <==> forall i :: 0 <= i < |es| ==> es[i].name != name
  {
    if |es| == 0 then None
    else if es[0].name == name then Some(es[0])
    else
      var r := Child(es[1..], name);
      assert forall i :: 1 <= i < |es| ==> es[i] == es[1..][i - 1];
      r
  }

  /** The entry a non-empty path names, if any. */
  function Resolve(es: seq<Entry>, p: Path): Option<Entry>
    decreases p
  {
    if |p| == 0 then None
    else
      match Child(es, p[0])
      case None => None
      case Some(e) =>
        if |p| == 1 then Some(e)
        else if e.Dir? then Resolve(e.children, p[1..])
        else None
  }

  /** `fs.existsSync` of a path below the root: a file or a directory is there. */
  predicate Exists(es: seq<Entry>, p: Path) {
    Resolve(es, p).Some?
  }

  /** A directory (not the root) that directly contains an entry named `marker`. */
  predicate Marked(es: seq<Entry>, p: Path, marker: string) {
    match Resolve(es, p)
    case Some(Dir(_, cs)) => Child(cs, marker).Some?
    case _ => false
  }

  /** Prefixes every path with the name of the directory it was found in. */
  function Under(name: string, ps: seq<Path>): (r: seq<Path>)
    ensures |r| == |ps|
    ensures forall i :: 0 <= i < |ps| ==> r[i] == [name] + ps[i]
  {
    seq(|ps|, i requires 0 <= i < |ps| => [name] + ps[i])
  }

  /** lookup: for each directory in listing order, itself when it holds the marker,
      then everything found below it. */
  function Lookup(es: seq<Entry>, marker: string): seq<Path>
    decreases es
  {
    if |es| == 0 then [] else Found(es[0], marker) + Lookup(es[1..], marker)
  }

  /** What lookup finds for one entry of a listing: nothing for a file; for a
      directory, itself when it holds the marker, then its subtree. */
  function Found(e: Entry, marker: string): seq<Path>
    decreases e
  {
    match e
    case File(_) => []
    case Dir(n, cs) => (if Child(cs, marker).Some? then [[n]] else []) + Under(n, Lookup(cs, marker))
  }

  /** The facts well-formedness gives about the first entry and the rest. */
  lemma WellFormedParts(es: seq<Entry>)
    requires WellFormed(es) && |es| > 0
    ensures WellFormed(es[1..])
    ensures es[0].Dir? ==> WellFormed(es[0].children)
    ensures forall i :: 0 <= i < |es[1..]| ==> es[1..][i].name != es[0].name
  {
    assert forall i :: 0 <= i < |es[1..]| ==> es[1..][i] == es[i + 1];
  }

  /** The first path name selects the first entry when it carries that name. */
  lemma ResolveFirst(es: seq<Entry>, p: Path)
    requires |es| > 0 && |p| > 0 && es[0].name == p[0]
    ensures Resolve(es, p) == if |p| == 1 then Some(es[0]) else if es[0].Dir? then Resolve(es[0].children, p[1..]) else None
  {
  }

  predicate IsProperPrefix(a: Path, b: Path) {
    |a| < |b| && b[..|a|] == a
  }

  /** Every directory comes before the directories below it. */
  predicate PreOrder(ps: seq<Path>) {
    forall i, j :: 0 <= i < |ps| && 0 <= j < |ps| && IsProperPrefix(ps[i], ps[j]) ==> i < j
  }

  /** Resolving a path whose first name is not the first entry's skips that entry. */
  lemma ResolveSkipsFirst(es: seq<Entry>, p: Path)
    requires |es| > 0 && |p| > 0 && es[0].name != p[0]
    ensures Resolve(es, p) == Resolve(es[1..], p)
  {
    assert Child(es, p[0]) == Child(es[1..], p[0]);
  }

  /** Every path found for an entry is non-empty and starts with the entry's name. */
  lemma FoundHeads(e: Entry, marker: string)
    ensures forall k :: 0 <= k < |Found(e, marker)| ==> |Found(e, marker)[k]| >= 1 && Found(e, marker)[k][0] == e.name
  {
  }

  /** Every path found starts with the name of one of the scanned entries. */
  lemma {:induction false} LookupHeads(es: seq<Entry>, marker: string)
    ensures forall k :: 0 <= k < |Lookup(es, marker)| ==>
              |Lookup(es, marker)[k]| >= 1 && exists i :: 0 <= i < |es| && es[i].name == Lookup(es, marker)[k][0]
    decreases es
  {
    if |es| > 0 {
      LookupHeads(es[1..], marker);
      FoundHeads(es[0], marker);
      var here, rest := Found(es[0], marker), Lookup(es[1..], marker);
      forall k | 0 <= k < |here| + |rest|
        ensures |(here + rest)[k]| >= 1 && exists i :: 0 <= i < |es| && es[i].name == (here + rest)[k][0]
      {
        if k >= |here| {
          var i :| 0 <= i < |es[1..]| && es[1..][i].name == rest[k - |here|][0];
          assert es[i + 1] == es[1..][i];
        }
      }
    }
  }

  /** A path found in the rest of a well-formed listing is resolved past the first entry. */
  lemma InRestSkipsFirst(es: seq<Entry>, marker: string, p: Path)
    requires WellFormed(es) && |es| > 0
    requires p in Lookup(es[1..], marker)
    ensures |p| >= 1 && Resolve(es, p) == Resolve(es[1..], p)
  {
    LookupHeads(es[1..], marker);
    WellFormedParts(es);
    var k :| 0 <= k < |Lookup(es[1..], marker)| && Lookup(es[1..], marker)[k] == p;
    ResolveSkipsFirst(es, p);
  }

  /** lookup finds only marked directories. */
  lemma {:induction false} LookupSound(es: seq<Entry>, marker: string, p: Path)
    requires WellFormed(es)
    requires p in Lookup(es, marker)
    ensures Marked(es, p, marker)
    decreases es
  {
    WellFormedParts(es);
    if p in Lookup(es[1..], marker) {
      LookupSound(es[1..], marker, p);
      InRestSkipsFirst(es, marker, p);
    } else {
      FoundSound(es, marker, p);
    }
  }

  /** A path found for the first entry of a well-formed listing is marked. */
  lemma {:induction false} FoundSound(es: seq<Entry>, marker: string, p: Path)
    requires WellFormed(es) && |es| > 0
    requires p in Found(es[0], marker)
    ensures Marked(es, p, marker)
    decreases es, 0
  {
    var e := es[0];
    WellFormedParts(es);
    var n, cs := e.name, e.children;
    var below := Lookup(cs, marker);
    if p != [n] {
      assert p in Under(n, below);
      var k :| 0 <= k < |below| && p == [n] + below[k];
      LookupSound(cs, marker, below[k]);
      LookupHeads(cs, marker);
      assert p[1..] == below[k];
      ResolveFirst(es, p);
    } else {
      ResolveFirst(es, p);
      LookupHeads(cs, marker);
    }
  }

  /** lookup finds every marked directory. */
  lemma {:induction false} LookupComplete(es: seq<Entry>, marker: string, p: Path)
    requires |p| >= 1 && Marked(es, p, marker)
    ensures p in Lookup(es, marker)
    decreases es
  {
    var e := es[0];
    if e.name == p[0] {
      ResolveFirst(es, p);
      if |p| > 1 {
        LookupComplete(e.children, marker, p[1..]);
        var below := Lookup(e.children, marker);
        var k :| 0 <= k < |below| && below[k] == p[1..];
        assert Under(e.name, below)[k] == p;
      } else {
        assert e.Dir? && Child(e.children, marker).Some?;
        assert Found(e, marker)[0] == p;
      }
      assert p in Found(e, marker);
      assert Lookup(es, marker) == Found(e, marker) + Lookup(es[1..], marker);
    } else {
      ResolveSkipsFirst(es, p);
      LookupComplete(es[1..], marker, p);
    }
  }

  /** lookup returns exactly the marked directories below the root. */
  lemma LookupExactly(es: seq<Entry>, marker: string, p: Path)
    requires WellFormed(es)
    ensures p in Lookup(es, marker) <==> |p| >= 1 && Marked(es, p, marker)
  {
    if p in Lookup(es, marker) {
      LookupSound(es, marker, p);
      LookupHeads(es, marker);
    }
    if |p| >= 1 && Marked(es, p, marker) {
      LookupComplete(es, marker, p);
    }
  }

  lemma UnderKeepsNoDuplicates(n: string, ps: seq<Path>)
    requires NoDuplicates(ps)
    ensures NoDuplicates(Under(n, ps))
  {
    var r := Under(n, ps);
    forall i, j | 0 <= i < j < |r| ensures r[i] != r[j] {
      assert r[i][1..] == ps[i] && r[j][1..] == ps[j];
    }
  }

  lemma UnderKeepsPreOrder(n: string, ps: seq<Path>)
    requires PreOrder(ps)
    ensures PreOrder(Under(n, ps))
  {
    var r := Under(n, ps);
    forall i, j | 0 <= i < |r| && 0 <= j < |r| && IsProperPrefix(r[i], r[j]) ensures i < j {
      assert r[i][1..] == ps[i] && r[j][1..] == ps[j];
      assert r[j][..|r[i]|][1..] == ps[j][..|ps[i]|];
    }
  }

  /** A path is never a proper prefix of one with a different first name. */
  lemma HeadsDiffer(p: Path, q: Path)
    requires |p| >= 1 && |q| >= 1 && p[0] != q[0]
    ensures !IsProperPrefix(p, q)
  {
    if |p| < |q| {
      assert q[..|p|][0] == q[0];
    }
  }

  /** Paths with different first names are never equal and never prefixes of one another. */
  lemma ConcatSeparated(a: seq<Path>, b: seq<Path>)
    requires NoDuplicates(a) && NoDuplicates(b) && PreOrder(a) && PreOrder(b)
    requires forall i, j :: 0 <= i < |a| && 0 <= j < |b| ==> |a[i]| >= 1 && |b[j]| >= 1 && a[i][0] != b[j][0]
    ensures NoDuplicates(a + b) && PreOrder(a + b)
  {
    var c := a + b;
    forall i, j | |a| <= i < |c| && 0 <= j < |a| ensures !IsProperPrefix(c[i], c[j]) {
      assert c[i] == b[i - |a|] && c[j] == a[j];
      HeadsDiffer(c[i], c[j]);
    }
    forall i, j | 0 <= i < |c| && 0 <= j < |c| && IsProperPrefix(c[i], c[j]) ensures i < j {
      if i < |a| && j < |a| {
        assert c[i] == a[i] && c[j] == a[j];
      } else if i >= |a| && j >= |a| {
        assert c[i] == b[i - |a|] && c[j] == b[j - |a|];
      }
    }
    forall i, j | 0 <= i < j < |c| ensures c[i] != c[j] {
      if j < |a| {
        assert c[i] == a[i] && c[j] == a[j];
      } else if i >= |a| {
        assert c[i] == b[i - |a|] && c[j] == b[j - |a|];
      } else {
        assert c[i] == a[i] && c[j] == b[j - |a|];
      }
    }
  }

  /** The paths found for one directory: itself first, then its subtree. */
  lemma {:induction false} FoundOrdered(e: Entry, marker: string)
    requires e.Dir? ==> NoDuplicates(Lookup(e.children, marker)) && PreOrder(Lookup(e.children, marker))
    ensures NoDuplicates(Found(e, marker)) && PreOrder(Found(e, marker))
  {
    if e.Dir? {
      var n, cs := e.name, e.children;
      var below := Lookup(cs, marker);
      UnderKeepsNoDuplicates(n, below);
      UnderKeepsPreOrder(n, below);
      LookupHeads(cs, marker);
      var u := Under(n, below);
      if Child(cs, marker).Some? {
        var here := [[n]] + u;
        assert forall i :: 1 <= i < |here| ==> here[i] == u[i - 1] && |here[i]| >= 2;
      } else {
        assert Found(e, marker) == u;
      }
    }
  }

  /** lookup reports each directory once, and every directory before the ones below it. */
  lemma {:induction false} LookupOrdered(es: seq<Entry>, marker: string)
    requires WellFormed(es)
    ensures NoDuplicates(Lookup(es, marker))
    ensures PreOrder(Lookup(es, marker))
    decreases es
  {
    if |es| > 0 {
      var e := es[0];
      WellFormedParts(es);
      LookupOrdered(es[1..], marker);
      if e.Dir? {
        LookupOrdered(e.children, marker);
      }
      FoundOrdered(e, marker);
      FoundHeads(e, marker);
      LookupHeads(es[1..], marker);
      var here, rest := Found(e, marker), Lookup(es[1..], marker);
      forall i, j | 0 <= i < |here| && 0 <= j < |rest| ensures |here[i]| >= 1 && |rest[j]| >= 1 && here[i][0] != rest[j][0] {
        var k :| 0 <= k < |es[1..]| && es[1..][k].name == rest[j][0];
      }
      ConcatSeparated(here, rest);
    }
  }
}

=== FILE: version_bump.dfy ===
/** The two version-bump actions (kustomize/version-bump and
    helm-chart/version-bump): which units the changed files belong to, and for
    each unit whether its version is kept or bumped past the base branch's.
    Git output and file contents are inputs. */
module VersionBump {
  import opened Outcome
  import Yaml
  import Config
  import Text
  import opened SemVer
  import opened Tree
  import opened Sequences
  import opened Paths
  import opened Listing

  const DefaultVersion := "0.0.0"
  const MissingBaseVersion := "0.0.1"
  const VersionKey := "version"
  const ChartNameDefault := "-"
  const HelmVersionBumpFeature := "helm-chart-version-bump"

  // ---------------------------------------------------------------- version texts

  /** What readOrCreateVersionFile yields: the version text, and whether it
      wrote a fresh `.version` holding 0.0.0. */
  datatype VersionFile = VersionFile(text: string, created: bool)

  /** readOrCreateVersionFile, given the file's content (None: no file). */
  function ReadOrCreateVersionFile(content: Option<string>): (r: VersionFile)
    ensures r.created <==> content.None?
    ensures r.text != ""
    ensures content.None? ==> r.text == DefaultVersion
    ensures content.Some? && Text.AllSpace(content.value) ==> r.text == DefaultVersion
    ensures content.Some? && !Text.AllSpace(content.value) ==> r.text == Text.Trim(content.value)
  {
    if content.None? then VersionFile(DefaultVersion, true)
    else
      var t := Text.Trim(content.value);
      VersionFile(if t == "" then DefaultVersion else t, false)
  }

  /** The base branch's `.version`: trimmed output of `git show`, or 0.0.1 when that is blank. */
  function BaseVersionText(stdout: string): (t: string)
    ensures Text.AllSpace(stdout) ==> t == MissingBaseVersion
    ensures !Text.AllSpace(stdout) ==> t == Text.Trim(stdout)
  {
    var s := Text.Trim(stdout);
    if s == "" then MissingBaseVersion else s
  }

  /** semver's reading of a version text; only the canonical form is read. */
  function VersionOfText(t: string): (r: Result<Version>)
    ensures r.Ok? ==> Show(r.value) == t
    ensures forall v :: t == Show(v) ==> r == Ok(v)
  {
    ParseAll(t);
    match Parse(t)
    case None => Err(InvalidVersion(t))
    case Some(v) => Ok(v)
  }

  lemma ParseAll(t: string)
    ensures Parse(t).Some? ==> Show(Parse(t).value) == t
    ensures forall v :: t == Show(v) ==> Parse(t) == Some(v)
  {
    if Parse(t).Some? {
      ShowParse(t);
    }
    forall v | t == Show(v) ensures Parse(t) == Some(v) {
      ParseShow(v);
    }
  }

  // ---------------------------------------------------------------- decisions

  datatype Level = Major | Minor | Patch

  /** The kustomize verdict. */
  datatype Decision = Keep(level: Level) | BumpTo(target: Version)

  /** kustomize: compare the local version with the base's; keep a greater one,
      labelled against the bumped base; otherwise bump to the base plus one patch. */
  function KustomizeDecide(local: Version, base: Version): (d: Decision)
    ensures d.BumpTo? <==> LessOrEqual(local, base)
    ensures d.BumpTo? ==> d.target == IncPatch(base) && Less(base, d.target) && Less(local, d.target)
    ensures d.Keep? ==> (d.level == Major <==> local.major > base.major)
    ensures d.Keep? ==> (d.level == Minor <==> local.major == base.major && local.minor > base.minor)
    ensures d.Keep? ==> (d.level == Patch <==> local.major == base.major && local.minor == base.minor &&
                                                local.patch > base.patch)
  {
    var bumped := IncPatch(base);
    match Compare(local, base)
    case 1 =>
      if local.major > bumped.major then Keep(Major)
      else if local.minor > bumped.minor then Keep(Minor)
      else Keep(Patch)
    case _ => BumpTo(bumped)
  }

  /** The helm verdict. */
  datatype HelmDecision = Okay | BumpChartTo(target: Version)

  /** helm: compare the local version with the bumped base; bump only when below it. */
  function HelmDecide(local: Version, base: Version): (d: HelmDecision)
    ensures d.BumpChartTo? <==> Less(local, IncPatch(base))
    ensures d.BumpChartTo? ==> d.target == IncPatch(base) && Less(base, d.target) && Less(local, d.target)
  {
    var bumped := IncPatch(base);
    match Compare(local, bumped)
    case -1 => BumpChartTo(bumped)
    case _ => Okay
  }

  /** Below the next patch means at most the base: both variants bump the same
      units, to the same version. */
  lemma VariantsAgree(local: Version, base: Version)
    ensures KustomizeDecide(local, base).BumpTo? <==> HelmDecide(local, base).BumpChartTo?
    ensures KustomizeDecide(local, base).BumpTo? ==>
              KustomizeDecide(local, base).target == HelmDecide(local, base).target
  {
  }

  /** Running again on the bumped version keeps it: a patch increase in
      kustomize, Okay in helm. */
  lemma RerunKeepsBump(local: Version, base: Version)
    requires LessOrEqual(local, base)
    ensures KustomizeDecide(KustomizeDecide(local, base).target, base) == Keep(Patch)
    ensures HelmDecide(HelmDecide(local, base).target, base) == Okay
  {
  }

  // ---------------------------------------------------------------- attribution

  /** The changed files as `git diff --name-only` prints them, one path per line. */
  function ChangedPaths(diff: string): (ps: seq<Path>)
    ensures |ps| == |Text.Split(diff, '\n')|
    ensures forall i :: 0 <= i < |ps| ==> Text.Join(ps[i], "/") == Text.Split(diff, '\n')[i]
  {
    var lines := Text.Split(diff, '\n');
    seq(|lines|, i requires 0 <= i < |lines| => Text.Split(lines[i], '/'))
  }

  function Basename(p: Path): string {
    if |p| == 0 then "" else p[|p| - 1]
  }

  /** The kustomize filter: paths whose file name is on the ignored list are dropped. */
  function Relevant(ps: seq<Path>, ignored: seq<string>): seq<Path> {
    if |ps| == 0 then []
    else (if Basename(ps[0]) in ignored then [] else [ps[0]]) + Relevant(ps[1..], ignored)
  }

  /** The filter keeps exactly the paths whose file name is not ignored, in their order. */
  lemma {:induction false} RelevantMeaning(ps: seq<Path>, ignored: seq<string>)
    ensures forall p :: p in Relevant(ps, ignored) <==> p in ps && Basename(p) !in ignored
    ensures IsSubsequence(Relevant(ps, ignored), ps)
    decreases |ps|
  {
    if |ps| > 0 {
      var rest := Relevant(ps[1..], ignored);
      RelevantMeaning(ps[1..], ignored);
      assert forall q :: q in ps <==> q == ps[0] || q in ps[1..];
      if Basename(ps[0]) !in ignored {
        var r := [ps[0]] + rest;
        assert r[0] == ps[0] && r[1..] == rest;
      } else {
        assert Relevant(ps, ignored) == rest;
      }
    }
  }

  /** One step of the filter on a sequence written as head and tail. */
  lemma RelevantCons(x: Path, rest: seq<Path>, ignored: seq<string>)
    ensures Relevant([x] + rest, ignored) == (if Basename(x) in ignored then [] else [x]) + Relevant(rest, ignored)
  {
    assert ([x] + rest)[0] == x;
    assert ([x] + rest)[1..] == rest;
  }

  lemma {:induction false} RelevantAppend(a: seq<Path>, b: seq<Path>, ignored: seq<string>)
    ensures Relevant(a + b, ignored) == Relevant(a, ignored) + Relevant(b, ignored)
    decreases |a|
  {
    if |a| == 0 {
      assert a + b == b;
    } else {
      var x, tail := a[0], a[1..];
      RelevantAppend(tail, b, ignored);
      assert a == [x] + tail;
      assert a + b == [x] + (tail + b);
      RelevantCons(x, tail + b, ignored);
      RelevantCons(x, tail, ignored);
    }
  }

  /** An ignored file can be added anywhere to the changes without effect. */
  lemma IgnoredFileIsInvisible(ps: seq<Path>, i: nat, p: Path, ignored: seq<string>)
    requires i <= |ps| && Basename(p) in ignored
    ensures Relevant(ps[..i] + [p] + ps[i..], ignored) == Relevant(ps, ignored)
  {
    var pre, post := ps[..i], ps[i..];
    assert [p][1..] == [];
    assert Relevant([p], ignored) == [];
    RelevantAppend(pre, [p], ignored);
    assert Relevant(pre + [p], ignored) == Relevant(pre, ignored);
    RelevantAppend(pre + [p], post, ignored);
    RelevantAppend(pre, post, ignored);
    assert pre + post == ps;
  }

  /** The unit directory a changed path belongs to: the nearest ancestor
      holding the first marker; the next marker only when no ancestor holds the
      first, and so on. */
  function ProjectDir(root: seq<Entry>, ws: string, markers: seq<string>, p: Path): (r: Option<string>)
    ensures r.None? <==> forall m :: m in markers ==> FindInAncestors(root, m, p).None?
    ensures |markers| > 0 && FindInAncestors(root, markers[0], p).Some? ==>
              r == Some(AncestorText(ws, FindInAncestors(root, markers[0], p).value))
  {
    if |markers| == 0 then None
    else
      match IsFileFoundInPath(root, ws, markers[0], p)
      case Some(dir) =>
        assert markers[0] in markers;
        Some(dir)
      case None =>
        assert forall m :: m in markers <==> m == markers[0] || m in markers[1..];
        ProjectDir(root, ws, markers[1..], p)
  }

  /** A `.yml` unit is chosen only when no ancestor at any level holds `.yaml`. */
  lemma YmlOnlyWithoutAnyYaml(root: seq<Entry>, ws: string, p: Path)
    requires ProjectDir(root, ws, [KustomizationYaml, KustomizationYml], p).Some?
    requires ProjectDir(root, ws, [KustomizationYaml, KustomizationYml], p) !=
             IsFileFoundInPath(root, ws, KustomizationYaml, p)
    ensures forall k :: 0 <= k <= |Dirname(p)| ==> !Exists(root, Dirname(p)[..k] + [KustomizationYaml])
    ensures ProjectDir(root, ws, [KustomizationYaml, KustomizationYml], p) ==
            IsFileFoundInPath(root, ws, KustomizationYml, p)
  {
  }

  /** The keys of the modified units, in first-attribution order, with their directories. */
  type Attribution = seq<(string, string)>

  /** `record[key] = dir`: a new key goes last, a known key keeps its place. */
  function Put(m: Attribution, key: string, dir: string): (r: Attribution)
    ensures key in Firsts(m) ==> Firsts(r) == Firsts(m)
    ensures key !in Firsts(m) ==> Firsts(r) == Firsts(m) + [key]
    ensures forall i :: 0 <= i < |r| ==> r[i].1 == (if r[i].0 == key then dir else m[i].1)
  {
    if key in Firsts(m) then seq(|m|, i requires 0 <= i < |m| => if m[i].0 == key then (key, dir) else m[i])
    else m + [(key, dir)]
  }

  /** A changed path that belongs to a unit directory no listing record names. */
  predicate Unlisted(root: seq<Entry>, ws: string, markers: seq<string>, listing: seq<Item>, p: Path) {
    ProjectDir(root, ws, markers, p).Some? && FindKeyByDir(listing, ProjectDir(root, ws, markers, p).value).None?
  }

  /** The key a changed path is attributed to, if it belongs to a unit. */
  function KeyOf(root: seq<Entry>, ws: string, markers: seq<string>, listing: seq<Item>, p: Path): Option<string> {
    match ProjectDir(root, ws, markers, p)
    case None => None
    case Some(dir) => FindKeyByDir(listing, dir)
  }

  /** The forEach over the changed paths: each path that belongs to a unit
      records the unit's key; an unlisted unit aborts the run. */
  function Attribute(root: seq<Entry>, ws: string, markers: seq<string>, listing: seq<Item>,
                     ps: seq<Path>, acc: Attribution): Result<Attribution>
    decreases |ps|
  {
    if |ps| == 0 then Ok(acc)
    else
      match ProjectDir(root, ws, markers, ps[0])
      case None => Attribute(root, ws, markers, listing, ps[1..], acc)
      case Some(dir) =>
        match FindKeyByDir(listing, dir)
        case None => Err(UnknownDir(dir))
        case Some(key) => Attribute(root, ws, markers, listing, ps[1..], Put(acc, key, dir))
  }

  /** The accumulator after the first changed path. */
  function AfterFirst(root: seq<Entry>, ws: string, markers: seq<string>, listing: seq<Item>,
                      p: Path, acc: Attribution): Attribution
  {
    match KeyOf(root, ws, markers, listing, p)
    case None => acc
    case Some(key) => Put(acc, key, ProjectDir(root, ws, markers, p).value)
  }

  /** One step of the walk: an unlisted first path aborts, otherwise the walk
      goes on with the rest and the updated accumulator. */
  lemma AttributeStep(root: seq<Entry>, ws: string, markers: seq<string>, listing: seq<Item>,
                      ps: seq<Path>, acc: Attribution)
    requires |ps| > 0
    ensures Unlisted(root, ws, markers, listing, ps[0]) ==> Attribute(root, ws, markers, listing, ps, acc).Err?
    ensures !Unlisted(root, ws, markers, listing, ps[0]) ==>
              Attribute(root, ws, markers, listing, ps, acc) ==
              Attribute(root, ws, markers, listing, ps[1..], AfterFirst(root, ws, markers, listing, ps[0], acc))
  {
  }

  /** The run aborts exactly when some changed path lies in a unit no record names. */
  lemma {:induction false} AttributeFails(root: seq<Entry>, ws: string, markers: seq<string>, listing: seq<Item>,
                                          ps: seq<Path>, acc: Attribution)
    ensures Attribute(root, ws, markers, listing, ps, acc).Err? <==>
            exists i :: 0 <= i < |ps| && Unlisted(root, ws, markers, listing, ps[i])
    decreases |ps|
  {
    if |ps| > 0 {
      var tail := ps[1..];
      AttributeStep(root, ws, markers, listing, ps, acc);
      AttributeFails(root, ws, markers, listing, tail, AfterFirst(root, ws, markers, listing, ps[0], acc));
      assert forall j :: 0 <= j < |tail| ==> tail[j] == ps[j + 1];
    }
  }

  /** An element of a prefix is an element of the whole sequence. */
  lemma PrefixMember<T>(a: seq<T>, b: seq<T>, x: T)
    requires |a| >= |b| && a[..|b|] == b && x in b
    ensures x in a
  {
    var k :| 0 <= k < |b| && b[k] == x;
    assert a[k] == a[..|b|][k];
  }

  /** Recording a key keeps the earlier keys in place and their number only grows. */
  lemma PutExtends(acc: Attribution, key: string, dir: string)
    ensures |Put(acc, key, dir)| >= |acc| && Firsts(Put(acc, key, dir))[..|acc|] == Firsts(acc)
    ensures key in Firsts(Put(acc, key, dir))
    ensures forall k :: k in Firsts(Put(acc, key, dir)) ==> k in Firsts(acc) || k == key
  {
    if key !in Firsts(acc) {
      assert Firsts(Put(acc, key, dir))[|acc|] == key;
    }
  }

  /** The keys recorded before the walk stay at the front, in place. */
  lemma {:induction false} AttributeExtends(root: seq<Entry>, ws: string, markers: seq<string>, listing: seq<Item>,
                                            ps: seq<Path>, acc: Attribution)
    ensures var r := Attribute(root, ws, markers, listing, ps, acc);
            r.Ok? ==> |r.value| >= |acc| && Firsts(r.value)[..|acc|] == Firsts(acc)
    decreases |ps|
  {
    if |ps| > 0 {
      var next := AfterFirst(root, ws, markers, listing, ps[0], acc);
      AttributeStep(root, ws, markers, listing, ps, acc);
      AttributeExtends(root, ws, markers, listing, ps[1..], next);
      if KeyOf(root, ws, markers, listing, ps[0]).Some? {
        PutExtends(acc, KeyOf(root, ws, markers, listing, ps[0]).value, ProjectDir(root, ws, markers, ps[0]).value);
      }
      var r := Attribute(root, ws, markers, listing, ps, acc);
      if r.Ok? && !Unlisted(root, ws, markers, listing, ps[0]) {
        assert Firsts(r.value)[..|acc|] == Firsts(r.value)[..|next|][..|acc|];
      }
    }
  }

  /** Every unit a changed path belongs to is recorded. */
  lemma {:induction false} AttributeCovers(root: seq<Entry>, ws: string, markers: seq<string>, listing: seq<Item>,
                                           ps: seq<Path>, acc: Attribution)
    ensures var r := Attribute(root, ws, markers, listing, ps, acc);
            r.Ok? ==> forall i :: 0 <= i < |ps| && KeyOf(root, ws, markers, listing, ps[i]).Some? ==>
                        KeyOf(root, ws, markers, listing, ps[i]).value in Firsts(r.value)
    decreases |ps|
  {
    var r := Attribute(root, ws, markers, listing, ps, acc);
    if |ps| > 0 && r.Ok? {
      var tail := ps[1..];
      var next := AfterFirst(root, ws, markers, listing, ps[0], acc);
      AttributeStep(root, ws, markers, listing, ps, acc);
      assert !Unlisted(root, ws, markers, listing, ps[0]);
      AttributeCovers(root, ws, markers, listing, tail, next);
      AttributeExtends(root, ws, markers, listing, tail, next);
      forall i | 0 <= i < |ps| && KeyOf(root, ws, markers, listing, ps[i]).Some?
        ensures KeyOf(root, ws, markers, listing, ps[i]).value in Firsts(r.value)
      {
        if i == 0 {
          var key := KeyOf(root, ws, markers, listing, ps[0]).value;
          PutExtends(acc, key, ProjectDir(root, ws, markers, ps[0]).value);
          PrefixMember(Firsts(r.value), Firsts(next), key);
        } else {
          assert ps[i] == tail[i - 1];
        }
      }
    }
  }

  /** Only the units the changed paths belong to are recorded. */
  lemma {:induction false} AttributeOnlyChanged(root: seq<Entry>, ws: string, markers: seq<string>, listing: seq<Item>,
                                                ps: seq<Path>, acc: Attribution)
    ensures var r := Attribute(root, ws, markers, listing, ps, acc);
            r.Ok? ==> forall k :: k in Firsts(r.value) ==>
                        k in Firsts(acc) || exists i :: 0 <= i < |ps| && KeyOf(root, ws, markers, listing, ps[i]) == Some(k)
    decreases |ps|
  {
    var r := Attribute(root, ws, markers, listing, ps, acc);
    if |ps| > 0 && r.Ok? {
      var tail := ps[1..];
      var next := AfterFirst(root, ws, markers, listing, ps[0], acc);
      AttributeStep(root, ws, markers, listing, ps, acc);
      AttributeOnlyChanged(root, ws, markers, listing, tail, next);
      if KeyOf(root, ws, markers, listing, ps[0]).Some? {
        PutExtends(acc, KeyOf(root, ws, markers, listing, ps[0]).value, ProjectDir(root, ws, markers, ps[0]).value);
      }
      forall k | k in Firsts(r.value) && k !in Firsts(acc)
        ensures exists i :: 0 <= i < |ps| && KeyOf(root, ws, markers, listing, ps[i]) == Some(k)
      {
        if k in Firsts(next) {
          assert KeyOf(root, ws, markers, listing, ps[0]) == Some(k);
        } else {
          var j :| 0 <= j < |tail| && KeyOf(root, ws, markers, listing, tail[j]) == Some(k);
          assert ps[j + 1] == tail[j];
        }
      }
    }
  }

  /** A key is recorded once, however many changed files its unit holds. */
  lemma {:induction false} OneKeyPerUnit(root: seq<Entry>, ws: string, markers: seq<string>, listing: seq<Item>,
                                         ps: seq<Path>, acc: Attribution)
    requires NoDuplicates(Firsts(acc))
    ensures var r := Attribute(root, ws, markers, listing, ps, acc);
            r.Ok? ==> NoDuplicates(Firsts(r.value))
    decreases |ps|
  {
    if |ps| > 0 {
      var next := AfterFirst(root, ws, markers, listing, ps[0], acc);
      AttributeStep(root, ws, markers, listing, ps, acc);
      if KeyOf(root, ws, markers, listing, ps[0]).Some? {
        var key := KeyOf(root, ws, markers, listing, ps[0]).value;
        if key !in Firsts(acc) {
          assert Firsts(next) == Firsts(acc) + [key];
        }
      }
      OneKeyPerUnit(root, ws, markers, listing, ps[1..], next);
    }
  }

  // ---------------------------------------------------------------- kustomize units

  datatype KustomizeAction = KDisabled | KNew | KIncreased(level: Level) | KBumped

  /** One row of the kustomize result table and what the unit's run wrote:
      `written` is the new `.version` content, `created` that readOrCreateVersionFile made the file. */
  datatype KustomizeRow = KustomizeRow(name: string, current: string, base: string, result: string,
                                       action: KustomizeAction, relativePath: string,
                                       written: Option<string>, created: bool)

  /** The unit's display name: the listing's name, or the last name of its relative path. */
  function UnitName(r: Record): string {
    if r.name.Some? && r.name.value.YStr? && r.name.value.s != "" then r.name.value.s
    else Basename(Text.Split(r.relativePath, '/'))
  }

  /** The compare step for a unit found on the base branch. */
  function KustomizeCompare(current: string, base: string): (r: Result<(string, KustomizeAction, Option<string>)>)
    ensures r.Err? <==> VersionOfText(current).Err? || VersionOfText(base).Err?
    ensures r.Ok? && r.value.1 == KBumped ==>
              var b := VersionOfText(base).value;
              LessOrEqual(VersionOfText(current).value, b) &&
              r.value.0 == Show(IncPatch(b)) && r.value.2 == Some(r.value.0)
    ensures r.Ok? && r.value.1 != KBumped ==>
              Less(VersionOfText(base).value, VersionOfText(current).value) &&
              r.value.0 == current && r.value.2.None?
  {
    var local :- VersionOfText(current);
    var b :- VersionOfText(base);
    match KustomizeDecide(local, b)
    case Keep(level) => Ok((current, KIncreased(level), None))
    case BumpTo(target) => Ok((Show(target), KBumped, Some(Show(target))))
  }

  /** One kustomize unit. `config` is its `.ci.config.yaml`, `versionFile` its
      `.version` content, `baseFiles` the base branch's kustomization file
      list, `baseShow` the output of `git show` for its base `.version`. */
  function KustomizeUnit(rec: Record, feature: string, config: Option<Yaml.YVal>, versionFile: Option<string>,
                         baseFiles: seq<string>, baseShow: string): (r: Result<KustomizeRow>)
    ensures r.Ok? ==> r.value.current == ReadOrCreateVersionFile(versionFile).text
    ensures r.Ok? ==> r.value.created == versionFile.None?
    ensures r.Ok? && r.value.action == KDisabled <==> Config.IsFunctionEnabled(config, feature, true) == Ok(false)
    ensures r.Ok? && r.value.action in {KDisabled, KNew} ==> r.value.result == r.value.current && r.value.written.None?
    ensures r.Ok? && r.value.action == KNew <==>
              Config.IsFunctionEnabled(config, feature, true) == Ok(true) &&
              rec.relativePath + "/" + rec.kustomizationFile.GetOr(KustomizationYaml) !in baseFiles
    ensures r.Ok? && r.value.written.Some? ==> r.value.action == KBumped && r.value.written == Some(r.value.result)
    ensures r.Ok? && r.value.action == KBumped ==>
              VersionOfText(r.value.current).Ok? && VersionOfText(r.value.base).Ok? &&
              VersionOfText(r.value.result).Ok? &&
              Less(VersionOfText(r.value.current).value, VersionOfText(r.value.result).value) &&
              Less(VersionOfText(r.value.base).value, VersionOfText(r.value.result).value)
  {
    var enabled :- Config.IsFunctionEnabled(config, feature, true);
    var current := ReadOrCreateVersionFile(versionFile);
    var name := UnitName(rec);
    if !enabled then
      Ok(KustomizeRow(name, current.text, "-", current.text, KDisabled, rec.relativePath, None, current.created))
    else if rec.relativePath + "/" + rec.kustomizationFile.GetOr(KustomizationYaml) !in baseFiles then
      Ok(KustomizeRow(name, current.text, "-", current.text, KNew, rec.relativePath, None, current.created))
    else
      var base := BaseVersionText(baseShow);
      var outcome :- KustomizeCompare(current.text, base);
      assert outcome.1 == KBumped ==> VersionOfText(outcome.0) == Ok(IncPatch(VersionOfText(base).value));
      Ok(KustomizeRow(name, current.text, base, outcome.0, outcome.1, rec.relativePath, outcome.2, current.created))
  }

  /** The first record with the given key, as the listing document's `get` finds it. */
  function RecordByKey(listing: seq<Item>, key: string): (r: Option<Record>)
    ensures r.None? <==> forall i :: 0 <= i < |listing| ==> listing[i].key != key
    ensures r.Some? ==> exists i :: 0 <= i < |listing| && listing[i].key == key && listing[i].record == r.value
  {
    if |listing| == 0 then None
    else if listing[0].key == key then Some(listing[0].record)
    else
      var r := RecordByKey(listing[1..], key);
      assert forall i :: 1 <= i < |listing| ==> listing[i] == listing[1..][i - 1];
      r
  }

  /** The inputs of a run that the model does not compute. */
  datatype Inputs = Inputs(
    ws: string,
    root: seq<Entry>,
    listing: seq<Item>,
    diff: string,
    configOf: string -> Option<Yaml.YVal>,
    baseFiles: seq<string>)

  /** The unit a recorded key names: its listing record, then its row. */
  function KustomizeKeyRow(inp: Inputs, feature: string, key: string,
                           versionFileOf: string -> Option<string>, baseShowOf: string -> string)
    : Result<KustomizeRow>
  {
    match RecordByKey(inp.listing, key)
    case None => Err(MissingKey(key))
    case Some(rec) =>
      KustomizeUnit(rec, feature, inp.configOf(rec.dir), versionFileOf(rec.dir), inp.baseFiles,
                    baseShowOf(rec.relativePath))
  }

  /** Processes the attributed units in order; the first failure ends the run. */
  function KustomizeRows(inp: Inputs, feature: string, units: Attribution,
                         versionFileOf: string -> Option<string>, baseShowOf: string -> string)
    : (r: Result<seq<KustomizeRow>>)
    ensures r.Ok? ==> |r.value| == |units|
    ensures r.Ok? ==> forall i :: 0 <= i < |units| ==>
              (RecordByKey(inp.listing, units[i].0).Some? &&
               KustomizeUnit(RecordByKey(inp.listing, units[i].0).value, feature,
                             inp.configOf(RecordByKey(inp.listing, units[i].0).value.dir),
                             versionFileOf(RecordByKey(inp.listing, units[i].0).value.dir), inp.baseFiles,
                             baseShowOf(RecordByKey(inp.listing, units[i].0).value.relativePath)) == Ok(r.value[i]))
    ensures r.Err? ==>
              exists i :: 0 <= i < |units| &&
                KustomizeKeyRow(inp, feature, units[i].0, versionFileOf, baseShowOf) == Err(r.failure) &&
                forall j :: 0 <= j < i ==> KustomizeKeyRow(inp, feature, units[j].0, versionFileOf, baseShowOf).Ok?
  {
    var step := (u: (string, string)) => KustomizeKeyRow(inp, feature, u.0, versionFileOf, baseShowOf);
    assert forall i :: 0 <= i < |units| ==> step(units[i]) == KustomizeKeyRow(inp, feature, units[i].0, versionFileOf, baseShowOf);
    All(units, step)
  }

  /** The kustomize version-bump run: filter, attribute, then decide per unit. */
  function KustomizeRun(inp: Inputs, ignored: seq<string>, feature: string,
                        versionFileOf: string -> Option<string>, baseShowOf: string -> string)
    : (r: Result<seq<KustomizeRow>>)
    ensures (exists i :: 0 <= i < |Relevant(ChangedPaths(inp.diff), ignored)| &&
              Unlisted(inp.root, inp.ws, [KustomizationYaml, KustomizationYml], inp.listing,
                       Relevant(ChangedPaths(inp.diff), ignored)[i])) ==> r.Err?
  {
    AttributeFails(inp.root, inp.ws, [KustomizationYaml, KustomizationYml], inp.listing,
                   Relevant(ChangedPaths(inp.diff), ignored), []);
    var units :- Attribute(inp.root, inp.ws, [KustomizationYaml, KustomizationYml], inp.listing,
                           Relevant(ChangedPaths(inp.diff), ignored), []);
    KustomizeRows(inp, feature, units, versionFileOf, baseShowOf)
  }

  // ---------------------------------------------------------------- helm units

  datatype HelmAction = HDisabled | HNew | HOkay | HBumped

  /** One row of the helm result table; `written` is the version set in Chart.yaml. */
  datatype HelmRow = HelmRow(name: string, base: string, chartVersion: string, action: HelmAction,
                             relativePath: string, written: Option<string>)

  /** A version read from a Chart.yaml: a string value, read as semver reads it. */
  function ChartVersion(v: Option<Yaml.YVal>, render: Yaml.YVal -> string): (r: Result<Version>)
    ensures r.Ok? ==> v.Some? && v.value.YStr? && Show(r.value) == v.value.s
  {
    if v.Some? && v.value.YStr? then VersionOfText(v.value.s)
    else Err(InvalidVersion(Yaml.Stringify(v, render)))
  }

  /** The `version` (default 0.0.0) of a Chart.yaml document. */
  function VersionField(doc: Yaml.YVal): (v: Option<Yaml.YVal>)
    ensures v.Some?
    ensures Yaml.Get(Yaml.Document(doc), VersionKey) == Ok(None) ==> v == Some(Yaml.YStr(DefaultVersion))
  {
    Config.Unrap(Yaml.Document(doc), VersionKey, Some(Yaml.YStr(DefaultVersion))).value
  }

  /** The compare step for a chart found on the base branch. The bumped base is
      `String(semver.inc(base))`, "null" for an unreadable base. */
  function HelmCompare(chartVersion: Option<Yaml.YVal>, baseVersion: Option<Yaml.YVal>, render: Yaml.YVal -> string)
    : (r: Result<(HelmAction, Option<string>)>)
    ensures r.Err? <==> ChartVersion(chartVersion, render).Err? || ChartVersion(baseVersion, render).Err?
    ensures r.Ok? ==> r.value.0 in {HOkay, HBumped}
    ensures r.Ok? && r.value.0 == HBumped ==>
              var b := ChartVersion(baseVersion, render).value;
              LessOrEqual(ChartVersion(chartVersion, render).value, b) && r.value.1 == Some(Show(IncPatch(b)))
    ensures r.Ok? && r.value.0 == HOkay ==>
              Less(ChartVersion(baseVersion, render).value, ChartVersion(chartVersion, render).value) &&
              r.value.1.None?
  {
    var local :- ChartVersion(chartVersion, render);
    var base :- match ChartVersion(baseVersion, render)
      case Err(_) => Err(InvalidVersion("null"))
      case Ok(b) => Ok(b);
    match HelmDecide(local, base)
    case Okay => Ok((HOkay, None))
    case BumpChartTo(target) => Ok((HBumped, Some(Show(target))))
  }

  /** One chart. `chartDoc` is its Chart.yaml (None: no such file), `baseDoc`
      the base branch's Chart.yaml. */
  function HelmUnit(rec: Record, config: Option<Yaml.YVal>, chartDoc: Option<Yaml.YVal>, baseFiles: seq<string>,
                    baseDoc: Yaml.YVal, render: Yaml.YVal -> string): (r: Result<HelmRow>)
    ensures chartDoc.None? ==> r == Err(ChartYamlMissing(rec.dir))
    ensures r.Ok? && r.value.action == HDisabled <==>
              chartDoc.Some? && Config.IsFunctionEnabled(config, HelmVersionBumpFeature, true) == Ok(false)
    ensures r.Ok? && r.value.action == HNew <==>
              chartDoc.Some? && Config.IsFunctionEnabled(config, HelmVersionBumpFeature, true) == Ok(true) &&
              rec.relativePath + "/" + ChartYaml !in baseFiles
    ensures r.Ok? && r.value.action in {HDisabled, HNew, HOkay} ==> r.value.written.None?
    ensures r.Ok? && r.value.action == HBumped ==>
              chartDoc.Some? && ChartVersion(VersionField(baseDoc), render).Ok? &&
              ChartVersion(VersionField(chartDoc.value), render).Ok? &&
              var b := ChartVersion(VersionField(baseDoc), render).value;
              r.value.written == Some(Show(IncPatch(b))) &&
              LessOrEqual(ChartVersion(VersionField(chartDoc.value), render).value, b)
  {
    if chartDoc.None? then Err(ChartYamlMissing(rec.dir))
    else
      var version := VersionField(chartDoc.value);
      var name := Yaml.Stringify(Config.Unrap(Yaml.Document(chartDoc.value), NameKey, Some(Yaml.YStr(ChartNameDefault))).value, render);
      var versionText := Yaml.Stringify(version, render);
      var enabled :- Config.IsFunctionEnabled(config, HelmVersionBumpFeature, true);
      if !enabled then Ok(HelmRow(name, "-", versionText, HDisabled, rec.relativePath, None))
      else if rec.relativePath + "/" + ChartYaml !in baseFiles then
        Ok(HelmRow(name, "-", versionText, HNew, rec.relativePath, None))
      else
        var baseVersion := VersionField(baseDoc);
        var outcome :- HelmCompare(version, baseVersion, render);
        Ok(HelmRow(name, Yaml.Stringify(baseVersion, render), versionText, outcome.0, rec.relativePath, outcome.1))
  }

  /** The chart a recorded key names: its listing record, then its row. */
  function HelmKeyRow(inp: Inputs, key: string, chartDocOf: string -> Option<Yaml.YVal>,
                     baseDocOf: string -> Yaml.YVal, render: Yaml.YVal -> string): Result<HelmRow>
  {
    match RecordByKey(inp.listing, key)
    case None => Err(MissingKey(key))
    case Some(rec) =>
      HelmUnit(rec, inp.configOf(rec.dir), chartDocOf(rec.dir), inp.baseFiles, baseDocOf(rec.relativePath), render)
  }

  /** Processes the attributed charts in order; the first failure ends the run. */
  function HelmRows(inp: Inputs, units: Attribution, chartDocOf: string -> Option<Yaml.YVal>,
                    baseDocOf: string -> Yaml.YVal, render: Yaml.YVal -> string): (r: Result<seq<HelmRow>>)
    ensures r.Ok? ==> |r.value| == |units|
    ensures r.Ok? ==> forall i :: 0 <= i < |units| ==>
              (RecordByKey(inp.listing, units[i].0).Some? &&
               HelmUnit(RecordByKey(inp.listing, units[i].0).value,
                        inp.configOf(RecordByKey(inp.listing, units[i].0).value.dir),
                        chartDocOf(RecordByKey(inp.listing, units[i].0).value.dir), inp.baseFiles,
                        baseDocOf(RecordByKey(inp.listing, units[i].0).value.relativePath), render) == Ok(r.value[i]))
    ensures r.Err? ==>
              exists i :: 0 <= i < |units| &&
                HelmKeyRow(inp, units[i].0, chartDocOf, baseDocOf, render) == Err(r.failure) &&
                forall j :: 0 <= j < i ==> HelmKeyRow(inp, units[j].0, chartDocOf, baseDocOf, render).Ok?
  {
    var step := (u: (string, string)) => HelmKeyRow(inp, u.0, chartDocOf, baseDocOf, render);
    assert forall i :: 0 <= i < |units| ==> step(units[i]) == HelmKeyRow(inp, units[i].0, chartDocOf, baseDocOf, render);
    All(units, step)
  }

  /** The helm version-bump run: no ignored-file filter; Chart.yaml marks a unit. */
  function HelmRun(inp: Inputs, chartDocOf: string -> Option<Yaml.YVal>, baseDocOf: string -> Yaml.YVal,
                   render: Yaml.YVal -> string): (r: Result<seq<HelmRow>>)
    ensures (exists i :: 0 <= i < |ChangedPaths(inp.diff)| &&
              Unlisted(inp.root, inp.ws, [ChartYaml], inp.listing, ChangedPaths(inp.diff)[i])) ==> r.Err?
  {
    AttributeFails(inp.root, inp.ws, [ChartYaml], inp.listing, ChangedPaths(inp.diff), []);
    var units :- Attribute(inp.root, inp.ws, [ChartYaml], inp.listing, ChangedPaths(inp.diff), []);
    HelmRows(inp, units, chartDocOf, baseDocOf, render)
  }
}

=== FILE: yaml.dfy ===
/** The parsed YAML values the actions read, and the two ways the source reads a
    key: through a `yaml.Document` (never throws) and through a node that a
    previous `get` returned (throws when that "node" is a scalar or null). */
module Yaml {
  import opened Outcome
  import Text

  /** A parsed YAML value. Mappings keep their pairs in document order; numbers
      are integers. */
  datatype YVal =
    | YNull
    | YBool(b: bool)
    | YNum(n: int)
    | YStr(s: string)
    | YSeq(items: seq<YVal>)
    | YMap(pairs: seq<Pair>)

  datatype Pair = Pair(key: string, value: YVal)

  predicate IsCollection(v: YVal) {
    v.YSeq? || v.YMap?
  }

  predicate HasKey(pairs: seq<Pair>, key: string) {
    exists i :: 0 <= i < |pairs| && pairs[i].key == key
  }

  /** The value of the first pair with the given key, as the YAML library finds a pair. */
  function Lookup(pairs: seq<Pair>, key: string): (r: Option<YVal>)
    ensures r.None? <==> !HasKey(pairs, key)
    ensures r.Some? ==> exists i :: 0 <= i < |pairs| && pairs[i] == Pair(key, r.value)
                                     && forall j :: 0 <= j < i ==> pairs[j].key != key
  {
    if |pairs| == 0 then None
    else if pairs[0].key == key then Some(pairs[0].value)
    else
      var r := Lookup(pairs[1..], key);
      LookupTail(pairs, key, r);
      r
  }

  lemma LookupTail(pairs: seq<Pair>, key: string, r: Option<YVal>)
    requires |pairs| > 0 && pairs[0].key != key
    requires r.None? <==> !HasKey(pairs[1..], key)
    requires r.Some? ==> exists i :: 0 <= i < |pairs[1..]| && pairs[1..][i] == Pair(key, r.value)
                                     && forall j :: 0 <= j < i ==> pairs[1..][j].key != key
    ensures r.None? <==> !HasKey(pairs, key)
    ensures r.Some? ==> exists i :: 0 <= i < |pairs| && pairs[i] == Pair(key, r.value)
                                     && forall j :: 0 <= j < i ==> pairs[j].key != key
  {
    if HasKey(pairs, key) {
      var i :| 0 <= i < |pairs| && pairs[i].key == key;
      assert pairs[1..][i - 1].key == key;
    }
    if r.Some? {
      var i :| 0 <= i < |pairs[1..]| && pairs[1..][i] == Pair(key, r.value)
               && forall j :: 0 <= j < i ==> pairs[1..][j].key != key;
      assert pairs[i + 1] == Pair(key, r.value);
      forall j | 0 <= j < i + 1 ensures pairs[j].key != key {
        if j > 0 { assert pairs[j] == pairs[1..][j - 1]; }
      }
    }
  }

  /** Where a key is read from. */
  datatype Holder =
    /** A `yaml.Document`: `get` on a document whose contents are not a collection is undefined. */
    | Document(contents: YVal)
    /** A value that an earlier `get` returned: a collection node, or a bare scalar. */
    | Node(value: YVal)

  function Subject(h: Holder): YVal {
    match h
    case Document(v) => v
    case Node(v) => v
  }

  /** `get(key)` on the holder. A sequence holds no item under a non-index key;
      calling `get` on a scalar or null is a TypeError. */
  function Get(h: Holder, key: string): (r: Result<Option<YVal>>)
    ensures r.Err? <==> h.Node? && !IsCollection(h.value)
    ensures r.Ok? && r.value.Some? <==> Subject(h).YMap? && HasKey(Subject(h).pairs, key)
    ensures r.Ok? && r.value.Some? ==> r.value == Lookup(Subject(h).pairs, key)
  {
    match h
    case Document(YMap(ps)) => Ok(Lookup(ps, key))
    case Document(_) => Ok(None)
    case Node(YMap(ps)) => Ok(Lookup(ps, key))
    case Node(YSeq(_)) => Ok(None)
    case Node(_) => Err(TypeError("get('" + key + "') on a scalar"))
  }

  /** JavaScript truthiness of a value `get` returned; None is `undefined`. */
  predicate Truthy(o: Option<YVal>) {
    match o
    case None => false
    case Some(YNull) => false
    case Some(YBool(b)) => b
    case Some(YNum(n)) => n != 0
    case Some(YStr(s)) => s != ""
    case Some(_) => true
  }

  /** JavaScript's String() of the plain value `toJSON()` produces: arrays print
      their items joined by commas (null items print as nothing), objects print
      as "[object Object]". */
  function JsText(v: YVal): string
    decreases v
  {
    match v
    case YNull => "null"
    case YBool(b) => if b then "true" else "false"
    case YNum(n) => Text.IntToString(n)
    case YStr(s) => s
    case YSeq(items) => Text.Join(ItemTexts(items), ",")
    case YMap(_) => "[object Object]"
  }

  function ItemTexts(items: seq<YVal>): (r: seq<string>)
    ensures |r| == |items|
    decreases items
  {
    if |items| == 0 then []
    else [if items[0] == YNull then "" else JsText(items[0])] + ItemTexts(items[1..])
  }

  /** JavaScript's String() of what `get` returned: None is `undefined`; a
      collection node prints as YAML text, which `render` supplies. */
  function Stringify(o: Option<YVal>, render: YVal -> string): (t: string)
    ensures o.None? ==> t == "undefined"
    ensures o.Some? && o.value.YStr? ==> t == o.value.s
    ensures o.Some? && !IsCollection(o.value) ==> t == JsText(o.value)
    ensures o.Some? && IsCollection(o.value) ==> t == render(o.value)
  {
    match o
    case None => "undefined"
    case Some(YNull) => "null"
    case Some(YBool(b)) => if b then "true" else "false"
    case Some(YNum(n)) => Text.IntToString(n)
    case Some(YStr(s)) => s
    case Some(v) => render(v)
  }
}
